=== FILE: README.md ===
# LibreCAD: DWG object-graph reader, line-width tables, command line and custom toolbar

This project is a Dafny model of four pieces of LibreCAD, with proofs about each.

- **libdxfrw's DWG reader** (`dwgReader` in `dwgreader.cpp`). The object map is a `map<nat, ObjHandle>`, consumed in place. `std::map::operator[]` is modelled exactly: a missing key yields, and inserts, a default entry with handle 0.
  - The reader loads seven tables in a fixed order: line types, layers, text styles, dimension styles, viewports, block records and application ids.
  - It cross-links layers to line-type names.
  - It walks every block record's entities, and every polyline's vertices. Before R2004 this follows the `nextEntLink` chain; from R2004 on it uses a precomputed list.
  - It sweeps the remaining objects as top-level entities, in ascending key order.
  - It dispatches each entity by type code, redirecting codes above 499 through the class table.
  - `DRW_ObjControl::parseDwg` builds a control record's member-handle list.
  - The bit buffer and every per-record `parseDwg` are an oracle, `DwgModel.DwgFile`: functions from a file location to the decoded record and its success flag. The drawing interface is an append-only sequence of `Event`s, held by `DwgReading.Sink`.
  - Each stage is defined twice: once as a pure specification function in `DwgSpec`, and once as an imperative method of the class `DwgReading.DwgReader`. Each method is proved to end in the state its specification function gives. `DwgReader`'s fields are the reader's own maps and cursors, and the methods update them in place.
  - The properties of the specification are proved in `DwgProperties`; those of the block-member walks are proved in `DwgBlockWalks`.
- **`drw_base.h`:**
  - the `DRW::Version` order and the version gates the reader uses;
  - `dwgHandle` defaults;
  - the `DRW_Variant` class with its type-tag setters;
  - the four `DRW_LW_Conv` line-width converters (module `DrwLwConv`).
- **`QG_CommandEdit`** (module `CommandEdit`): the command line's history list, history cursor, calculator mode and "clear"/"cal"/Escape handling. This is a pure transition function `KeyPress`, plus the class `QGCommandEdit`, whose `KeyPressEvent` is proved to follow it.
- **`LC_CustomToolbar`** (module `CustomToolbar`): the toolbar's token list. It is filled by filtering a file's lines, toggled one action at a time, given separators, and written back by the destructor.

A pre-R2004 chain walk that is redirected to a `lastEH` missing from the object map loops forever in the source. The model does not require callers to avoid this. It stops such a walk with a `hung` flag, proves that the loop body is then a fixed point, and propagates `hung` outward: a run that hangs never returns.

`DRW_ObjControl::parseDwg` adds two implicit entries for object types 48 (block record control) and 56 (line-type control) (`dwgreader.cpp:1096`).

## Model

| member | source | states |
|---|---|---|
| DrwBase.VersionTotalOrder | libraries/libdxfrw/src/drw_base.h:68-79 | Versions are strictly totally ordered by their enumeration position: irreflexive, asymmetric, transitive, and two versions have the same position only when equal |
| DrwBase.VersionGates | libraries/libdxfrw/src/drw_base.h:68-79 | The reader's gates select exactly these versions: "< AC1018" is UNKNOWNV..AC1015, "> AC1021" is AC1024/AC1027, "> AC1018" is AC1021 and later, "> AC1014" is AC1015 and later; pre-2004 and 2010+ never overlap |
| DrwBase.DefaultHandle | libraries/libdxfrw/src/drw_base.h:284-295 | A default dwgHandle has code, size and ref all 0, so its ref equals NoHandle |
| DrwBase.ToInt32 | libraries/libdxfrw/src/drw_base.h:228-230 | The static_cast of an unsigned 32-bit value to dint32 keeps values below 2^31 and maps larger ones to the negative value 2^32 below them |
| DrwBase.DrwVariant.constructor | libraries/libdxfrw/src/drw_base.h:221-223 | A default variant has type INVALID and no content |
| DrwBase.DrwVariant.FromInt | libraries/libdxfrw/src/drw_base.h:225-227 | Code as given, type INTEGER, integer content |
| DrwBase.DrwVariant.FromUInt | libraries/libdxfrw/src/drw_base.h:228-230 | Code as given, type INTEGER, content is the two's-complement reinterpretation of the unsigned value |
| DrwBase.DrwVariant.FromDouble | libraries/libdxfrw/src/drw_base.h:231-233 | Code as given, type DOUBLE, double content |
| DrwBase.DrwVariant.FromString | libraries/libdxfrw/src/drw_base.h:234-236 | Code as given, type STRING, the string is stored and the content points at this variant's own string |
| DrwBase.DrwVariant.FromCoord | libraries/libdxfrw/src/drw_base.h:237-239 | Code as given, type COORD, the coordinate is stored and the content points at this variant's own coordinate |
| DrwBase.DrwVariant.Copy | libraries/libdxfrw/src/drw_base.h:240-246 | As written: code, type and stored data are copied, and the content is copied verbatim, so a string or coordinate copy still points into the original |
| DrwBase.DrwVariant.CopyOwned | libraries/libdxfrw/src/drw_base.h:240-246 | Corrected copy: same code, type and data, but a string or coordinate copy points at its own storage; other contents are copied |
| DrwBase.DrwVariant.AddString | libraries/libdxfrw/src/drw_base.h:251 | Type becomes STRING, the string is stored and the content points at it; code and coordinate unchanged |
| DrwBase.DrwVariant.AddInt | libraries/libdxfrw/src/drw_base.h:252 | Type becomes INTEGER with that content; code and stored data unchanged |
| DrwBase.DrwVariant.AddDouble | libraries/libdxfrw/src/drw_base.h:253 | Type becomes DOUBLE with that content; code and stored data unchanged |
| DrwBase.DrwVariant.AddOriginCoord | libraries/libdxfrw/src/drw_base.h:254 | Type becomes COORD, the coordinate is reset to (0,0,0) and the content points at it |
| DrwBase.DrwVariant.AddCoord | libraries/libdxfrw/src/drw_base.h:255 | Type becomes COORD, the given coordinate is stored and the content points at it |
| DrwBase.DrwVariant.SetType | libraries/libdxfrw/src/drw_base.h:256 | Only the type tag changes |
| DrwBase.DrwVariant.SetCoordX | libraries/libdxfrw/src/drw_base.h:257 | On a COORD variant only x changes; on any other type nothing changes |
| DrwBase.DrwVariant.SetCoordY | libraries/libdxfrw/src/drw_base.h:258 | On a COORD variant only y changes; on any other type nothing changes |
| DrwBase.DrwVariant.SetCoordZ | libraries/libdxfrw/src/drw_base.h:259 | On a COORD variant only z changes; on any other type nothing changes |
| DrwBase.CopyAliasesOriginal | libraries/libdxfrw/src/drw_base.h:240-246 | Copying a string variant yields a distinct object whose content still refers to the original's string |
| DrwBase.CopyOwnedPointsAtItself | libraries/libdxfrw/src/drw_base.h:240-246 | With the corrected copy, the copy's content refers to its own string, which equals the original's |
| DrwLwConv.LineWidth2DxfInt | libraries/libdxfrw/src/drw_base.h:336-396 | A DXF width lies in -3..211; it is negative exactly for ByLayer, ByBlock and Default; -3 means Default or a value that names no enumerator |
| DrwLwConv.LineWidth2DwgInt | libraries/libdxfrw/src/drw_base.h:398-400 | A DWG width lies in 0..31 and reads back as the same enumerator |
| DrwLwConv.DxfInt2LineWidth | libraries/libdxfrw/src/drw_base.h:402-461 | Every DXF integer gives an enumerator: width00..width23 for non-negative values, ByLayer, ByBlock or Default for negative ones |
| DrwLwConv.DwgInt2LineWidth | libraries/libdxfrw/src/drw_base.h:463-469 | Every DWG integer gives an enumerator: the value itself or widthDefault |
| DrwLwConv.DxfRoundTrip | libraries/libdxfrw/src/drw_base.h:336-461 | dxfInt2lineWidth(lineWidth2dxfInt(w)) == w for every enumerator (width00..width23, ByLayer, ByBlock, Default) |
| DrwLwConv.DwgRoundTrip | libraries/libdxfrw/src/drw_base.h:398-469 | dwgInt2lineWidth(lineWidth2dwgInt(w)) == w for every enumerator |
| DrwLwConv.DwgRoundTripOutsideEnum | libraries/libdxfrw/src/drw_base.h:398-469 | A value between width23 and ByLayer that is not an enumerator comes back as widthDefault |
| DrwLwConv.DwgRangeCheck | libraries/libdxfrw/src/drw_base.h:463-469 | dwgInt2lineWidth(i) == i exactly when 0 <= i <= 23 or 29 <= i <= 31, widthDefault otherwise; the result is always an enumerator |
| DrwLwConv.DxfNegatives | libraries/libdxfrw/src/drw_base.h:402-461 | -1, -2, -3 map to ByLayer, ByBlock, Default; every other negative falls through to widthDefault |
| DrwLwConv.DxfNonNegativeRange | libraries/libdxfrw/src/drw_base.h:402-461 | A non-negative input maps to a width00..width23 value, and every input >= 205 maps to width23 |
| DrwLwConv.DxfMonotone | libraries/libdxfrw/src/drw_base.h:402-461 | dxfInt2lineWidth is monotone non-decreasing on non-negative inputs |
| DrwLwConv.DxfSpecialOutputs | libraries/libdxfrw/src/drw_base.h:336-396 | ByLayer, ByBlock and Default give -1, -2, -3; any value outside the enumeration gives -3; width00..width23 give non-negative values |
| DrwLwConv.DxfStrictlyIncreasing | libraries/libdxfrw/src/drw_base.h:336-396 | For width00..width23, lineWidth2dxfInt is non-negative and strictly increasing with the enumerator |
| ObjMap.Subscript | libraries/libdxfrw/src/intern/dwgreader.cpp:665 | operator[] leaves the key present, returns the stored entry or the default one, and changes no other key |
| ObjMap.TakeByKey | libraries/libdxfrw/src/intern/dwgreader.cpp:708-709 | Look-up then erase by key: the key is gone and nothing else changes |
| ObjMap.TakeByHandle | libraries/libdxfrw/src/intern/dwgreader.cpp:665-667 | Look-up then erase by the returned handle: a found entry is removed; a missing key is left behind as a default entry and key 0 is erased |
| ObjMap.TakeByHandleFound | libraries/libdxfrw/src/intern/dwgreader.cpp:665-667 | When every entry is stored under its own handle, a found lookup removes exactly that key |
| ObjMap.TakeByHandleMissing | libraries/libdxfrw/src/intern/dwgreader.cpp:665-667 | A missing nonzero key stays in the map as a default entry |
| ObjMap.TakePreservesWellKeyed | libraries/libdxfrw/src/intern/dwgreader.cpp:665-667 | Both kinds of look-up-and-erase keep every real entry stored under its own handle |
| DwgControl.NonZeroReads | libraries/libdxfrw/src/intern/dwgreader.cpp:1098-1104 | The member list holds only nonzero handles, at most one per read; every nonzero read is in it and nothing else is |
| DwgControl.ParseControl | libraries/libdxfrw/src/intern/dwgreader.cpp:1064-1112 | The parsing loops produce the specified handle list and result; all handles are nonzero and there are at most numEntries (+2 for types 48/56) of them |
| DwgControl.NonZeroReadsAllPresent | libraries/libdxfrw/src/intern/dwgreader.cpp:1098-1104 | If every read is nonzero, the list is exactly the reads in read order |
| DwgControl.NonZeroReadsAllNull | libraries/libdxfrw/src/intern/dwgreader.cpp:1098-1104 | If every read is a null handle, the list is empty |
| DwgControl.ImplicitEntriesListed | libraries/libdxfrw/src/intern/dwgreader.cpp:1096-1104 | For object types 48 and 56, numEntries + 2 handles are read, and all of them are listed when all are nonzero |
| DwgControl.ListedCountBound | libraries/libdxfrw/src/intern/dwgreader.cpp:1096-1104 | For other object types at most numEntries handles are listed, and none when numEntries <= 0 |
| DwgControl.UnknownHandlesDropped | libraries/libdxfrw/src/intern/dwgreader.cpp:1076-1110 | The extra unknown-handle count never changes the member list, and only matters for type 68 after AC1014 |
| DwgControl.ControlOk | libraries/libdxfrw/src/intern/dwgreader.cpp:1064-1112 | The parse succeeds exactly when the table-entry header parsed, the buffer stayed good and it held every member and unknown handle read; a failed header lists nothing |
| DwgSpec.FindTableName | libraries/libdxfrw/src/intern/dwgreader.cpp:60-99 | STYLE, DIMSTYLE, BLOCK_RECORD, LAYER and LTYPE give the stored name when the handle is a key of that table's map and "" when it is not; VPORT, APPID and unknown tables give ""; a nonempty result only comes from those five |
| DwgSpec.ParseAttribs | libraries/libdxfrw/src/intern/dwgreader.cpp:45-58 | lineType and layer are overwritten only when their handle is found in the line-type or layer map; the references are kept |
| DwgSpec.LoadControl | libraries/libdxfrw/src/intern/dwgreader.cpp:131-158 | A table control is always erased under its key; success needs it found, of the expected type, and a successful run so far; a missing control fails and lists no member |
| DwgSpec.LoadMember | libraries/libdxfrw/src/intern/dwgreader.cpp:161-185 | A missing member leaves the table as it was and fails; a found one files its record under the record's own handle, adding only that key; the step succeeds exactly when the run did, the member was found and it parsed |
| DwgSpec.LoadMembers | libraries/libdxfrw/src/intern/dwgreader.cpp:161-186 | The member loop keeps every key the table had, never turns a failed run into success, and fails when its first member is missing |
| DwgSpec.LoadTable | libraries/libdxfrw/src/intern/dwgreader.cpp:131-186 | A table keeps its old keys, and it succeeds only when its control was found with the expected type |
| DwgSpec.ReadTables | libraries/libdxfrw/src/intern/dwgreader.cpp:121-654 | The tables pass leaves the reader's entity links alone and never drops a key from any of the seven typed maps |
| DwgSpec.CrossLink | libraries/libdxfrw/src/intern/dwgreader.cpp:248-255 | Cross-linking keeps the set of layers |
| DwgSpec.DecodedEntity | libraries/libdxfrw/src/intern/dwgreader.cpp:871-875 | An entity's attributes are resolved, and its table name is looked up for the kinds that carry one; all else, including its links, is kept |
| DwgSpec.VertexFound | libraries/libdxfrw/src/intern/dwgreader.cpp:788-807 | A found vertex is decoded and appended to the polyline; the reader takes the vertex's next and previous links; the walk stays ok only if the vertex parsed; tables untouched, the walk does not hang |
| DwgSpec.VertexChain | libraries/libdxfrw/src/intern/dwgreader.cpp:778-812 | The pre-2004 vertex walk only removes objects, keeps the tables, and only appends vertices |
| DwgSpec.VertexList | libraries/libdxfrw/src/intern/dwgreader.cpp:814-843 | The 2004+ vertex walk always ends, only removes objects, keeps the tables, and only appends vertices |
| DwgSpec.ReadPlineVertex | libraries/libdxfrw/src/intern/dwgreader.cpp:772-849 | Reading vertices only removes objects, keeps the tables, and changes nothing of the polyline but its vertex list, which it extends |
| DwgSpec.ReadEntity | libraries/libdxfrw/src/intern/dwgreader.cpp:867-1062 | One entity dispatch only removes objects, keeps the tables, and emits at most one event, which is an entity |
| DwgSpec.MemberRead | libraries/libdxfrw/src/intern/dwgreader.cpp:708-718 | Reading one block member only removes objects, keeps the tables, and only appends entity events; a hang is never a success |
| DwgSpec.BlockChain | libraries/libdxfrw/src/intern/dwgreader.cpp:705-723 | The pre-2004 block-member walk only removes objects, keeps the tables, and only appends entity events; that it follows the links and stops after lastEH is BlockChainFollowsList |
| DwgSpec.BlockList | libraries/libdxfrw/src/intern/dwgreader.cpp:725-738 | The 2004+ block-member walk only removes objects, keeps the tables, and only appends entity events; what it sends and erases is BlockListEvents and BlockListOk |
| DwgSpec.BlockMembers | libraries/libdxfrw/src/intern/dwgreader.cpp:700-740 | Whichever walk runs, it only removes objects, keeps the tables, and only appends entity events; the 2004+ walk runs over entMap and the pre-2004 walk from firstEH to lastEH |
| DwgSpec.CompletedBlock | libraries/libdxfrw/src/intern/dwgreader.cpp:687-696 | The block sent takes basePoint and flags from its record, keeps its own handle, name and parent, and has its attributes resolved |
| DwgSpec.BlockRecordRun | libraries/libdxfrw/src/intern/dwgreader.cpp:661-767 | One block record changes only block-record entries (same keys) and only appends to the sink |
| DwgSpec.CloseBlock | libraries/libdxfrw/src/intern/dwgreader.cpp:743-766 | endBlock is sent exactly when the end-block handle is found; success implies it was sent and the run was already successful |
| DwgSpec.BlocksFrom | libraries/libdxfrw/src/intern/dwgreader.cpp:656-770 | The block stage only appends to the sink and changes only block-record entries, keeping their keys |
| DwgSpec.SweepFrom | libraries/libdxfrw/src/intern/dwgreader.cpp:851-862 | The residual sweep only appends to the sink, keeps the tables and only removes objects |
| DwgProperties.ControlConsumed | libraries/libdxfrw/src/intern/dwgreader.cpp:131-159 | The control look-up always erases the control key; a missing control or a wrong type code lists no members and fails that table, which loads nothing |
| DwgProperties.FailureSticks | libraries/libdxfrw/src/intern/dwgreader.cpp:161-186 | Once the result is false, the member loop returns false |
| DwgProperties.LoadMemberFrame | libraries/libdxfrw/src/intern/dwgreader.cpp:161-186 | Loading one member touches only its key: a found member is removed, a missing one is left behind as a default entry, other keys are untouched |
| DwgProperties.LoadMembersConsumes | libraries/libdxfrw/src/intern/dwgreader.cpp:161-186 | For distinct nonzero handles over a map where every entry is stored under its own handle or is a placeholder: after the member loop every found member is gone, every missing one is a default entry, unlisted keys are untouched, and the map keeps that shape |
| DwgProperties.LoadMembersOk | libraries/libdxfrw/src/intern/dwgreader.cpp:161-186 | For distinct nonzero handles over a map where every entry is stored under its own handle or is a placeholder: the member loop succeeds exactly when it started successful and every member was found and parsed |
| DwgProperties.LoadMembersFiles | libraries/libdxfrw/src/intern/dwgreader.cpp:161-186 | For distinct nonzero handles over a map where every entry is stored under its own handle or is a placeholder: the typed map gains exactly the keys the found members' records are filed under |
| DwgProperties.LoadMembersKeeps | libraries/libdxfrw/src/intern/dwgreader.cpp:161-186 | Under the same hypotheses, an entry that no found member is filed under keeps its old value |
| DwgProperties.LoadMembersLatest | libraries/libdxfrw/src/intern/dwgreader.cpp:161-186 | Under the same hypotheses, a found member's record is what the typed map holds under the record's own handle at the end, unless a later found member has the same handle |
| DwgProperties.CrossLinkFills | libraries/libdxfrw/src/intern/dwgreader.cpp:248-255 | Each layer's lineType becomes its line type's name when that line type was loaded, and stays as it was otherwise; nothing else changes |
| DwgProperties.TablesOkNeedsLTypeControl | libraries/libdxfrw/src/intern/dwgreader.cpp:121-159 | A successful tables pass found the line-type control with type 0x38 and parsed it |
| DwgProperties.TableFailureSticks | libraries/libdxfrw/src/intern/dwgreader.cpp:121-186 | A table step that starts failed ends failed |
| DwgProperties.DispatchHandled | libraries/libdxfrw/src/intern/dwgreader.cpp:903-1057 | A handled non-polyline code sends its decoded entity even when its parse failed; the result is the parse result and the links become the entity's |
| DwgProperties.DispatchUnhandled | libraries/libdxfrw/src/intern/dwgreader.cpp:877-1061 | An unknown class code fails with no event; a code without a case succeeds with no event; the links are reset to 0 in both cases |
| DwgSpec.ResolveCode | libraries/libdxfrw/src/intern/dwgreader.cpp:891-901 | The class look-up fails exactly for a code above 499 with no class; a code up to 499 is kept; a changed code is the class's dwgType |
| DwgSpec.KindOf | libraries/libdxfrw/src/intern/dwgreader.cpp:903-1057 | Only codes 1..79 have a case; 15, 16 and 29 are exactly the polyline codes, and 7 and 8 exactly the insert codes |
| DwgProperties.ClassRedirect | libraries/libdxfrw/src/intern/dwgreader.cpp:891-901 | Codes up to 499 are used as they are; above 499 a class with nonzero dwgType redirects, one with 0 keeps the code, which has no case; only a missing class fails |
| DwgProperties.DispatchPolyline | libraries/libdxfrw/src/intern/dwgreader.cpp:1036-1043 | A polyline is sent after its vertices are read, carrying them; the result is the polyline's parse result, and the vertex walk's own result is ignored |
| DwgProperties.VertexListAppends | libraries/libdxfrw/src/intern/dwgreader.cpp:814-843 | For distinct nonzero handles: the 2004+ walk appends exactly the found vertices, in list order |
| DwgProperties.VertexListErases | libraries/libdxfrw/src/intern/dwgreader.cpp:814-843 | The 2004+ walk erases exactly the listed keys |
| DwgProperties.VertexListOk | libraries/libdxfrw/src/intern/dwgreader.cpp:814-843 | For distinct nonzero handles: the 2004+ walk succeeds exactly when it started successful and every listed vertex was found and parsed |
| DwgProperties.VertexListFailureSticks | libraries/libdxfrw/src/intern/dwgreader.cpp:814-843 | A failed walk stays failed |
| DwgProperties.ChainFollowsList | libraries/libdxfrw/src/intern/dwgreader.cpp:778-843 | When every vertex is present and each links to the next, the pre-2004 chain walk from the first to the last gives the same result as the list walk |
| DwgProperties.VertexListLastLink | libraries/libdxfrw/src/intern/dwgreader.cpp:814-843 | For distinct handles: after the 2004+ walk the reader holds the next and previous links of the last vertex found, or its starting links when no vertex was found |
| DwgProperties.FoundVerticesAll | libraries/libdxfrw/src/intern/dwgreader.cpp:814-843 | When every listed handle is present, the 2004+ walk finds one vertex per handle, the one each handle designates, in list order |
| DwgProperties.ChainLastLink | libraries/libdxfrw/src/intern/dwgreader.cpp:778-812 | When the vertices' links spell out distinct present handles from firstEH to lastEH, the pre-2004 walk ends without hanging and the reader holds the links of the vertex at lastEH |
| DwgProperties.DispatchPolylineLinks | libraries/libdxfrw/src/intern/dwgreader.cpp:1036-1043 | After a polyline is read the reader holds its last vertex's links: on 2004+ files the last vertex found (distinct handles), or the polyline's own links when none was found; on older files with a spelled-out chain, the vertex at lastEH |
| DwgProperties.MissingLastNeverExits | libraries/libdxfrw/src/intern/dwgreader.cpp:705-723 | When lastEH is missing, every further iteration of the chain loop stays at lastEH, so the loop never ends |
| DwgProperties.HungWhenLastMissing | libraries/libdxfrw/src/intern/dwgreader.cpp:778-812 | Both chain walks, for vertices and for block members, hang when redirected to a missing lastEH |
| DwgProperties.SeqEndErased | libraries/libdxfrw/src/intern/dwgreader.cpp:846 | After reading vertices, the seqEnd key is gone from the object map, and only the polyline's vertex list has changed |
| DwgProperties.BlockRecordSkipped | libraries/libdxfrw/src/intern/dwgreader.cpp:661-678 | A missing or unseekable block entity skips the whole record: no events, result false |
| DwgProperties.BlockRecordEvents | libraries/libdxfrw/src/intern/dwgreader.cpp:661-767 | addBlock of the completed block comes first, then only entities, then at most one endBlock, last; success means it ends with endBlock; the record takes the block's name; a block without a parent handle sends no members |
| DwgBlockWalks.PlainMemberRead | libraries/libdxfrw/src/intern/dwgreader.cpp:733-736 | Reading one non-polyline member appends only its decoded entity (none when no case handles it), keeps the map and tables, conjoins readDwgEntity's result, and sets the next link to the entity's own |
| DwgBlockWalks.PlainStep | libraries/libdxfrw/src/intern/dwgreader.cpp:725-737 | One step of the 2004+ walk over a non-polyline member erases its key, appends its events when it is found, and fails when it is missing or its read fails |
| DwgBlockWalks.ListedEventsFrame | libraries/libdxfrw/src/intern/dwgreader.cpp:725-737 | The events of a list walk depend only on the entries under the listed handles |
| DwgBlockWalks.BlockListEvents | libraries/libdxfrw/src/intern/dwgreader.cpp:725-737 | For distinct handles of non-polyline members: the 2004+ walk visits each listed handle once, in list order, appends exactly the found members' entities in that order, and erases exactly the listed keys |
| DwgBlockWalks.BlockListFailureSticks | libraries/libdxfrw/src/intern/dwgreader.cpp:725-737 | A failed 2004+ walk stays failed |
| DwgBlockWalks.BlockListOk | libraries/libdxfrw/src/intern/dwgreader.cpp:725-737 | For distinct handles of non-polyline members: the 2004+ walk succeeds exactly when it started successful and every listed member was found and read without error |
| DwgBlockWalks.BlockChainFollowsList | libraries/libdxfrw/src/intern/dwgreader.cpp:705-738 | When the members are present, distinct, nonzero and non-polyline, and each one's next link is the next handle, the pre-2004 chain from the first to the last handle ends in exactly the state of the 2004+ walk over that list: it stops after lastEH |
| DwgBlockWalks.BlockRecordListed | libraries/libdxfrw/src/intern/dwgreader.cpp:661-767 | For a 2004+ record with a reachable block over distinct non-polyline members: the sink gets addBlock, then the listed members' entities in list order when the block has a parent handle (none otherwise), then endBlock exactly when it is still present; members are decoded with the record's new name in the tables |
| DwgProperties.BlockOrder | libraries/libdxfrw/src/intern/dwgreader.cpp:661 | The block-record visiting order lists each remaining key once |
| DwgProperties.BlockOrderAscending | libraries/libdxfrw/src/intern/dwgreader.cpp:661 | Block records are visited in strictly ascending key order, all of them |
| DwgProperties.BlocksFromStep | libraries/libdxfrw/src/intern/dwgreader.cpp:661-767 | The block stage is the smallest remaining record's run followed by the stage over the rest |
| DwgSpec.ReadBlocks | libraries/libdxfrw/src/intern/dwgreader.cpp:656-770 | The block pass only appends to the sink and changes only block-record values, keeping their keys |
| DwgSpec.ReadEntities | libraries/libdxfrw/src/intern/dwgreader.cpp:851-862 | The residual sweep only appends to the sink, keeps the tables and only removes objects |
| DwgProperties.SweepHangFails | libraries/libdxfrw/src/intern/dwgreader.cpp:851-862 | A residual sweep that never returns (a polyline's vertex walk that loops) reports failure |
| DwgProperties.ReadEntitiesHangFails | libraries/libdxfrw/src/intern/dwgreader.cpp:851-862 | readDwgEntities reports failure whenever it does not return |
| DwgProperties.SweepAscending | libraries/libdxfrw/src/intern/dwgreader.cpp:855-860 | The residual sweep reads keys in strictly ascending order, each present when read |
| DwgProperties.SweepCovers | libraries/libdxfrw/src/intern/dwgreader.cpp:855-860 | Every key the sweep starts with is either read or erased by an earlier read |
| DwgReading.DwgReader.Subscript | libraries/libdxfrw/src/intern/dwgreader.cpp:665 | The reader's operator[] returns the entry and updates the object map as ObjMap.Subscript does |
| DwgReading.DwgReader.ReadControl | libraries/libdxfrw/src/intern/dwgreader.cpp:131-159 | Look-up, erase, type check and parse of a control end in the state LoadControl gives |
| DwgReading.DwgReader.ReadMembers | libraries/libdxfrw/src/intern/dwgreader.cpp:161-186 | The member loop ends in the state LoadMembers gives |
| DwgReading.DwgReader.ReadTable | libraries/libdxfrw/src/intern/dwgreader.cpp:131-186 | One table's control and members end in the state LoadTable gives |
| DwgReading.DwgReader.LinkLayers | libraries/libdxfrw/src/intern/dwgreader.cpp:248-255 | The layer map becomes its cross-link with the line-type map; nothing else changes |
| DwgReading.DwgReader.ReadLTypes | libraries/libdxfrw/src/intern/dwgreader.cpp:131-186 | The line-type table is loaded as LTypeStage specifies |
| DwgReading.DwgReader.ReadLayers | libraries/libdxfrw/src/intern/dwgreader.cpp:190-244 | The layer table is loaded as LayerStage specifies |
| DwgReading.DwgReader.ReadStyles | libraries/libdxfrw/src/intern/dwgreader.cpp:258-312 | The text-style table is loaded as StyleStage specifies |
| DwgReading.DwgReader.ReadDimStyles | libraries/libdxfrw/src/intern/dwgreader.cpp:317-371 | The dimension-style table is loaded as DimStyleStage specifies |
| DwgReading.DwgReader.ReadVPorts | libraries/libdxfrw/src/intern/dwgreader.cpp:375-429 | The viewport table is loaded as VPortStage specifies |
| DwgReading.DwgReader.ReadBlockRecords | libraries/libdxfrw/src/intern/dwgreader.cpp:434-488 | The block-record table is loaded as BlockRecordStage specifies |
| DwgReading.DwgReader.ReadAppIds | libraries/libdxfrw/src/intern/dwgreader.cpp:493-548 | The application-id table is loaded as AppIdStage specifies |
| DwgReading.DwgReader.ReadDwgTables | libraries/libdxfrw/src/intern/dwgreader.cpp:121-654 | The whole tables pass ends in the state and result ReadTables gives |
| DwgReading.DwgReader.AddVertex | libraries/libdxfrw/src/intern/dwgreader.cpp:788-807 | Decoding a found vertex and appending it acts as VertexFound |
| DwgReading.DwgReader.VertexChainWalk | libraries/libdxfrw/src/intern/dwgreader.cpp:778-812 | The pre-2004 vertex while loop ends as VertexChain specifies, or hangs exactly when it does |
| DwgReading.DwgReader.VertexListWalk | libraries/libdxfrw/src/intern/dwgreader.cpp:814-843 | The 2004+ vertex for loop ends as VertexList specifies |
| DwgReading.DwgReader.ReadPlineVertex | libraries/libdxfrw/src/intern/dwgreader.cpp:772-849 | readPlineVertex ends in the state, polyline and result ReadPlineVertex gives |
| DwgReading.DwgReader.ReadDwgEntity | libraries/libdxfrw/src/intern/dwgreader.cpp:867-1062 | One dispatch ends in the state, events and result ReadEntity gives |
| DwgReading.DwgReader.BlockChainWalk | libraries/libdxfrw/src/intern/dwgreader.cpp:705-723 | The pre-2004 block-member while loop ends as BlockChain specifies |
| DwgReading.DwgReader.BlockListWalk | libraries/libdxfrw/src/intern/dwgreader.cpp:725-738 | The 2004+ block-member for loop ends as BlockList specifies |
| DwgReading.DwgReader.ReadBlockRecord | libraries/libdxfrw/src/intern/dwgreader.cpp:661-767 | One iteration of the block-record loop ends as BlockRecordRun specifies |
| DwgReading.DwgReader.ReadDwgBlocks | libraries/libdxfrw/src/intern/dwgreader.cpp:656-770 | readDwgBlocks, visiting records in ascending key order, ends as ReadBlocks specifies |
| DwgReading.DwgReader.ReadDwgEntities | libraries/libdxfrw/src/intern/dwgreader.cpp:851-862 | The residual sweep over the map as it shrinks ends as ReadEntities specifies |
| DwgReading.DwgReader.LeastAbove | libraries/libdxfrw/src/intern/dwgreader.cpp:855 | The sweep's next entry is the least key of the object map above the last one read, as `std::map` iteration gives |
| CommandEdit.Lower | librecad/src/ui/qg_commandedit.cpp:117 | Case folding for the case-insensitive compare: A-Z map to a-z, every other character is kept |
| CommandEdit.KeyPress | librecad/src/ui/qg_commandedit.cpp:65-138 | Every key keeps the cursor within [0, size of history] once the history is nonempty; the history is unchanged or grows by exactly the current text |
| CommandEdit.Event | librecad/src/ui/qg_commandedit.cpp:50-60 | Tab only emits tabPressed; every other key goes to keyPressEvent |
| CommandEdit.Session | librecad/src/ui/qg_commandedit.cpp:50-138 | Over any key sequence the cursor stays in bounds and the old history is a prefix of the new one |
| CommandEdit.UpKey | librecad/src/ui/qg_commandedit.cpp:70-75 | Up steps back one entry and shows it when the history is nonempty and the cursor is past the start; otherwise nothing changes; no signal |
| CommandEdit.DownKey | librecad/src/ui/qg_commandedit.cpp:77-87 | Down before the end steps forward and shows that entry, or "" at the end; at the end nothing changes; no signal |
| CommandEdit.UpThenDown | librecad/src/ui/qg_commandedit.cpp:70-87 | Up then Down returns the cursor where it was and shows the entry there, or "" at the end |
| CommandEdit.DownThenUp | librecad/src/ui/qg_commandedit.cpp:70-87 | Down then Up returns the cursor where it was and shows the entry there |
| CommandEdit.BrowseBack | librecad/src/ui/qg_commandedit.cpp:70-75 | n Up presses with n at most the cursor move it back n entries and show that entry, silently |
| CommandEdit.Submit | librecad/src/ui/qg_commandedit.cpp:115-123 | Outside calculator mode, submitting anything but "cal" appends it and puts the cursor at the end; "clear" in any case clears the text and emits clearCommandsHistory, anything else emits command |
| CommandEdit.CalToggle | librecad/src/ui/qg_commandedit.cpp:91-100 | Submitting "cal" flips calculator mode, clears the text, leaves history and cursor alone and announces the new mode |
| CommandEdit.CalculatorKeepsHistory | librecad/src/ui/qg_commandedit.cpp:101-113 | In calculator mode no key appends to the history; a submission clears the text and, unless it is "cal", sends the input to the calculator |
| CommandEdit.EscapeKey | librecad/src/ui/qg_commandedit.cpp:125-132 | Escape on empty text emits escape and changes nothing; otherwise it clears the text silently |
| CommandEdit.HistoryCountsSubmissions | librecad/src/ui/qg_commandedit.cpp:115-123 | Over any key sequence the history grows by exactly the number of command and clearCommandsHistory signals |
| CommandEdit.EventSubmissions | librecad/src/ui/qg_commandedit.cpp:50-138 | One event grows the history by exactly the number of submission signals it emits |
| CommandEdit.ClearSpellings | librecad/src/ui/qg_commandedit.cpp:117 | An input counts as "clear" exactly when it has five letters, each the lower- or upper-case letter of "clear" |
| CommandEdit.QGCommandEdit.constructor | librecad/src/ui/qg_commandedit.cpp:37-45 | Empty history, calculator mode off, empty text, no signals; the cursor starts at whatever value it is given |
| CommandEdit.QGCommandEdit.KeyPressEvent | librecad/src/ui/qg_commandedit.cpp:65-138 | keyPressEvent updates the fields and emits the signals exactly as KeyPress specifies |
| CommandEdit.QGCommandEdit.HandleEvent | librecad/src/ui/qg_commandedit.cpp:50-60 | event() updates the fields and emits the signals exactly as Event specifies |
| CustomToolbar.Loaded | librecad/src/ui/lc_customtoolbar.cpp:43-57 | Loading keeps at most as many lines as the file has, and only separators and known action names |
| CustomToolbar.RemoveOne | librecad/src/ui/lc_customtoolbar.cpp:69 | removeOne shortens a list that holds the token by one and leaves any other list unchanged |
| CustomToolbar.RemoveOneCount | librecad/src/ui/lc_customtoolbar.cpp:69 | removeOne takes away one copy of the token, if there is one, and nothing else |
| CustomToolbar.RemoveOneFirst | librecad/src/ui/lc_customtoolbar.cpp:69 | removeOne removes the first occurrence and keeps everything else in order |
| CustomToolbar.LoadedAppend | librecad/src/ui/lc_customtoolbar.cpp:43-57 | Loading a file in two parts gives the two results concatenated, so file order is kept |
| CustomToolbar.LoadedCounts | librecad/src/ui/lc_customtoolbar.cpp:43-57 | Every accepted line is kept as often as the file holds it; any other line never |
| CustomToolbar.LoadedMembers | librecad/src/ui/lc_customtoolbar.cpp:43-57 | A line is loaded exactly when the file holds it and it is "-" or a known action |
| CustomToolbar.LoadedIdentity | librecad/src/ui/lc_customtoolbar.cpp:43-57 | Loading leaves a list unchanged exactly when all of its lines are accepted |
| CustomToolbar.RemoveOneAppended | librecad/src/ui/lc_customtoolbar.cpp:66-75 | Removing a token just appended to a list without it gives the list back |
| CustomToolbar.Toggle | librecad/src/ui/lc_customtoolbar.cpp:66-75 | A toggle shortens a list holding the token by one and lengthens any other by one, which then holds the token |
| CustomToolbar.ToggleRule | librecad/src/ui/lc_customtoolbar.cpp:64-75 | A present token loses its first occurrence and nothing else moves; an absent one is appended; counts change by exactly one copy |
| CustomToolbar.DoubleToggleAbsent | librecad/src/ui/lc_customtoolbar.cpp:66-75 | Toggling an absent token twice restores the list exactly |
| CustomToolbar.DoubleToggleOnce | librecad/src/ui/lc_customtoolbar.cpp:66-75 | Toggling a token held exactly once twice moves it to the end instead of restoring the list |
| CustomToolbar.LCCustomToolbar.constructor | librecad/src/ui/lc_customtoolbar.cpp:7-15 | A new toolbar has an empty token list, no file and no most-recent action |
| CustomToolbar.LCCustomToolbar.ActionsFromFile | librecad/src/ui/lc_customtoolbar.cpp:33-58 | A file that cannot be opened changes nothing; otherwise the path is remembered and the list gains exactly the accepted lines of the file's text, in file order |
| CustomToolbar.LCCustomToolbar.SlotAddOrRemoveAction | librecad/src/ui/lc_customtoolbar.cpp:60-77 | With no most-recent action nothing changes; otherwise the list is toggled for its token |
| CustomToolbar.LCCustomToolbar.SlotMostRecentAction | librecad/src/ui/lc_customtoolbar.cpp:79-82 | Only the most-recent action changes |
| CustomToolbar.LCCustomToolbar.AddSeparator | librecad/src/ui/lc_customtoolbar.cpp:85-89 | "-" is appended and nothing else changes |
| CustomToolbar.LCCustomToolbar.SavedFile | librecad/src/ui/lc_customtoolbar.cpp:17-31 | The destructor writes each token followed by a newline, in list order, to the loaded file, and nothing when no file was loaded |
| CustomToolbar.SavedText | librecad/src/ui/lc_customtoolbar.cpp:25-29 | The written text is empty exactly for an empty list, and otherwise ends with a newline |
| CustomToolbar.SplitLines | librecad/src/ui/lc_customtoolbar.cpp:41-46 | No line read holds a newline; a nonempty text gives at least one line, and never more lines than characters |
| CustomToolbar.LineLength | librecad/src/ui/lc_customtoolbar.cpp:45 | A line read ends at the first newline, or at the end of the text |
| CustomToolbar.SplitSaved | librecad/src/ui/lc_customtoolbar.cpp:17-58 | Reading back the written text gives the token list again when no token holds a newline |
| CustomToolbar.SplitSavedNewline | librecad/src/ui/lc_customtoolbar.cpp:17-58 | A token holding a newline is read back as two tokens, so the newline-free condition is needed |
| CustomToolbar.SaveLoadRoundTrip | librecad/src/ui/lc_customtoolbar.cpp:17-58 | For tokens without newlines, saving then loading gives the list back exactly when every token is "-" or a known action |

## Left out

- The bit buffer primitives (`getModularShort`, `getBytes`, `getObjType`, `getHandle`, …) and every per-record `parseDwg` other than `DRW_ObjControl::parseDwg` are not part of this model. Their results are the oracle `DwgFile`, and the object-type read is its `objType` field.
- `readDwgHeader` only forwards to `DRW_Header::parseDwg`, so the control handles it yields are a parameter (`ControlHandles`).
- `checkSentinel` only prints.
- The debug-only View, UCS and vpEntHeader controls (`dwgreader.cpp:553-651`) and all debug logging are left out: they run only in debug builds.
- The reader's destructor, the variable-length `byteStr` buffers, and `DRW_Variant`'s destructor are memory handling, so they are not modelled.
- `DRW_Coord::unitize` and all double-valued geometry are floating point. Doubles are an uninterpreted `real` payload, and coordinates are never computed with.
- The layer cross-link visits layers in map order. The model applies it to the whole map at once, because no layer's result depends on another's.
- In `readDwgBlocks`, the `parentHandle` assignments at lines 702 and 764 change a block after `addBlock` has already sent it. They have no observable effect, so the model sends the block with its parsed parent handle.
- In the polyline case, `readPlineVertex` overwrites `nextEntLink` and `prevEntLink` with the last vertex's links (dwgreader.cpp:804-805 and 839-840). The model carries this through the state: VertexFound, VertexListLastLink, ChainLastLink and DispatchPolylineLinks state which links result.
- DwgProperties.DispatchPolylineLinks, ChainLastLink: the links are stated only for a pre-2004 chain whose vertices' links spell out distinct present handles from firstEH to lastEH. A chain that meets a missing vertex or loops is only covered by the general frame contracts.
- DwgProperties.VertexListLastLink, DispatchPolylineLinks: on 2004+ files the links are stated only for a handle list without repeats. A repeated handle is missing on its second visit, so it adds no vertex and leaves the links as they were.
- DwgSpec.SweepFrom: in `readDwgEntities` (dwgreader.cpp:851-862), `readDwgEntity` can erase the map entry the sweep's iterator stands on. That happens when a polyline lists its own handle as a vertex, as `firstEH` or as `seqEnd`. The `++it` that follows is then undefined behaviour in C++. The model does not capture this: it continues the sweep from the next key above the current one.
- DwgBlockWalks.BlockListEvents, BlockListOk, BlockChainFollowsList, BlockRecordListed: these are proved only for blocks whose members are not polylines. A polyline member's vertex walk erases the vertices' and seqEnd's entries, and those can be other members' entries, which then go missing later in the walk.
- DwgSpec.SweepFrom, ReadEntities: the source never returns from an endless walk. The model's `hung` run reports `ok` false, the same convention as MemberRead (SweepHangFails, ReadEntitiesHangFails).
- DwgSpec.VertexChain: a walk that never terminates in the source is modelled as ending with `hung = true`, instead of by a precondition that excludes it. The hang is then propagated to every caller.
- CommandEdit: `RS_Math::eval`, the degree-to-radian regular-expression rewrite and the result formatting are a foreign call on floats. The calculator's answer is the single signal `CalculatorReply(input)`.
- CommandEdit: `QObject::tr` is taken as the identity, so "cal", "clear" and the mode messages are the English strings.
- CommandEdit.Lower: only ASCII letters are case-folded. Qt's Unicode case folding for `Qt::CaseInsensitive` is not modelled.
- CommandEdit: `QLineEdit::keyPressEvent` (the default branch) and all other editing are the key `Typed(text)`, which sets the text.
- CommandEdit: a Tab that reaches `keyPressEvent` is a no-op, because `event()` intercepts it first.
- CommandEdit: `focusInEvent` and `focusOutEvent` only forward to the widget, so they are left out.
- CommandEdit.QGCommandEdit.constructor: the header declaring `it` is not part of this model, and the constructor leaves `it` uninitialised. The model therefore takes the cursor's starting value as a parameter, and states the cursor bound only once the history is nonempty.
- CustomToolbar: `QFile` opening, reading and writing are left out. A file is its text, or `None` when it cannot be opened. What the destructor writes is `SavedFile`. Reading is `SplitLines` on the text after `QIODevice::Text` has translated line endings, so a carriage return is not modelled.
- CustomToolbar: the widget's own action list (`addAction`, `removeAction`, `addSeparator` on the QToolBar) and the constructor's "Add or Remove Action" action are Qt widget state. Only `state_list` is modelled.
- CustomToolbar: the header declaring `most_recent_action` is not part of this model. The model assumes it starts as `nullptr` (`None`). An action is represented by the token its `data()` holds.

## Findings

| source | as written | input that shows it | evidently intended | confidence | as-written member | corrected member |
|---|---|---|---|---|---|---|
| libraries/libdxfrw/src/drw_base.h:240-246 | The copy constructor copies `sdata`/`vdata` and then copies the `content` union verbatim, so a STRING or COORD copy's `content.s`/`content.v` points at the original's `sdata`/`vdata` | Copy a variant built with `DRW_Variant(1, std::string("a"))`: the copy's `content.s` is `&original.sdata`, which dangles once the original is destroyed | `content` of a STRING or COORD copy should point at the copy's own `sdata`/`vdata`, as `addString`/`addCoord` do | not executed | DrwBase.DrwVariant.Copy, DrwBase.CopyAliasesOriginal | DrwBase.DrwVariant.CopyOwned, DrwBase.CopyOwnedPointsAtItself |

=== FILE: command_edit.dfy ===
/**
 * QG_CommandEdit (qg_commandedit.cpp): the command line's history cursor,
 * calculator toggle, "clear" and Escape handling, as a state machine
 * driven by key presses.
 */
module CommandEdit {

  /** The keys keyPressEvent tells apart; every other key goes to QLineEdit's own editing. */
  datatype Key =
    | Up
    | Down
    | Space
    | Return
    | Escape
    | Tab
    | Typed(edited: string)   // any other key: the text QLineEdit's editing leaves

  /** The signals the widget emits. */
  datatype Signal =
    | TabPressed
    | Message(text: string)
    | CalculatorReply(input: string)   // the calculator's answer or error message for `input`
    | ClearCommandsHistory
    | Command(cmd: string)
    | EscapePressed

  const CalculatorOn := "Calculator mode: On"
  const CalculatorOff := "Calculator mode: Off"

  /** The widget's state: historyList, the iterator `it` as an index, calculator_mode and the line's text. */
  datatype EditState = EditState(history: seq<string>, it: int, calculatorMode: bool, text: string)

  /** The new state and the signals emitted, in order. */
  datatype Reaction = Reaction(after: EditState, emitted: seq<Signal>)

  /**
   * The cursor invariant: once the history has entries the iterator points
   * at one of them or one past the last. Before the first command the
   * iterator is never initialised, and never read either.
   */
  predicate Valid(s: EditState)
  {
    |s.history| > 0 ==> 0 <= s.it <= |s.history|
  }

  /** ASCII case folding. */
  function Lower(c: char): (r: char)
    ensures 'A' <= c <= 'Z' ==> r as int == c as int + 32
    ensures !('A' <= c <= 'Z') ==> r == c
  {
    if 'A' <= c <= 'Z' then (c as int + 32) as char else c
  }

  /** QString::compare(..., Qt::CaseInsensitive) == 0, for ASCII letters. */
  predicate EqualsIgnoreCase(a: string, b: string)
  {
    |a| == |b| && forall i | 0 <= i < |a| :: Lower(a[i]) == Lower(b[i])
  }

  /** The submitted line is the "clear" command. */
  predicate IsClear(input: string)
  {
    EqualsIgnoreCase(input, "clear")
  }

  predicate IsSubmit(k: Key) { k == Space || k == Return }

  /** keyPressEvent. */
  function KeyPress(s: EditState, k: Key): (r: Reaction)
    requires Valid(s)
    ensures Valid(r.after)
    ensures r.after.history == s.history || r.after.history == s.history + [s.text]
  {
    var h := s.history;
    match k
    case Up =>
      if |h| > 0 && s.it > 0 then Reaction(s.(it := s.it - 1, text := h[s.it - 1]), [])
      else Reaction(s, [])
    case Down =>
      if |h| > 0 && s.it < |h| then
        var it' := s.it + 1;
        Reaction(s.(it := it', text := if it' < |h| then h[it'] else ""), [])
      else Reaction(s, [])
    case Escape =>
      if s.text == "" then Reaction(s, [EscapePressed]) else Reaction(s.(text := ""), [])
    case Tab => Reaction(s, [])
    case Typed(t) => Reaction(s.(text := t), [])
    case _ =>
      var input := s.text;
      if input == "cal" then
        var mode := !s.calculatorMode;
        Reaction(s.(calculatorMode := mode, text := ""), [Message(if mode then CalculatorOn else CalculatorOff)])
      else if s.calculatorMode then
        Reaction(s.(text := ""), [CalculatorReply(input)])
      else
        var h' := h + [input];
        if IsClear(input) then Reaction(s.(history := h', it := |h'|, text := ""), [ClearCommandsHistory])
        else Reaction(s.(history := h', it := |h'|), [Command(input)])
  }

  /** event(): a Tab key press is answered with tabPressed and never reaches keyPressEvent. */
  function Event(s: EditState, k: Key): (r: Reaction)
    requires Valid(s)
    ensures Valid(r.after)
    ensures k == Tab ==> r == Reaction(s, [TabPressed])
    ensures k != Tab ==> r == KeyPress(s, k)
  {
    if k == Tab then Reaction(s, [TabPressed]) else KeyPress(s, k)
  }

  /** A session: the events in order, with everything emitted along the way. */
  function Session(s: EditState, keys: seq<Key>): (r: Reaction)
    requires Valid(s)
    ensures Valid(r.after)
    ensures s.history <= r.after.history
    decreases |keys|
  {
    if keys == [] then Reaction(s, [])
    else
      var first := Event(s, keys[0]);
      var rest := Session(first.after, keys[1..]);
      Reaction(rest.after, first.emitted + rest.emitted)
  }

  /** The number of signals that report a submitted command (command or clearCommandsHistory). */
  function Submissions(sigs: seq<Signal>): (n: nat)
    ensures n <= |sigs|
  {
    if sigs == [] then 0
    else (if sigs[0].Command? || sigs[0].ClearCommandsHistory? then 1 else 0) + Submissions(sigs[1..])
  }

  /** A sequence of n Up presses. */
  function Ups(n: nat): (r: seq<Key>)
    ensures |r| == n && forall i | 0 <= i < n :: r[i] == Up
  {
    if n == 0 then [] else [Up] + Ups(n - 1)
  }

  lemma {:induction false} SubmissionsAppend(a: seq<Signal>, b: seq<Signal>)
    ensures Submissions(a + b) == Submissions(a) + Submissions(b)
  {
    if a == [] {
      assert a + b == b;
    } else {
      assert (a + b)[1..] == a[1..] + b;
      SubmissionsAppend(a[1..], b);
    }
  }

  /** Up: back one entry and show it, only from past the start of a non-empty history. */
  lemma UpKey(s: EditState)
    requires Valid(s)
    ensures var r := KeyPress(s, Up);
      r.emitted == [] &&
      (if |s.history| > 0 && s.it > 0
       then r.after == s.(it := s.it - 1, text := s.history[s.it - 1])
       else r.after == s)
  {
  }

  /** Down: forward one entry and show it, or empty text at the end; at the end nothing changes. */
  lemma DownKey(s: EditState)
    requires Valid(s)
    ensures var r := KeyPress(s, Down);
      r.emitted == [] &&
      (if |s.history| > 0 && s.it < |s.history|
       then r.after.it == s.it + 1 && r.after.history == s.history && r.after.calculatorMode == s.calculatorMode &&
            r.after.text == (if s.it + 1 < |s.history| then s.history[s.it + 1] else "")
       else r.after == s)
  {
  }

  /** Up then Down returns the cursor where it was and shows the entry there (or nothing at the end). */
  lemma UpThenDown(s: EditState)
    requires Valid(s) && |s.history| > 0 && s.it > 0
    ensures var r := KeyPress(KeyPress(s, Up).after, Down).after;
      r.it == s.it && r.history == s.history &&
      r.text == (if s.it < |s.history| then s.history[s.it] else "")
  {
  }

  /** Down then Up returns the cursor where it was and shows the entry there. */
  lemma DownThenUp(s: EditState)
    requires Valid(s) && |s.history| > 0 && s.it < |s.history|
    ensures var r := KeyPress(KeyPress(s, Down).after, Up).after;
      r.it == s.it && r.history == s.history && r.text == s.history[s.it]
  {
  }

  /**
   * Browsing back: n Up presses from the cursor move it back n entries and
   * show the entry reached, without emitting anything.
   */
  lemma {:induction false} BrowseBack(s: EditState, n: nat)
    requires Valid(s) && |s.history| > 0 && n <= s.it
    ensures var r := Session(s, Ups(n));
      r.after.it == s.it - n && r.after.history == s.history &&
      r.after.calculatorMode == s.calculatorMode && r.emitted == [] &&
      r.after.text == (if n == 0 then s.text else s.history[s.it - n])
    decreases n
  {
    if n > 0 {
      UpKey(s);
      var s1 := KeyPress(s, Up).after;
      assert Ups(n)[0] == Up && Ups(n)[1..] == Ups(n - 1);
      assert Session(s, Ups(n)) == Reaction(Session(s1, Ups(n - 1)).after, [] + Session(s1, Ups(n - 1)).emitted);
      BrowseBack(s1, n - 1);
    }
  }

  /**
   * Submitting outside calculator mode any line other than "cal" appends it
   * to the history and moves the cursor to the end. "clear", in any case,
   * is appended too, but clears the line and asks for the history view to
   * be cleared instead of running a command; any other line is emitted as a
   * command and stays in the line.
   */
  lemma Submit(s: EditState, k: Key)
    requires Valid(s) && IsSubmit(k) && s.text != "cal" && !s.calculatorMode
    ensures var r := KeyPress(s, k);
      r.after.history == s.history + [s.text] && r.after.it == |r.after.history| &&
      r.after.calculatorMode == s.calculatorMode &&
      (if IsClear(s.text) then r.after.text == "" && r.emitted == [ClearCommandsHistory]
       else r.after.text == s.text && r.emitted == [Command(s.text)])
  {
  }

  /** Exactly "cal" toggles calculator mode, reports the new mode and clears the line, history untouched. */
  lemma CalToggle(s: EditState, k: Key)
    requires Valid(s) && IsSubmit(k) && s.text == "cal"
    ensures var r := KeyPress(s, k);
      r.after == s.(calculatorMode := !s.calculatorMode, text := "") &&
      r.emitted == [Message(if s.calculatorMode then CalculatorOff else CalculatorOn)]
  {
  }

  /**
   * In calculator mode no key changes the history; a submitted line is
   * answered by the calculator (or toggles the mode) and cleared, and the
   * cursor stays.
   */
  lemma CalculatorKeepsHistory(s: EditState, k: Key)
    requires Valid(s) && s.calculatorMode
    ensures KeyPress(s, k).after.history == s.history
    ensures IsSubmit(k) ==> KeyPress(s, k).after == s.(calculatorMode := s.text != "cal", text := "")
    ensures IsSubmit(k) && s.text != "cal" ==> KeyPress(s, k).emitted == [CalculatorReply(s.text)]
  {
  }

  /** Escape: on an empty line it emits escape; otherwise it only clears the line. */
  lemma EscapeKey(s: EditState)
    requires Valid(s)
    ensures var r := KeyPress(s, Escape);
      if s.text == "" then r == Reaction(s, [EscapePressed]) else r == Reaction(s.(text := ""), [])
  {
  }

  /**
   * Over any session the history only grows, and what it grew by is one entry
   * per command or clearCommandsHistory signal emitted.
   */
  lemma {:induction false} HistoryCountsSubmissions(s: EditState, keys: seq<Key>)
    requires Valid(s)
    ensures var r := Session(s, keys);
      |r.after.history| == |s.history| + Submissions(r.emitted)
    decreases |keys|
  {
    if keys != [] {
      var first := Event(s, keys[0]);
      var rest := Session(first.after, keys[1..]);
      EventSubmissions(s, keys[0]);
      HistoryCountsSubmissions(first.after, keys[1..]);
      SubmissionsAppend(first.emitted, rest.emitted);
    }
  }

  /** One event grows the history by one exactly when it reports a submitted command. */
  lemma EventSubmissions(s: EditState, k: Key)
    requires Valid(s)
    ensures |Event(s, k).after.history| == |s.history| + Submissions(Event(s, k).emitted)
  {
    var r := Event(s, k);
    assert r.emitted == [] || |r.emitted| == 1;
    if |r.emitted| == 1 {
      assert Submissions(r.emitted) == (if r.emitted[0].Command? || r.emitted[0].ClearCommandsHistory? then 1 else 0) + Submissions([]);
    }
  }

  /** The lines the clear rule matches are the five letters of "clear", each in either case. */
  lemma ClearSpellings(input: string)
    ensures IsClear(input) <==>
      |input| == 5 && forall i | 0 <= i < 5 :: input[i] == "clear"[i] || input[i] == "CLEAR"[i]
  {
    if IsClear(input) {
      forall i | 0 <= i < 5
        ensures input[i] == "clear"[i] || input[i] == "CLEAR"[i]
      {
        assert Lower(input[i]) == Lower("clear"[i]);
      }
    }
    if |input| == 5 && forall i | 0 <= i < 5 :: input[i] == "clear"[i] || input[i] == "CLEAR"[i] {
      forall i | 0 <= i < 5
        ensures Lower(input[i]) == Lower("clear"[i])
      {
        assert input[i] == "clear"[i] || input[i] == "CLEAR"[i];
      }
    }
  }

  /** QG_CommandEdit. */
  class QGCommandEdit {
    var historyList: seq<string>
    var it: int
    var calculatorMode: bool
    var text: string
    /** Every signal emitted so far, in order. */
    var signals: seq<Signal>

    function Snapshot(): EditState
      reads this
    {
      EditState(historyList, it, calculatorMode, text)
    }

    /** The constructor leaves `it` uninitialised: it starts at an arbitrary value. */
    constructor (it0: int)
      ensures Snapshot() == EditState([], it0, false, "") && Valid(Snapshot())
      ensures signals == []
    {
      historyList := [];
      it := it0;
      calculatorMode := false;
      text := "";
      signals := [];
    }

    method Emit(sig: Signal)
      modifies this
      ensures signals == old(signals) + [sig]
      ensures Snapshot() == old(Snapshot())
    {
      signals := signals + [sig];
    }

    /** setText. */
    method SetText(t: string)
      modifies this
      ensures text == t
      ensures historyList == old(historyList) && it == old(it) && calculatorMode == old(calculatorMode)
      ensures signals == old(signals)
    {
      text := t;
    }

    /** keyPressEvent. */
    method KeyPressEvent(k: Key)
      requires Valid(Snapshot())
      modifies this
      ensures Snapshot() == KeyPress(old(Snapshot()), k).after
      ensures signals == old(signals) + KeyPress(old(Snapshot()), k).emitted
    {
      var input := text;
      match k {
        case Up =>
          if |historyList| > 0 && it > 0 {
            it := it - 1;
            SetText(historyList[it]);
          }
        case Down =>
          if |historyList| > 0 && it < |historyList| {
            it := it + 1;
            if it < |historyList| {
              SetText(historyList[it]);
            } else {
              SetText("");
            }
          }
        case Escape =>
          if text == "" {
            Emit(EscapePressed);
          } else {
            SetText("");
          }
        case Tab =>
        case Typed(t) =>
          SetText(t);
        case _ =>
          if input == "cal" {
            calculatorMode := !calculatorMode;
            if calculatorMode {
              Emit(Message(CalculatorOn));
            } else {
              Emit(Message(CalculatorOff));
            }
            SetText("");
            return;
          }
          if calculatorMode {
            Emit(CalculatorReply(input));
            SetText("");
            return;
          }
          historyList := historyList + [input];
          it := |historyList|;
          if IsClear(input) {
            SetText("");
            Emit(ClearCommandsHistory);
          } else {
            Emit(Command(input));
          }
      }
    }

    /** event(). */
    method HandleEvent(k: Key)
      requires Valid(Snapshot())
      modifies this
      ensures Snapshot() == Event(old(Snapshot()), k).after
      ensures signals == old(signals) + Event(old(Snapshot()), k).emitted
    {
      if k == Tab {
        Emit(TabPressed);
      } else {
        KeyPressEvent(k);
      }
    }
  }
}

=== FILE: custom_toolbar.dfy ===
/**
 * LC_CustomToolbar (lc_customtoolbar.cpp): the user-editable toolbar whose
 * contents are kept as a list of action tokens ("-" for a separator),
 * loaded from a file, toggled one action at a time and written back.
 */
module CustomToolbar {

  datatype Option<T> = None | Some(value: T)

  /** The token of a separator. */
  const Separator := "-"

  /** A QAction, seen through the token its data() holds. */
  datatype Action = Action(token: string)

  /** A line actions_from_file keeps: a separator or the name of a known action. */
  predicate Accepted(line: string, known: set<string>)
  {
    line == Separator || line in known
  }

  /** The lines actions_from_file keeps from a file, in file order. */
  function Loaded(lines: seq<string>, known: set<string>): (r: seq<string>)
    ensures |r| <= |lines|
    ensures forall i | 0 <= i < |r| :: Accepted(r[i], known)
  {
    if lines == [] then []
    else
      var rest := Loaded(lines[1..], known);
      if Accepted(lines[0], known) then [lines[0]] + rest else rest
  }

  /** QList::removeOne: the first occurrence of x is removed, if there is one. */
  function RemoveOne(s: seq<string>, x: string): (r: seq<string>)
    ensures x in s ==> |r| == |s| - 1
    ensures x !in s ==> r == s
  {
    if s == [] then []
    else if s[0] == x then s[1..]
    else
      assert x in s[1..] ==> x in s;
      [s[0]] + RemoveOne(s[1..], x)
  }

  /** removeOne takes away one copy of x, when there is one, and nothing else. */
  lemma {:induction false} RemoveOneCount(s: seq<string>, x: string)
    ensures multiset(RemoveOne(s, x)) == multiset(s) - multiset{x}
    decreases |s|
  {
    if s != [] {
      assert s == [s[0]] + s[1..];
      RemoveOneCount(s[1..], x);
    }
  }

  /** What slot_add_or_remove_action does to the list for the action's token. */
  function Toggle(list: seq<string>, token: string): (r: seq<string>)
    ensures |r| == if token in list then |list| - 1 else |list| + 1
    ensures token !in list ==> token in r
  {
    if token in list then RemoveOne(list, token) else list + [token]
  }

  lemma {:induction false} LoadedAppend(a: seq<string>, b: seq<string>, known: set<string>)
    ensures Loaded(a + b, known) == Loaded(a, known) + Loaded(b, known)
    decreases |a|
  {
    if a == [] {
      assert a + b == b;
    } else {
      assert (a + b)[0] == a[0] && (a + b)[1..] == a[1..] + b;
      LoadedAppend(a[1..], b, known);
    }
  }

  /**
   * Loading keeps every accepted line as often as the file holds it, and
   * no other line.
   */
  lemma {:induction false} LoadedCounts(lines: seq<string>, known: set<string>, x: string)
    ensures multiset(Loaded(lines, known))[x] == if Accepted(x, known) then multiset(lines)[x] else 0
    decreases |lines|
  {
    if lines != [] {
      LoadedCounts(lines[1..], known, x);
      assert lines == [lines[0]] + lines[1..];
    }
  }

  /** A line is loaded exactly when the file holds it and it is accepted. */
  lemma {:induction false} LoadedMembers(lines: seq<string>, known: set<string>, x: string)
    ensures x in Loaded(lines, known) <==> x in lines && Accepted(x, known)
    decreases |lines|
  {
    if lines != [] {
      LoadedMembers(lines[1..], known, x);
      assert lines == [lines[0]] + lines[1..];
    }
  }

  /** A list of accepted tokens is loaded back unchanged; a list with any other token is not. */
  lemma {:induction false} LoadedIdentity(lines: seq<string>, known: set<string>)
    ensures Loaded(lines, known) == lines <==> forall i | 0 <= i < |lines| :: Accepted(lines[i], known)
    decreases |lines|
  {
    if lines != [] {
      LoadedIdentity(lines[1..], known);
      if !Accepted(lines[0], known) {
        assert |Loaded(lines, known)| <= |lines[1..]| < |lines|;
      } else if forall i | 0 <= i < |lines| :: Accepted(lines[i], known) {
        assert forall i | 0 <= i < |lines[1..]| :: Accepted(lines[1..][i], known) by {
          forall i | 0 <= i < |lines[1..]| ensures Accepted(lines[1..][i], known) {
            assert lines[1..][i] == lines[i + 1];
          }
        }
        assert lines == [lines[0]] + lines[1..];
      } else {
        var j :| 0 <= j < |lines| && !Accepted(lines[j], known);
        assert j > 0 && lines[1..][j - 1] == lines[j];
      }
    }
  }

  /** removeOne takes out the first occurrence and keeps everything else in order. */
  lemma {:induction false} RemoveOneFirst(s: seq<string>, x: string, i: nat)
    requires i < |s| && s[i] == x && forall j | 0 <= j < i :: s[j] != x
    ensures RemoveOne(s, x) == s[..i] + s[i + 1..]
    decreases i
  {
    if i > 0 {
      var t := s[1..];
      assert s[0] != x;
      assert RemoveOne(s, x) == [s[0]] + RemoveOne(t, x);
      assert forall j | 0 <= j < i - 1 :: t[j] != x by {
        forall j | 0 <= j < i - 1 ensures t[j] != x {
          assert t[j] == s[j + 1];
        }
      }
      RemoveOneFirst(t, x, i - 1);
      DropAtTail(s, i);
    }
  }

  /** Dropping the element at i > 0 keeps the head in front. */
  lemma DropAtTail(s: seq<string>, i: nat)
    requires 0 < i < |s|
    ensures s[..i] + s[i + 1..] == [s[0]] + (s[1..][..i - 1] + s[1..][i..])
  {
    assert s[..i] == [s[0]] + s[1..][..i - 1];
    assert s[i + 1..] == s[1..][i..];
  }

  /** Removing a token just appended to a list that did not hold it gives the list back. */
  lemma {:induction false} RemoveOneAppended(s: seq<string>, x: string)
    requires x !in s
    ensures RemoveOne(s + [x], x) == s
    decreases |s|
  {
    if s == [] {
      assert [] + [x] == [x];
    } else {
      assert (s + [x])[0] == s[0] && (s + [x])[1..] == s[1..] + [x];
      RemoveOneAppended(s[1..], x);
      assert s == [s[0]] + s[1..];
    }
  }

  /**
   * The toggle rule: a token already in the list loses its first
   * occurrence and nothing else moves; an absent token is appended.
   */
  lemma ToggleRule(list: seq<string>, token: string)
    ensures token in list ==>
      exists i | 0 <= i < |list| :: list[i] == token && (forall j | 0 <= j < i :: list[j] != token) &&
        Toggle(list, token) == list[..i] + list[i + 1..]
    ensures token !in list ==> Toggle(list, token) == list + [token]
    ensures multiset(Toggle(list, token)) ==
      if token in list then multiset(list) - multiset{token} else multiset(list) + multiset{token}
  {
    if token in list {
      var i := FirstIndex(list, token);
      RemoveOneFirst(list, token, i);
      RemoveOneCount(list, token);
    }
  }

  /** The position of the first occurrence. */
  function FirstIndex(s: seq<string>, x: string): (i: nat)
    requires x in s
    ensures i < |s| && s[i] == x && forall j | 0 <= j < i :: s[j] != x
  {
    if s[0] == x then 0
    else
      var j := FirstIndex(s[1..], x);
      assert forall k | 1 <= k <= j :: s[k] == s[1..][k - 1];
      j + 1
  }

  /** Toggling an absent token twice gives the list back exactly. */
  lemma DoubleToggleAbsent(list: seq<string>, token: string)
    requires token !in list
    ensures Toggle(Toggle(list, token), token) == list
  {
    RemoveOneAppended(list, token);
  }

  /**
   * Toggling a token held exactly once twice does not give the list back:
   * the token moves to the end.
   */
  lemma DoubleToggleOnce(list: seq<string>, token: string, i: nat)
    requires i < |list| && list[i] == token && multiset(list)[token] == 1
    ensures Toggle(Toggle(list, token), token) == list[..i] + list[i + 1..] + [token]
  {
    assert list == list[..i] + [list[i]] + list[i + 1..];
    assert multiset(list) == multiset(list[..i]) + multiset{token} + multiset(list[i + 1..]);
    assert token !in list[..i];
    assert forall j | 0 <= j < i :: list[j] != token by {
      forall j | 0 <= j < i ensures list[j] != token {
        assert list[j] == list[..i][j];
      }
    }
    RemoveOneFirst(list, token, i);
    assert token !in list[..i] + list[i + 1..] by {
      assert multiset(list[..i] + list[i + 1..]) == multiset(list[..i]) + multiset(list[i + 1..]);
    }
  }

  /** What the destructor's text stream writes for a token list: each token followed by a newline. */
  function SavedText(list: seq<string>): (text: string)
    ensures text == "" <==> list == []
    ensures list != [] ==> text[|text| - 1] == '\n'
  {
    if list == [] then "" else list[0] + "\n" + SavedText(list[1..])
  }

  /** The length of the first line of a text: the characters before its first newline, or all of them. */
  function LineLength(text: string): (n: nat)
    ensures n <= |text|
    ensures forall k | 0 <= k < n :: text[k] != '\n'
    ensures n < |text| ==> text[n] == '\n'
  {
    if text == [] || text[0] == '\n' then 0 else 1 + LineLength(text[1..])
  }

  /**
   * The lines QTextStream::readLine yields until atEnd: each line without
   * its newline, and a last line without one when the text does not end in
   * a newline.
   */
  function SplitLines(text: string): (lines: seq<string>)
    ensures forall i | 0 <= i < |lines| :: '\n' !in lines[i]
    ensures text != "" ==> lines != []
    ensures |lines| <= |text|
    decreases |text|
  {
    if text == [] then []
    else
      var n := LineLength(text);
      [text[..n]] + if n < |text| then SplitLines(text[n + 1..]) else []
  }

  /** A newline-free line followed by a newline is read back as itself, and reading resumes after the newline. */
  lemma {:induction false} LineLengthOf(t: string, rest: string)
    requires '\n' !in t
    ensures LineLength(t + "\n" + rest) == |t|
    decreases |t|
  {
    if t != [] {
      assert (t + "\n" + rest)[1..] == t[1..] + "\n" + rest;
      assert t[0] in t;
      LineLengthOf(t[1..], rest);
    }
  }

  /** Reading back what was written gives the token list again, provided no token holds a newline. */
  lemma {:induction false} SplitSaved(list: seq<string>)
    requires forall i | 0 <= i < |list| :: '\n' !in list[i]
    ensures SplitLines(SavedText(list)) == list
    decreases |list|
  {
    if list != [] {
      var t := list[0];
      var rest := SavedText(list[1..]);
      var text := t + "\n" + rest;
      assert SavedText(list) == text;
      LineLengthOf(t, rest);
      assert text[..|t|] == t && text[|t| + 1..] == rest;
      assert forall i | 0 <= i < |list[1..]| :: '\n' !in list[1..][i] by {
        forall i | 0 <= i < |list[1..]| ensures '\n' !in list[1..][i] {
          assert list[1..][i] == list[i + 1];
        }
      }
      SplitSaved(list[1..]);
      assert list == [t] + list[1..];
    }
  }

  /** A token holding a newline is written as two lines and read back as two tokens. */
  lemma SplitSavedNewline()
    ensures SplitLines(SavedText(["a\nb"])) == ["a", "b"]
  {
    var text := SavedText(["a\nb"]);
    assert SavedText(["a\nb"][1..]) == "";
    assert text == "a\nb\n";
    assert LineLength(text) == 1 by {
      assert text[1..][0] == '\n';
    }
    var tail := text[2..];
    assert tail == "b\n";
    assert LineLength(tail) == 1 by {
      assert tail[1..][0] == '\n';
    }
    assert tail[2..] == "";
    assert SplitLines(tail) == [tail[..1]] + SplitLines(tail[2..]);
    assert tail[..1] == "b";
    assert SplitLines(text) == [text[..1]] + SplitLines(tail);
    assert text[..1] == "a";
  }

  /** LC_CustomToolbar. */
  class LCCustomToolbar {
    /** state_list: the toolbar's contents as tokens. */
    var stateList: seq<string>
    /** file_path: set once a file has been loaded; the destructor writes back to it. */
    var filePath: Option<string>
    /** most_recent_action. */
    var mostRecentAction: Option<Action>

    constructor ()
      ensures stateList == [] && filePath == None && mostRecentAction == None
    {
      stateList := [];
      filePath := None;
      mostRecentAction := None;
    }

    /**
     * actions_from_file. `file` is the file's text, or None when it cannot
     * be opened; `known` holds the keys of the action map.
     */
    method ActionsFromFile(path: string, file: Option<string>, known: set<string>)
      modifies this
      ensures file.None? ==> stateList == old(stateList) && filePath == old(filePath)
      ensures file.Some? ==> stateList == old(stateList) + Loaded(SplitLines(file.value), known) && filePath == Some(path)
      ensures mostRecentAction == old(mostRecentAction)
    {
      if file.None? {
        return;
      }
      filePath := Some(path);
      var lines := SplitLines(file.value);
      var i := 0;
      while i < |lines|
        invariant 0 <= i <= |lines|
        invariant stateList + Loaded(lines[i..], known) == old(stateList) + Loaded(lines, known)
        invariant filePath == Some(path) && mostRecentAction == old(mostRecentAction)
      {
        var line := lines[i];
        assert lines[i..][0] == line && lines[i..][1..] == lines[i + 1..];
        assert Loaded(lines[i..], known) == (if Accepted(line, known) then [line] else []) + Loaded(lines[i + 1..], known);
        if line == Separator {
          stateList := stateList + [line];
        } else if line in known {
          stateList := stateList + [line];
        }
        i := i + 1;
      }
      assert lines[i..] == [];
    }

    /** slot_add_or_remove_action. */
    method SlotAddOrRemoveAction()
      modifies this
      ensures mostRecentAction.None? ==> stateList == old(stateList)
      ensures mostRecentAction.Some? ==> stateList == Toggle(old(stateList), mostRecentAction.value.token)
      ensures mostRecentAction == old(mostRecentAction) && filePath == old(filePath)
    {
      if mostRecentAction.Some? {
        var token := mostRecentAction.value.token;
        if token in stateList {
          stateList := RemoveOne(stateList, token);
        } else {
          stateList := stateList + [token];
        }
      }
    }

    /** slot_most_recent_action. */
    method SlotMostRecentAction(a: Option<Action>)
      modifies this
      ensures mostRecentAction == a
      ensures stateList == old(stateList) && filePath == old(filePath)
    {
      mostRecentAction := a;
    }

    /** add_separator. */
    method AddSeparator()
      modifies this
      ensures stateList == old(stateList) + [Separator]
      ensures mostRecentAction == old(mostRecentAction) && filePath == old(filePath)
    {
      stateList := stateList + [Separator];
    }

    /**
     * What the destructor writes: each token and a newline, to the file the
     * list was loaded from; nothing when no file was loaded.
     */
    method SavedFile() returns (saved: Option<(string, string)>)
      ensures filePath.None? ==> saved == None
      ensures filePath.Some? ==> saved == Some((filePath.value, SavedText(stateList)))
    {
      if filePath.None? {
        saved := None;
      } else {
        var text := "";
        var i := 0;
        while i < |stateList|
          invariant 0 <= i <= |stateList|
          invariant text + SavedText(stateList[i..]) == SavedText(stateList)
        {
          assert stateList[i..][0] == stateList[i] && stateList[i..][1..] == stateList[i + 1..];
          text := text + stateList[i] + "\n";
          i := i + 1;
        }
        assert stateList[i..] == [] && text + "" == text;
        saved := Some((filePath.value, text));
      }
    }
  }

  /**
   * Saving and loading again: for tokens without newlines, the list comes
   * back unchanged exactly when every token in it is a separator or a known
   * action.
   */
  lemma SaveLoadRoundTrip(list: seq<string>, known: set<string>)
    ensures (forall i | 0 <= i < |list| :: '\n' !in list[i]) ==>
      (Loaded(SplitLines(SavedText(list)), known) == list <==> forall i | 0 <= i < |list| :: Accepted(list[i], known))
  {
    if forall i | 0 <= i < |list| :: '\n' !in list[i] {
      SplitSaved(list);
    }
    LoadedIdentity(list, known);
  }
}

=== FILE: drw_base.dfy ===
/**
 * Value types of libdxfrw's drw_base.h: fixed-width integers, the DRW::Version
 * enumeration that every version gate of the DWG reader compares against,
 * the dwgHandle triple, 3D coordinates and the DRW_Variant tagged value.
 */
module DrwBase {

  type uint8 = x: int | 0 <= x < 0x100
  type int16 = x: int | -0x8000 <= x < 0x8000
  type int32 = x: int | -0x8000_0000 <= x < 0x8000_0000
  type uint32 = x: int | 0 <= x < 0x1_0000_0000

  /** DRW::Version, in declaration order (R10 .. ACAD 2013). */
  datatype Version =
    | UNKNOWNV | AC1006 | AC1009 | AC1012 | AC1014
    | AC1015 | AC1018 | AC1021 | AC1024 | AC1027

  /** The integer value C++ gives each enumerator: its position in the declaration. */
  function Ordinal(v: Version): (n: nat)
    ensures n < 10
  {
    match v
    case UNKNOWNV => 0
    case AC1006 => 1
    case AC1009 => 2
    case AC1012 => 3
    case AC1014 => 4
    case AC1015 => 5
    case AC1018 => 6
    case AC1021 => 7
    case AC1024 => 8
    case AC1027 => 9
  }

  /** `a < b` on DRW::Version. */
  predicate Before(a: Version, b: Version) { Ordinal(a) < Ordinal(b) }

  /** `a > b` on DRW::Version. */
  predicate After(a: Version, b: Version) { Ordinal(b) < Ordinal(a) }

  /** The reader's gate `version < DRW::AC1018`: files older than ACAD 2004. */
  predicate Pre2004(v: Version) { Before(v, AC1018) }

  /** The reader's gate `version > DRW::AC1021`: ACAD 2010 and later. */
  predicate Is2010Plus(v: Version) { After(v, AC1021) }

  /** The enumerators are distinct and totally ordered by their declaration position. */
  lemma VersionTotalOrder(a: Version, b: Version, c: Version)
    ensures Ordinal(a) == Ordinal(b) <==> a == b
    ensures a != b ==> Before(a, b) != Before(b, a)
    ensures !Before(a, a)
    ensures Before(a, b) && Before(b, c) ==> Before(a, c)
  {
  }

  /** What the two gates of the reader select, spelled out enumerator by enumerator. */
  lemma VersionGates(v: Version)
    ensures Pre2004(v) <==> v in {UNKNOWNV, AC1006, AC1009, AC1012, AC1014, AC1015}
    ensures Is2010Plus(v) <==> v in {AC1024, AC1027}
    ensures Pre2004(v) ==> !Is2010Plus(v)
    ensures After(v, AC1018) <==> v in {AC1021, AC1024, AC1027}
    ensures After(v, AC1014) <==> !(v in {UNKNOWNV, AC1006, AC1009, AC1012, AC1014})
  {
  }

  /** DRW::NoHandle. */
  const NoHandle: nat := 0

  /** dwgHandle: a (code, size, ref) triple read from a handle stream. */
  datatype DwgHandle = DwgHandle(code: uint8, size: uint8, ref: uint32)

  /** What dwgHandle's default constructor builds. */
  function DefaultHandle(): (h: DwgHandle)
    ensures h.code == 0 && h.size == 0 && h.ref == 0
    ensures h.ref == NoHandle
  {
    DwgHandle(0, 0, 0)
  }

  /** DRW_Coord; doubles are modelled as reals that are only ever copied. */
  datatype Coord = Coord(x: real, y: real, z: real)

  const Origin := Coord(0.0, 0.0, 0.0)

  /** DRW_Variant::TYPE. */
  datatype VarType = STRING | INTEGER | DOUBLE | COORD | INVALID

  /**
   * DRW_Variant's content union. The string and coordinate members are
   * pointers; the model records whose `sdata` / `vdata` they point at.
   */
  datatype VarContent =
    | Unset
    | IntContent(i: int32)
    | DoubleContent(d: real)
    | StringRef(sOwner: DrwVariant)
    | CoordRef(vOwner: DrwVariant)

  /** `static_cast<dint32>` of a 32-bit unsigned value (two's complement wrap-around). */
  function ToInt32(u: uint32): (r: int32)
    ensures u < 0x8000_0000 ==> r == u
    ensures u >= 0x8000_0000 ==> r < 0 && r + 0x1_0000_0000 == u
  {
    if u < 0x8000_0000 then u else u - 0x1_0000_0000
  }

  /** DRW_Variant: a DXF group code with a value whose kind is given by `vtype`. */
  class DrwVariant {
    var content: VarContent
    var vtype: VarType
    var code: int
    var sdata: string
    var vdata: Coord

    /** The default constructor: no value yet (code and content are left unset in the source). */
    constructor ()
      ensures vtype == INVALID && content == Unset
    {
      vtype := INVALID;
      content := Unset;
      code := 0;
      sdata := "";
      vdata := Origin;
    }

    /** DRW_Variant(int c, dint32 i). */
    constructor FromInt(c: int, i: int32)
      ensures code == c && vtype == INTEGER && content == IntContent(i)
    {
      code := c;
      vtype := INTEGER;
      content := IntContent(i);
      sdata := "";
      vdata := Origin;
    }

    /** DRW_Variant(int c, duint32 i): stored through a cast to dint32. */
    constructor FromUInt(c: int, i: uint32)
      ensures code == c && vtype == INTEGER && content == IntContent(ToInt32(i))
    {
      code := c;
      vtype := INTEGER;
      content := IntContent(ToInt32(i));
      sdata := "";
      vdata := Origin;
    }

    /** DRW_Variant(int c, double d). */
    constructor FromDouble(c: int, d: real)
      ensures code == c && vtype == DOUBLE && content == DoubleContent(d)
    {
      code := c;
      vtype := DOUBLE;
      content := DoubleContent(d);
      sdata := "";
      vdata := Origin;
    }

    /** DRW_Variant(int c, UTF8STRING s). */
    constructor FromString(c: int, s: string)
      ensures code == c && vtype == STRING && sdata == s && content == StringRef(this)
    {
      code := c;
      vtype := STRING;
      sdata := s;
      vdata := Origin;
      new;
      content := StringRef(this);
    }

    /** DRW_Variant(int c, DRW_Coord crd). */
    constructor FromCoord(c: int, crd: Coord)
      ensures code == c && vtype == COORD && vdata == crd && content == CoordRef(this)
    {
      code := c;
      vtype := COORD;
      sdata := "";
      vdata := crd;
      new;
      content := CoordRef(this);
    }

    /**
     * The copy constructor as written: the union is copied verbatim, so the
     * copy's string or coordinate pointer still designates `d`'s storage.
     */
    constructor Copy(d: DrwVariant)
      ensures code == d.code && vtype == d.vtype && content == d.content
      ensures d.vtype == COORD ==> vdata == d.vdata
      ensures d.vtype == STRING ==> sdata == d.sdata
    {
      code := d.code;
      vtype := d.vtype;
      vdata := if d.vtype == COORD then d.vdata else Origin;
      sdata := if d.vtype == STRING then d.sdata else "";
      content := d.content;
    }

    /**
     * The copy constructor as evidently intended: the copy's pointer
     * designates its own copy of the string or coordinate.
     */
    constructor CopyOwned(d: DrwVariant)
      ensures code == d.code && vtype == d.vtype
      ensures d.vtype == COORD ==> vdata == d.vdata && content == CoordRef(this)
      ensures d.vtype == STRING ==> sdata == d.sdata && content == StringRef(this)
      ensures d.vtype != COORD && d.vtype != STRING ==> content == d.content
    {
      code := d.code;
      vtype := d.vtype;
      vdata := if d.vtype == COORD then d.vdata else Origin;
      sdata := if d.vtype == STRING then d.sdata else "";
      new;
      content := if d.vtype == COORD then CoordRef(this)
                 else if d.vtype == STRING then StringRef(this)
                 else d.content;
    }

    method AddString(s: string)
      modifies this
      ensures vtype == STRING && sdata == s && content == StringRef(this)
      ensures code == old(code) && vdata == old(vdata)
    {
      vtype := STRING;
      sdata := s;
      content := StringRef(this);
    }

    method AddInt(i: int32)
      modifies this
      ensures vtype == INTEGER && content == IntContent(i)
      ensures code == old(code) && sdata == old(sdata) && vdata == old(vdata)
    {
      vtype := INTEGER;
      content := IntContent(i);
    }

    method AddDouble(d: real)
      modifies this
      ensures vtype == DOUBLE && content == DoubleContent(d)
      ensures code == old(code) && sdata == old(sdata) && vdata == old(vdata)
    {
      vtype := DOUBLE;
      content := DoubleContent(d);
    }

    /** addCoord(): a coordinate value at the origin. */
    method AddOriginCoord()
      modifies this
      ensures vtype == COORD && vdata == Origin && content == CoordRef(this)
      ensures code == old(code) && sdata == old(sdata)
    {
      vtype := COORD;
      vdata := Origin;
      content := CoordRef(this);
    }

    method AddCoord(v: Coord)
      modifies this
      ensures vtype == COORD && vdata == v && content == CoordRef(this)
      ensures code == old(code) && sdata == old(sdata)
    {
      vtype := COORD;
      vdata := v;
      content := CoordRef(this);
    }

    method SetType(t: VarType)
      modifies this
      ensures vtype == t
      ensures code == old(code) && content == old(content) && sdata == old(sdata) && vdata == old(vdata)
    {
      vtype := t;
    }

    /** setCoordX: only a coordinate value is changed; any other value is left alone. */
    method SetCoordX(d: real)
      modifies this
      ensures old(vtype) == COORD ==> vdata == old(vdata).(x := d)
      ensures old(vtype) != COORD ==> vdata == old(vdata)
      ensures vtype == old(vtype) && code == old(code) && content == old(content) && sdata == old(sdata)
    {
      if vtype == COORD {
        vdata := vdata.(x := d);
      }
    }

    method SetCoordY(d: real)
      modifies this
      ensures old(vtype) == COORD ==> vdata == old(vdata).(y := d)
      ensures old(vtype) != COORD ==> vdata == old(vdata)
      ensures vtype == old(vtype) && code == old(code) && content == old(content) && sdata == old(sdata)
    {
      if vtype == COORD {
        vdata := vdata.(y := d);
      }
    }

    method SetCoordZ(d: real)
      modifies this
      ensures old(vtype) == COORD ==> vdata == old(vdata).(z := d)
      ensures old(vtype) != COORD ==> vdata == old(vdata)
      ensures vtype == old(vtype) && code == old(code) && content == old(content) && sdata == old(sdata)
    {
      if vtype == COORD {
        vdata := vdata.(z := d);
      }
    }
  }

  /**
   * Copying a string variant with the copy constructor as written leaves the
   * copy pointing at the original's string storage, not at its own.
   */
  method CopyAliasesOriginal(s: string) returns (original: DrwVariant, copy: DrwVariant)
    ensures copy != original
    ensures copy.vtype == STRING && copy.content == StringRef(original)
  {
    original := new DrwVariant.FromString(1, s);
    copy := new DrwVariant.Copy(original);
  }

  /** With the corrected copy constructor the copy owns the storage it points at. */
  method CopyOwnedPointsAtItself(s: string) returns (original: DrwVariant, copy: DrwVariant)
    ensures copy != original
    ensures copy.vtype == STRING && copy.sdata == s && copy.content == StringRef(copy)
  {
    original := new DrwVariant.FromString(1, s);
    copy := new DrwVariant.CopyOwned(original);
  }
}

=== FILE: drw_lw_conv.dfy ===
/**
 * DRW_LW_Conv: conversions between the line-width enumeration, the integers
 * a DXF file stores (hundredths of a millimetre, negative for the special
 * widths) and the integers a DWG file stores (the enumerator itself).
 */
module DrwLwConv {
  import opened DrwBase

  /**
   * A value of type `enum lineWidth`. Its enumerators span 0..31, so the
   * values the enumeration can hold are exactly 0..31, including the five
   * values 24..28 that name no enumerator.
   */
  type LineWidth = w: int | 0 <= w < 32

  const Width00: LineWidth := 0
  const Width23: LineWidth := 23
  const WidthByLayer: LineWidth := 29
  const WidthByBlock: LineWidth := 30
  const WidthDefault: LineWidth := 31

  /** True of width00..width23, widthByLayer, widthByBlock and widthDefault. */
  predicate IsEnumerator(w: LineWidth) { w <= 23 || 29 <= w }

  /** lineWidth2dxfInt. */
  function LineWidth2DxfInt(lw: LineWidth): (r: int32)
    ensures -3 <= r <= 211
    ensures r < 0 <==> 23 < lw
    ensures r == -3 <==> lw == WidthDefault || !IsEnumerator(lw)
  {
    match lw
    case 29 => -1
    case 30 => -2
    case 31 => -3
    case 0 => 0
    case 1 => 5
    case 2 => 9
    case 3 => 13
    case 4 => 15
    case 5 => 18
    case 6 => 20
    case 7 => 25
    case 8 => 30
    case 9 => 35
    case 10 => 40
    case 11 => 50
    case 12 => 53
    case 13 => 60
    case 14 => 70
    case 15 => 80
    case 16 => 90
    case 17 => 100
    case 18 => 106
    case 19 => 120
    case 20 => 140
    case 21 => 158
    case 22 => 200
    case 23 => 211
    case _ => -3
  }

  /** lineWidth2dwgInt: the enumerator's own value. */
  function LineWidth2DwgInt(lw: LineWidth): (r: int32)
    ensures 0 <= r < 32
    ensures IsEnumerator(lw) ==> DwgInt2LineWidth(r) == lw
  {
    lw
  }

  /**
   * dxfInt2lineWidth: rounds a DXF width to the enumerator whose band holds
   * it. A negative value other than -1, -2, -3 falls out of the if-chain and
   * reaches the final `return widthDefault`.
   */
  function DxfInt2LineWidth(i: int32): (w: LineWidth)
    ensures IsEnumerator(w)
    ensures 0 <= i ==> w <= Width23
    ensures i < 0 ==> WidthByLayer <= w
  {
    if i < 0 then
      if i == -1 then WidthByLayer
      else if i == -2 then WidthByBlock
      else if i == -3 then WidthDefault
      else WidthDefault
    else if i < 3 then 0
    else if i < 7 then 1
    else if i < 11 then 2
    else if i < 14 then 3
    else if i < 16 then 4
    else if i < 19 then 5
    else if i < 22 then 6
    else if i < 27 then 7
    else if i < 32 then 8
    else if i < 37 then 9
    else if i < 45 then 10
    else if i < 52 then 11
    else if i < 57 then 12
    else if i < 65 then 13
    else if i < 75 then 14
    else if i < 85 then 15
    else if i < 95 then 16
    else if i < 103 then 17
    else if i < 112 then 18
    else if i < 130 then 19
    else if i < 149 then 20
    else if i < 180 then 21
    else if i < 205 then 22
    else 23
  }

  /** dwgInt2lineWidth: a DWG value is kept when it names an enumerator. */
  function DwgInt2LineWidth(i: int32): (w: LineWidth)
    ensures IsEnumerator(w)
    ensures w == i || w == WidthDefault
  {
    if (i > -1 && i < 24) || (i > 28 && i < 32) then i else WidthDefault
  }

  /** Writing a width to DXF and reading it back gives the same enumerator. */
  lemma DxfRoundTrip(w: LineWidth)
    requires IsEnumerator(w)
    ensures DxfInt2LineWidth(LineWidth2DxfInt(w)) == w
  {
  }

  /** Writing a width to DWG and reading it back gives the same enumerator. */
  lemma DwgRoundTrip(w: LineWidth)
    requires IsEnumerator(w)
    ensures DwgInt2LineWidth(LineWidth2DwgInt(w)) == w
  {
  }

  /** The values 24..28 name no enumerator and come back from DWG as widthDefault. */
  lemma DwgRoundTripOutsideEnum(w: LineWidth)
    requires !IsEnumerator(w)
    ensures DwgInt2LineWidth(LineWidth2DwgInt(w)) == WidthDefault
  {
  }

  /** A DWG integer is accepted exactly when it is an enumerator's value. */
  lemma DwgRangeCheck(i: int32)
    ensures DwgInt2LineWidth(i) == i <==> (0 <= i <= 23 || 29 <= i <= 31)
    ensures !(0 <= i <= 23 || 29 <= i <= 31) ==> DwgInt2LineWidth(i) == WidthDefault
    ensures IsEnumerator(DwgInt2LineWidth(i))
  {
  }

  /** The special DXF values and what every other negative value becomes. */
  lemma DxfNegatives(i: int32)
    requires i < 0
    ensures i == -1 ==> DxfInt2LineWidth(i) == WidthByLayer
    ensures i == -2 ==> DxfInt2LineWidth(i) == WidthByBlock
    ensures i == -3 ==> DxfInt2LineWidth(i) == WidthDefault
    ensures i < -3 ==> DxfInt2LineWidth(i) == WidthDefault
    ensures DxfInt2LineWidth(i) >= WidthByLayer
  {
  }

  /** Non-negative DXF values map to width00..width23, and every value from 205 up to width23. */
  lemma DxfNonNegativeRange(i: int32)
    requires 0 <= i
    ensures DxfInt2LineWidth(i) <= Width23
    ensures 205 <= i ==> DxfInt2LineWidth(i) == Width23
  {
  }

  /** On non-negative inputs dxfInt2lineWidth never decreases. */
  lemma DxfMonotone(i: int32, j: int32)
    requires 0 <= i <= j
    ensures DxfInt2LineWidth(i) <= DxfInt2LineWidth(j)
  {
  }

  /** The special widths are written as -1, -2, -3, and so is every value naming no enumerator. */
  lemma DxfSpecialOutputs(w: LineWidth)
    ensures w == WidthByLayer ==> LineWidth2DxfInt(w) == -1
    ensures w == WidthByBlock ==> LineWidth2DxfInt(w) == -2
    ensures w == WidthDefault ==> LineWidth2DxfInt(w) == -3
    ensures !IsEnumerator(w) ==> LineWidth2DxfInt(w) == -3
    ensures w <= 23 ==> LineWidth2DxfInt(w) >= 0
  {
  }

  /** width00..width23 are written as strictly increasing DXF values. */
  lemma DxfStrictlyIncreasing(a: LineWidth, b: LineWidth)
    requires a < b <= 23
    ensures 0 <= LineWidth2DxfInt(a) < LineWidth2DxfInt(b)
  {
  }
}

=== FILE: dwg_block_walks.dfy ===
/**
 * The member walks of readDwgBlocks (dwgreader.cpp): the 2004+ loop over a
 * block record's entity list and the pre-2004 chain along the reader's next
 * link, as the events they hand to the sink, the entries they consume and
 * the result they return.
 */
module DwgBlockWalks {
  import opened DrwBase
  import opened DwgModel
  import opened ObjMap
  import opened DwgSpec
  import opened DwgProperties

  /** The dispatch case a record falls into: the kind it is sent as, or None when no case handles it. */
  function KindAt(env: Env, oc: ObjHandle): Option<EntityKind>
  {
    match ResolveCode(env, env.file.objType(oc.loc))
    case None => None
    case Some(code) => KindOf(code)
  }

  /** A listed member that is read without a nested vertex walk (anything but a polyline). */
  predicate PlainMember(env: Env, objects: ObjectMap, h: nat)
  {
    Found(objects, h) ==> KindAt(env, Lookup(objects, h)) != Some(Polyline)
  }

  /** What a found plain record hands to the sink: its decoded entity, when a case handles it. */
  function MemberEvents(env: Env, t: Tables, oc: ObjHandle): seq<Event>
  {
    match KindAt(env, oc)
    case None => []
    case Some(kind) => [AddEntity(kind, DecodedEntity(t, kind, env.file.entity(oc.loc, kind).rec))]
  }

  /** readDwgEntity returns true for a record: its class resolved and, when a case handles it, it decoded. */
  predicate EntityOk(env: Env, oc: ObjHandle)
  {
    ResolveCode(env, env.file.objType(oc.loc)).Some? &&
    (KindAt(env, oc).Some? ==> env.file.entity(oc.loc, KindAt(env, oc).value).ok)
  }

  /** The listed member was found and read without error. */
  predicate MemberLoaded(env: Env, objects: ObjectMap, h: nat)
  {
    Found(objects, h) && EntityOk(env, Lookup(objects, h))
  }

  /** The reader's next link after reading a plain record: the entity's own, or 0 when no case handles it. */
  function LinkAfter(env: Env, oc: ObjHandle): nat
  {
    match KindAt(env, oc)
    case None => 0
    case Some(kind) => env.file.entity(oc.loc, kind).rec.nextEntLink
  }

  /** The events one listed handle contributes: its record's, when it is found. */
  function FoundEvents(env: Env, t: Tables, objects: ObjectMap, h: nat): seq<Event>
  {
    if Found(objects, h) then MemberEvents(env, t, Lookup(objects, h)) else []
  }

  /** The events a list walk hands to the sink: those of each found member, in list order. */
  function ListedEvents(env: Env, t: Tables, objects: ObjectMap, hs: seq<nat>): seq<Event>
  {
    if hs == [] then [] else FoundEvents(env, t, objects, hs[0]) + ListedEvents(env, t, objects, hs[1..])
  }

  /** Reading one found plain member: its events appended, `ret` conjoined, only the reader's links changed. */
  lemma PlainMemberRead(env: Env, r: Run, objs: ObjectMap, oc: ObjHandle)
    requires KindAt(env, oc) != Some(Polyline)
    ensures var m := MemberRead(env, r, objs, oc);
      !m.hung && m.st.objects == objs && m.st.tables == r.st.tables &&
      m.sink == r.sink + MemberEvents(env, r.st.tables, oc) &&
      m.ok == (r.ok && EntityOk(env, oc)) &&
      m.st.nextEntLink == LinkAfter(env, oc)
  {
  }

  /** One step of the 2004+ member walk. */
  function BlockListStep(env: Env, r: Run, h: nat): Run
  {
    var oc := Lookup(r.st.objects, h);
    var objs := TakeByKey(r.st.objects, h);
    if oc.handle == 0 then Run(r.st.(objects := objs), r.sink, false, false)
    else MemberRead(env, r, objs, oc)
  }

  lemma BlockListUnfold(env: Env, r: Run, hs: seq<nat>)
    requires !r.hung && hs != [] && !BlockListStep(env, r, hs[0]).hung
    ensures BlockList(env, r, hs) == BlockList(env, BlockListStep(env, r, hs[0]), hs[1..])
  {
  }

  /** A step over a plain member erases its key, and hands the sink that member's events. */
  lemma PlainStep(env: Env, r: Run, h: nat)
    requires PlainMember(env, r.st.objects, h)
    ensures var r1 := BlockListStep(env, r, h);
      !r1.hung && r1.st.objects == r.st.objects - {h} && r1.st.tables == r.st.tables &&
      r1.sink == r.sink + FoundEvents(env, r.st.tables, r.st.objects, h) &&
      r1.ok == (r.ok && MemberLoaded(env, r.st.objects, h))
  {
    var oc := Lookup(r.st.objects, h);
    if oc.handle != 0 {
      PlainMemberRead(env, r, TakeByKey(r.st.objects, h), oc);
    }
  }

  /** ListedEvents only depends on the entries it looks up. */
  lemma {:induction false} ListedEventsFrame(env: Env, t: Tables, a: ObjectMap, b: ObjectMap, hs: seq<nat>)
    requires forall x | x in hs :: Lookup(a, x) == Lookup(b, x)
    ensures ListedEvents(env, t, a, hs) == ListedEvents(env, t, b, hs)
    decreases |hs|
  {
    if hs != [] {
      ListedEventsFrame(env, t, a, b, hs[1..]);
    }
  }

  /**
   * The 2004+ member walk over distinct plain handles visits each once, in
   * list order: it erases exactly the listed keys and hands the sink the
   * entities of the members found, in that order.
   */
  lemma {:induction false} BlockListEvents(env: Env, r: Run, hs: seq<nat>)
    requires !r.hung && Distinct(hs)
    requires forall h | h in hs :: PlainMember(env, r.st.objects, h)
    ensures var r' := BlockList(env, r, hs);
      !r'.hung &&
      r'.sink == r.sink + ListedEvents(env, r.st.tables, r.st.objects, hs) &&
      r'.st.objects == r.st.objects - (set h | h in hs)
    decreases |hs|
  {
    if hs != [] {
      var rest := hs[1..];
      var r1 := BlockListStep(env, r, hs[0]);
      StepRest(env, r, hs);
      BlockListUnfold(env, r, hs);
      BlockListEvents(env, r1, rest);
      ListedEventsFrame(env, r.st.tables, r1.st.objects, r.st.objects, rest);
      EraseCons(r.st.objects, hs);
      ListedEventsCons(env, r.st.tables, r.st.objects, hs, r.sink, r1.sink, BlockList(env, r1, rest).sink);
    }
  }

  /** After the walk's first step, the rest of the list meets the walk's hypotheses and sees the same entries. */
  lemma StepRest(env: Env, r: Run, hs: seq<nat>)
    requires hs != [] && Distinct(hs)
    requires forall h | h in hs :: PlainMember(env, r.st.objects, h)
    ensures var r1 := BlockListStep(env, r, hs[0]); var rest := hs[1..];
      !r1.hung && r1.st.objects == r.st.objects - {hs[0]} && r1.st.tables == r.st.tables &&
      r1.sink == r.sink + FoundEvents(env, r.st.tables, r.st.objects, hs[0]) &&
      r1.ok == (r.ok && MemberLoaded(env, r.st.objects, hs[0])) &&
      Distinct(rest) && hs[0] !in rest &&
      (forall x | x in rest :: Lookup(r1.st.objects, x) == Lookup(r.st.objects, x)) &&
      (forall x | x in rest :: PlainMember(env, r1.st.objects, x))
  {
    var h := hs[0];
    var rest := hs[1..];
    assert h in hs;
    PlainStep(env, r, h);
    assert Distinct(rest) && h !in rest;
    forall x | x in rest
      ensures PlainMember(env, BlockListStep(env, r, h).st.objects, x)
    {
      assert x in hs;
    }
  }

  /** A sink that gained the head's events and then the rest's has gained the whole list's. */
  lemma ListedEventsCons(env: Env, t: Tables, objects: ObjectMap, hs: seq<nat>, s0: seq<Event>, s1: seq<Event>, s2: seq<Event>)
    requires hs != []
    requires s1 == s0 + FoundEvents(env, t, objects, hs[0])
    requires s2 == s1 + ListedEvents(env, t, objects, hs[1..])
    ensures s2 == s0 + ListedEvents(env, t, objects, hs)
  {
    var head := FoundEvents(env, t, objects, hs[0]);
    var tail := ListedEvents(env, t, objects, hs[1..]);
    assert ListedEvents(env, t, objects, hs) == head + tail;
    AppendAssoc(s0, head, tail);
  }

  lemma AppendAssoc<T>(a: seq<T>, b: seq<T>, c: seq<T>)
    ensures a + b + c == a + (b + c)
  {
  }

  /** Erasing a list's keys is erasing its head, then the rest. */
  lemma EraseCons(m: ObjectMap, hs: seq<nat>)
    requires hs != []
    ensures m - {hs[0]} - (set x | x in hs[1..]) == m - (set x | x in hs)
  {
    assert forall x | x in hs :: x == hs[0] || x in hs[1..];
  }

  /** A failed member walk stays failed. */
  lemma {:induction false} BlockListFailureSticks(env: Env, r: Run, hs: seq<nat>)
    requires !r.hung && !r.ok
    ensures !BlockList(env, r, hs).ok
    decreases |hs|
  {
    if hs != [] {
      var r1 := BlockListStep(env, r, hs[0]);
      if !r1.hung {
        BlockListUnfold(env, r, hs);
        BlockListFailureSticks(env, r1, hs[1..]);
      }
    }
  }

  /** The 2004+ member walk over distinct plain handles succeeds exactly when every member was found and read. */
  lemma {:induction false} BlockListOk(env: Env, r: Run, hs: seq<nat>)
    requires !r.hung && Distinct(hs)
    requires forall h | h in hs :: PlainMember(env, r.st.objects, h)
    ensures BlockList(env, r, hs).ok <==> r.ok && forall h | h in hs :: MemberLoaded(env, r.st.objects, h)
    decreases |hs|
  {
    if hs != [] {
      var h := hs[0];
      var rest := hs[1..];
      var r1 := BlockListStep(env, r, h);
      StepRest(env, r, hs);
      BlockListUnfold(env, r, hs);
      BlockListOk(env, r1, rest);
      assert forall x | x in rest :: MemberLoaded(env, r1.st.objects, x) == MemberLoaded(env, r.st.objects, x);
      assert (forall x | x in hs :: MemberLoaded(env, r.st.objects, x)) <==>
        MemberLoaded(env, r.st.objects, h) && forall x | x in rest :: MemberLoaded(env, r.st.objects, x) by {
        assert forall x | x in hs :: x == h || x in rest;
      }
      if !r1.ok {
        BlockListFailureSticks(env, r1, rest);
      }
    }
  }

  /**
   * When the members' next links spell out a list of distinct plain
   * handles, all present, the pre-2004 chain from its first to its last
   * handle does exactly what the 2004+ list walk does over that list: the
   * chain stops once the last handle has been read.
   */
  lemma {:induction false} BlockChainFollowsList(env: Env, r: Run, hs: seq<nat>)
    requires !r.hung && |hs| > 0 && Distinct(hs) && 0 !in hs
    requires forall h | h in hs :: Found(r.st.objects, h) && PlainMember(env, r.st.objects, h)
    requires forall i | 0 <= i < |hs| - 1 :: LinkAfter(env, Lookup(r.st.objects, hs[i])) == hs[i + 1]
    ensures BlockChain(env, r, hs[|hs| - 1], hs[0]) == BlockList(env, r, hs)
    decreases |hs|
  {
    var h := hs[0];
    assert h in hs;
    var oc := Lookup(r.st.objects, h);
    var objs := TakeByKey(r.st.objects, h);
    PlainMemberRead(env, r, objs, oc);
    var r1 := MemberRead(env, r, objs, oc);
    assert BlockList(env, r, hs) == BlockList(env, r1, hs[1..]);
    if |hs| > 1 {
      var rest := hs[1..];
      assert hs[0] != hs[|hs| - 1];
      assert Distinct(rest) && 0 !in rest && h !in rest;
      assert r1.st.objects == r.st.objects - {h};
      forall x | x in rest
        ensures Found(r1.st.objects, x) && PlainMember(env, r1.st.objects, x)
        ensures Lookup(r1.st.objects, x) == Lookup(r.st.objects, x)
      {
        assert x in hs && x != h;
      }
      forall i | 0 <= i < |rest| - 1
        ensures LinkAfter(env, Lookup(r1.st.objects, rest[i])) == rest[i + 1]
      {
        assert rest[i] == hs[i + 1] && rest[i + 1] == hs[i + 2];
        assert rest[i] in rest;
      }
      assert r1.st.nextEntLink == hs[1];
      BlockChainFollowsList(env, r1, rest);
      assert rest[|rest| - 1] == hs[|hs| - 1];
    }
  }

  /**
   * A 2004+ block record whose block entity is reachable, over a distinct
   * list of plain members: the sink gets the completed block, then (when
   * the block has an owner) the listed members' entities in list order,
   * then the end block exactly when it is still present. The members are
   * decoded against the tables holding the record's new name.
   */
  lemma BlockRecordListed(env: Env, r: Run, k: nat)
    requires !r.hung && k in r.st.tables.blockRecords && !Pre2004(env.version)
    requires var bkr := r.st.tables.blockRecords[k]; var oc := Lookup(r.st.objects, bkr.block);
      oc.handle != 0 && env.file.seekable(oc.loc)
    requires var bkr := r.st.tables.blockRecords[k];
      Distinct(bkr.entMap) &&
      forall h | h in bkr.entMap :: PlainMember(env, TakeByHandle(r.st.objects, bkr.block), h)
    ensures var bkr := r.st.tables.blockRecords[k];
      var objs := TakeByHandle(r.st.objects, bkr.block);
      var bk := CompletedBlock(r.st.tables, env.file.block(Lookup(r.st.objects, bkr.block).loc).rec, bkr);
      var t := r.st.tables.(blockRecords := r.st.tables.blockRecords[k := bkr.(name := bk.name)]);
      var left := if bk.parentHandle == NoHandle then objs else objs - (set h | h in bkr.entMap);
      BlockRecordRun(env, r, k).sink ==
        r.sink + [AddBlock(bk)]
        + (if bk.parentHandle == NoHandle then [] else ListedEvents(env, t, objs, bkr.entMap))
        + (if Found(left, bkr.endBlock) then [EndBlock] else [])
  {
    var bkr := r.st.tables.blockRecords[k];
    var oc := Lookup(r.st.objects, bkr.block);
    var p := env.file.block(oc.loc);
    var st1 := r.st.(objects := TakeByHandle(r.st.objects, bkr.block));
    var bk := CompletedBlock(st1.tables, p.rec, bkr);
    var t2 := st1.tables.(blockRecords := st1.tables.blockRecords[k := bkr.(name := bk.name)]);
    var r2 := Run(st1.(tables := t2), r.sink + [AddBlock(bk)], r.ok && p.ok, false);
    var r3 := if bk.parentHandle == NoHandle then r2 else BlockMembers(env, r2, bkr);
    if bk.parentHandle != NoHandle {
      BlockListEvents(env, r2, bkr.entMap);
    }
    assert BlockRecordRun(env, r, k) == CloseBlock(env, r3, bkr);
  }
}

=== FILE: dwg_control.dfy ===
/**
 * DRW_ObjControl::parseDwg (dwgreader.cpp): decodes a table's control record
 * into the ordered list of the table's member handles.
 */
module DwgControl {
  import opened DrwBase
  import opened DwgModel

  /** The value the i-th getOffsetHandle call yields: 0 once the buffer is exhausted. */
  function ReadAt(handleReads: seq<nat>, i: nat): nat
  {
    if i < |handleReads| then handleReads[i] else 0
  }

  /** The nonzero values among the first n handle reads, in the order they were read. */
  function NonZeroReads(handleReads: seq<nat>, n: nat): (r: seq<nat>)
    ensures |r| <= n
    ensures forall i | 0 <= i < |r| :: r[i] != 0
    ensures forall i | 0 <= i < n && ReadAt(handleReads, i) != 0 :: ReadAt(handleReads, i) in r
    ensures forall x | x in r :: exists i :: 0 <= i < n && ReadAt(handleReads, i) == x
  {
    if n == 0 then []
    else
      var p := NonZeroReads(handleReads, n - 1);
      var h := ReadAt(handleReads, n - 1);
      if h != 0 then p + [h] else p
  }

  /** Control types whose tables hold two members the control does not list (block record, line type). */
  predicate HasImplicitEntries(oType: int) { oType == 48 || oType == 56 }

  /** The number of member handles the loop reads: numEntries, plus 2 for the two implicit members. */
  function MemberCount(oType: int, c: ControlData): nat
  {
    var n := if HasImplicitEntries(oType) then c.numEntries + 2 else c.numEntries as int;
    if n > 0 then n else 0
  }

  /** The number of extra handles read (and dropped) after the members: only for the dimension-style control after R14. */
  function UnknownCount(version: Version, oType: int, c: ControlData): nat
  {
    if oType == 68 && After(version, AC1014) then c.unknownByte else 0
  }

  datatype ControlResult = ControlResult(handles: seq<nat>, ok: bool)

  /** What parseDwg leaves in hadlesList, and what it returns. */
  function ControlSpec(version: Version, oType: int, c: ControlData): ControlResult
  {
    if !c.entryOk then ControlResult([], false)
    else
      var n := MemberCount(oType, c);
      ControlResult(NonZeroReads(c.handleReads, n),
                    c.good && n + UnknownCount(version, oType, c) <= |c.handleReads|)
  }

  /**
   * DRW_ObjControl::parseDwg. The string bit (2007 and later), the null
   * handle and the extension-dictionary handle are read before the members
   * and carry nothing the reader uses; they are part of `c.good`.
   */
  method ParseControl(version: Version, oType: int, c: ControlData) returns (handles: seq<nat>, ok: bool)
    ensures ControlResult(handles, ok) == ControlSpec(version, oType, c)
    ensures forall i | 0 <= i < |handles| :: handles[i] != 0
    ensures |handles| <= MemberCount(oType, c)
  {
    handles := [];
    if !c.entryOk {
      return handles, false;
    }
    var numEntries: int := c.numEntries;
    var unkData: int := 0;
    if oType == 68 && After(version, AC1014) {
      unkData := c.unknownByte;
    }
    numEntries := if HasImplicitEntries(oType) then numEntries + 2 else numEntries;
    assert MemberCount(oType, c) == if numEntries > 0 then numEntries else 0;
    var pos := 0;
    var good := c.good;
    var i := 0;
    while i < numEntries
      invariant 0 <= i == pos
      invariant i <= (if numEntries > 0 then numEntries else 0)
      invariant handles == NonZeroReads(c.handleReads, pos)
      invariant good == (c.good && pos <= |c.handleReads|)
    {
      var h := ReadAt(c.handleReads, pos);
      good := good && pos < |c.handleReads|;
      pos := pos + 1;
      if h != 0 {
        handles := handles + [h];
      }
      i := i + 1;
    }
    assert pos == MemberCount(oType, c);
    i := 0;
    while i < unkData
      invariant 0 <= i <= unkData
      invariant pos == MemberCount(oType, c) + i
      invariant good == (c.good && pos <= |c.handleReads|)
    {
      good := good && pos < |c.handleReads|;
      pos := pos + 1;
      i := i + 1;
    }
    ok := good;
  }
  /** When every read of the first n is an in-buffer nonzero handle, the list is exactly those reads. */
  lemma {:induction false} NonZeroReadsAllPresent(handleReads: seq<nat>, n: nat)
    requires n <= |handleReads|
    requires forall i | 0 <= i < n :: handleReads[i] != 0
    ensures NonZeroReads(handleReads, n) == handleReads[..n]
  {
    if n > 0 {
      NonZeroReadsAllPresent(handleReads, n - 1);
      assert handleReads[..n] == handleReads[..n - 1] + [handleReads[n - 1]];
    }
  }

  /** Null handles among the reads are skipped: a run of null reads lists nothing. */
  lemma {:induction false} NonZeroReadsAllNull(handleReads: seq<nat>, n: nat)
    requires forall i | 0 <= i < n :: ReadAt(handleReads, i) == 0
    ensures NonZeroReads(handleReads, n) == []
  {
    if n > 0 {
      NonZeroReadsAllNull(handleReads, n - 1);
    }
  }

  /**
   * The block-record and line-type controls list numEntries + 2 members:
   * with every read in the buffer and nonzero, the list is the first
   * numEntries + 2 reads, in order, even when numEntries is 0.
   */
  lemma ImplicitEntriesListed(version: Version, oType: int, c: ControlData)
    requires c.entryOk && HasImplicitEntries(oType) && c.numEntries >= 0
    requires c.numEntries + 2 <= |c.handleReads|
    requires forall i | 0 <= i < c.numEntries + 2 :: c.handleReads[i] != 0
    ensures ControlSpec(version, oType, c).handles == c.handleReads[..c.numEntries + 2]
    ensures |ControlSpec(version, oType, c).handles| == c.numEntries + 2
  {
    NonZeroReadsAllPresent(c.handleReads, c.numEntries + 2);
  }

  /** Other controls list at most numEntries members, and none when the count is not positive. */
  lemma ListedCountBound(version: Version, oType: int, c: ControlData)
    requires !HasImplicitEntries(oType)
    ensures |ControlSpec(version, oType, c).handles| <= if c.numEntries > 0 then c.numEntries else 0
    ensures c.numEntries <= 0 ==> ControlSpec(version, oType, c).handles == []
  {
  }

  /**
   * The handles read after the members are dropped: the listed members do
   * not depend on the extra counter, which only decides whether the reads
   * still fit in the buffer.
   */
  lemma UnknownHandlesDropped(version: Version, oType: int, c: ControlData, b: uint8)
    ensures ControlSpec(version, oType, c.(unknownByte := b)).handles == ControlSpec(version, oType, c).handles
    ensures oType != 68 || !After(version, AC1014) ==> ControlSpec(version, oType, c.(unknownByte := b)) == ControlSpec(version, oType, c)
  {
  }

  /** parseDwg succeeds exactly when the header decoded and every read stayed inside the buffer. */
  lemma ControlOk(version: Version, oType: int, c: ControlData)
    ensures ControlSpec(version, oType, c).ok <==>
      c.entryOk && c.good && MemberCount(oType, c) + UnknownCount(version, oType, c) <= |c.handleReads|
    ensures !c.entryOk ==> ControlSpec(version, oType, c).handles == []
  {
  }
}

=== FILE: dwg_model.dfy ===
/**
 * The records the DWG object-graph decoder of dwgreader.cpp works with, the
 * reader's state, and the file seen as an oracle: what the bit buffer and the
 * per-record parseDwg bodies yield for the record stored at each location.
 */
module DwgModel {
  import opened DrwBase

  datatype Option<T> = None | Some(value: T)

  /** objHandle: an object-map entry, the record's handle and its file location. */
  datatype ObjHandle = ObjHandle(handle: nat, loc: nat)

  /** What a default-constructed objHandle holds (and what `operator[]` inserts). */
  const DefaultObjHandle := ObjHandle(0, 0)

  /** dwgReader::ObjectMap: handle -> objHandle. */
  type ObjectMap = map<nat, ObjHandle>

  /** The outcome of a parseDwg call: its bool result and the record it filled in. */
  datatype Parsed<R> = Parsed(ok: bool, rec: R)

  /** DRW_LType, DRW_Textstyle, DRW_Dimstyle, DRW_Vport, DRW_AppId: what the reader uses of them. */
  datatype TableEntry = TableEntry(handle: nat, name: string)

  /** DRW_Layer: its line-type reference and the line-type name the reader fills in. */
  datatype Layer = Layer(handle: nat, name: string, lTypeRef: nat, lineType: string)

  /** DRW_Block_Record: the block entity, the end-block entity and the member entities. */
  datatype BlockRecord = BlockRecord(
    handle: nat,
    name: string,
    block: nat,            // handle of the owning BLOCK entity
    endBlock: nat,         // handle of the ENDBLK entity
    firstEH: nat,          // first member entity (before 2004)
    lastEH: nat,           // last member entity (before 2004)
    entMap: seq<nat>,      // member entities (2004 and later)
    basePoint: Coord,
    flags: int)

  /** The owner handles every DRW_Entity carries and the names parseAttribs resolves. */
  datatype Attribs = Attribs(layerRef: nat, lTypeRef: nat, layer: string, lineType: string)

  /** DRW_Block, as far as the reader touches it. */
  datatype Block = Block(
    handle: nat,
    name: string,
    parentHandle: nat,
    basePoint: Coord,
    flags: int,
    attrs: Attribs)

  /** DRW_Vertex: its chain links (its geometry is not modelled). */
  datatype Vertex = Vertex(handle: nat, nextEntLink: nat, prevEntLink: nat)

  /** One per DRW_Interface add* call that readDwgEntity makes. */
  datatype EntityKind =
    | Arc | Circle | Line | Point | Ellipse | Insert | LWPolyline | Text | MText
    | Face3D | DimOrdinate | DimLinear | DimAligned | DimAngular3p | DimAngular
    | DimRadial | DimDiametric | Leader | Solid | Hatch | Trace | Viewport
    | Spline | Ray | Polyline | Xline

  /**
   * A decoded entity. `tableRef` is the style, dimension-style or block-record
   * handle of the kinds that have one and `tableName` the name resolved from
   * it; the last five fields are those of DRW_Polyline.
   */
  datatype Entity = Entity(
    handle: nat,
    attrs: Attribs,
    tableRef: nat,
    tableName: string,
    nextEntLink: nat,
    prevEntLink: nat,
    firstEH: nat,
    lastEH: nat,
    vertexHandles: seq<nat>,
    seqEnd: nat,
    vertices: seq<Vertex>)

  /** The calls the output sink (DRW_Interface) receives. */
  datatype Event =
    | AddBlock(block: Block)
    | EndBlock
    | AddEntity(kind: EntityKind, entity: Entity)

  /** DRW_Class: the built-in type an extended type code stands for (0: none). */
  datatype DwgClass = DwgClass(dwgType: int)

  /**
   * The parts of a control record DRW_ObjControl::parseDwg reads: whether the
   * common table-entry header decoded, the entry count, the extra counter byte
   * (read only for the dimension-style control), the values that successive
   * getOffsetHandle calls return before the buffer is exhausted, and whether
   * every other read stayed inside the buffer.
   */
  datatype ControlData = ControlData(
    entryOk: bool,
    numEntries: int32,
    unknownByte: uint8,
    handleReads: seq<nat>,
    good: bool)

  /** The control handles DRW_Header hands to readDwgTables. */
  datatype ControlHandles = ControlHandles(
    linetypeCtrl: nat,
    layerCtrl: nat,
    styleCtrl: nat,
    dimstyleCtrl: nat,
    vportCtrl: nat,
    blockCtrl: nat,
    appidCtrl: nat)

  /**
   * The file as the reader sees it: for the record at each location, what
   * getObjType reads, whether setPosition succeeds, and what each parseDwg
   * would produce when called on it.
   */
  datatype DwgFile = DwgFile(
    seekable: nat -> bool,
    objType: nat -> int16,
    control: nat -> ControlData,
    ltype: nat -> Parsed<TableEntry>,
    layer: nat -> Parsed<Layer>,
    style: nat -> Parsed<TableEntry>,
    dimstyle: nat -> Parsed<TableEntry>,
    vport: nat -> Parsed<TableEntry>,
    blockRecord: nat -> Parsed<BlockRecord>,
    appId: nat -> Parsed<TableEntry>,
    block: nat -> Parsed<Block>,
    endBlock: nat -> Parsed<Block>,
    entity: (nat, EntityKind) -> Parsed<Entity>,
    vertex: nat -> Parsed<Vertex>)

  /** What stays fixed during a decode session: version, class table and file. */
  datatype Env = Env(version: Version, classes: map<nat, DwgClass>, file: DwgFile)

  /** The typed maps readDwgTables fills. */
  datatype Tables = Tables(
    ltypes: map<nat, TableEntry>,
    layers: map<nat, Layer>,
    styles: map<nat, TableEntry>,
    dimstyles: map<nat, TableEntry>,
    vports: map<nat, TableEntry>,
    blockRecords: map<nat, BlockRecord>,
    appIds: map<nat, TableEntry>)

  /** The reader's mutable state. */
  datatype ReaderState = ReaderState(
    objects: ObjectMap,
    tables: Tables,
    nextEntLink: nat,
    prevEntLink: nat)

  /**
   * A stage of the decode seen as a whole: the reader's state, everything the
   * sink has received, the accumulated `ret`, and whether the source is stuck
   * in a loop it never leaves (it then never returns to its caller).
   */
  datatype Run = Run(st: ReaderState, sink: seq<Event>, ok: bool, hung: bool)

  /** The handle stored in each kind of table record (the key it is filed under). */
  function EntryHandle(r: TableEntry): nat { r.handle }
  function LayerHandle(r: Layer): nat { r.handle }
  function BlockRecordHandle(r: BlockRecord): nat { r.handle }
}

=== FILE: dwg_properties.dfy ===
/**
 * Properties of the decoding stages specified in DwgSpec: consumption of the
 * object map, soft failure, the member lists, the chain walks, the block
 * bracket and the order of the block pass and of the residual sweep.
 */
module DwgProperties {
  import opened DrwBase
  import opened DwgModel
  import opened ObjMap
  import opened DwgControl
  import opened DwgSpec

  predicate Distinct(s: seq<nat>)
  {
    forall i, j | 0 <= i < j < |s| :: s[i] != s[j]
  }

  // --------------------------------------------------------------- tables

  /**
   * The control lookup always consumes the control's key. A missing control,
   * or one of another type, fails and leaves the table as it was.
   */
  lemma ControlConsumed<R>(env: Env, objects: ObjectMap, table: map<nat, R>, ctrl: nat, expected: int,
                           parse: nat -> Parsed<R>, key: R -> nat, ok: bool)
    ensures LoadControl(env, objects, ctrl, expected, ok).objects == objects - {ctrl}
    ensures ctrl !in LoadControl(env, objects, ctrl, expected, ok).objects
    ensures !Found(objects, ctrl) || env.file.objType(objects[ctrl].loc) != expected ==>
      LoadControl(env, objects, ctrl, expected, ok).handles == [] &&
      LoadTable(env, objects, table, ctrl, expected, parse, key, ok) == TableStep(objects - {ctrl}, table, false)
  {
  }

  /** A failed step is never undone: once `ret` is false the member loop returns false. */
  lemma {:induction false} FailureSticks<R>(objects: ObjectMap, table: map<nat, R>, handles: seq<nat>,
                                            parse: nat -> Parsed<R>, key: R -> nat)
    ensures !LoadMembers(objects, table, handles, parse, key, false).ok
    decreases |handles|
  {
    if handles != [] {
      var s := LoadMember(objects, table, handles[0], parse, key, false);
      FailureSticks(s.objects, s.table, handles[1..], parse, key);
    }
  }

  /** Every listed member was found and decoded without error. */
  predicate AllLoaded<R>(objects: ObjectMap, handles: seq<nat>, parse: nat -> Parsed<R>)
  {
    forall h | h in handles :: Found(objects, h) && parse(Lookup(objects, h).loc).ok
  }

  /** The keys a member load files its records under, for the members that are found. */
  function LoadedKeys<R>(objects: ObjectMap, handles: seq<nat>, parse: nat -> Parsed<R>, key: R -> nat): set<nat>
  {
    set h | h in handles && Found(objects, h) :: key(parse(Lookup(objects, h).loc).rec)
  }

  /** Loading one member leaves every other entry where it was (a well-keyed map never files under 0). */
  lemma LoadMemberFrame<R>(objects: ObjectMap, table: map<nat, R>, h: nat,
                           parse: nat -> Parsed<R>, key: R -> nat, ok: bool)
    requires WellKeyed(objects) && h != 0
    ensures var s := LoadMember(objects, table, h, parse, key, ok);
      WellKeyed(s.objects) &&
      (forall k | k != h && k != 0 :: (k in s.objects <==> k in objects) && Lookup(s.objects, k) == Lookup(objects, k)) &&
      (Found(objects, h) ==> h !in s.objects) &&
      (!Found(objects, h) ==> h in s.objects && s.objects[h].handle == 0) &&
      !Found(s.objects, 0)
  {
    TakePreservesWellKeyed(objects, h);
    if Found(objects, h) {
      TakeByHandleFound(objects, h);
    }
  }

  /**
   * The member loop, over distinct nonzero handles of a well-keyed map:
   * each found member is removed, each missing one is left behind as a
   * placeholder, nothing else in the map changes, and the map stays
   * well-keyed.
   */
  lemma {:induction false} LoadMembersConsumes<R>(objects: ObjectMap, table: map<nat, R>, handles: seq<nat>,
                                                  parse: nat -> Parsed<R>, key: R -> nat, ok: bool)
    requires WellKeyed(objects)
    requires Distinct(handles) && 0 !in handles
    ensures var m := LoadMembers(objects, table, handles, parse, key, ok).objects;
      WellKeyed(m) &&
      (forall h | h in handles && Found(objects, h) :: h !in m) &&
      (forall h | h in handles && !Found(objects, h) :: h in m && m[h].handle == 0) &&
      (forall k | k != 0 && k !in handles :: (k in m <==> k in objects) && Lookup(m, k) == Lookup(objects, k))
    decreases |handles|
  {
    if handles != [] {
      var h := handles[0];
      var s1 := LoadMember(objects, table, h, parse, key, ok);
      LoadMemberFrame(objects, table, h, parse, key, ok);
      var rest := handles[1..];
      assert Distinct(rest) && 0 !in rest && h !in rest;
      LoadMembersConsumes(s1.objects, s1.table, rest, parse, key, s1.ok);
      assert forall x | x in handles :: x == h || x in rest;
      assert forall x | x in rest :: Found(s1.objects, x) == Found(objects, x);
    }
  }

  /** The member loop's result is the conjunction of every step's: each member found and decoded. */
  lemma {:induction false} LoadMembersOk<R>(objects: ObjectMap, table: map<nat, R>, handles: seq<nat>,
                                            parse: nat -> Parsed<R>, key: R -> nat, ok: bool)
    requires WellKeyed(objects)
    requires Distinct(handles) && 0 !in handles
    ensures LoadMembers(objects, table, handles, parse, key, ok).ok <==> ok && AllLoaded(objects, handles, parse)
    decreases |handles|
  {
    if handles != [] {
      var h := handles[0];
      var s1 := LoadMember(objects, table, h, parse, key, ok);
      LoadMemberFrame(objects, table, h, parse, key, ok);
      var rest := handles[1..];
      assert Distinct(rest) && 0 !in rest && h !in rest;
      LoadMembersOk(s1.objects, s1.table, rest, parse, key, s1.ok);
      assert forall x | x in rest :: Lookup(s1.objects, x) == Lookup(objects, x);
      assert AllLoaded(objects, handles, parse) <==>
        (Found(objects, h) && parse(Lookup(objects, h).loc).ok) && AllLoaded(s1.objects, rest, parse) by {
        assert forall x | x in handles :: x == h || x in rest;
      }
    }
  }

  /**
   * The table gains exactly the keys its found members' records file
   * themselves under (a missing member adds nothing).
   */
  lemma {:induction false} LoadMembersFiles<R>(objects: ObjectMap, table: map<nat, R>, handles: seq<nat>,
                                               parse: nat -> Parsed<R>, key: R -> nat, ok: bool)
    requires WellKeyed(objects)
    requires Distinct(handles) && 0 !in handles
    ensures LoadMembers(objects, table, handles, parse, key, ok).table.Keys == table.Keys + LoadedKeys(objects, handles, parse, key)
    decreases |handles|
  {
    if handles != [] {
      var h := handles[0];
      var s1 := LoadMember(objects, table, h, parse, key, ok);
      LoadMemberFrame(objects, table, h, parse, key, ok);
      var rest := handles[1..];
      assert Distinct(rest) && 0 !in rest && h !in rest;
      LoadMembersFiles(s1.objects, s1.table, rest, parse, key, s1.ok);
      assert forall x | x in rest :: Lookup(s1.objects, x) == Lookup(objects, x);
      LoadedKeysStep(objects, s1.objects, handles, parse, key);
    }
  }

  /** The record the member under `h` decodes to. */
  function RecordAt<R>(objects: ObjectMap, h: nat, parse: nat -> Parsed<R>): R
  {
    parse(Lookup(objects, h).loc).rec
  }

  /** An entry no found member files itself under keeps its value through the member loop. */
  lemma {:induction false} LoadMembersKeeps<R>(objects: ObjectMap, table: map<nat, R>, handles: seq<nat>,
                                               parse: nat -> Parsed<R>, key: R -> nat, ok: bool, k: nat)
    requires WellKeyed(objects)
    requires Distinct(handles) && 0 !in handles
    requires k in table && k !in LoadedKeys(objects, handles, parse, key)
    ensures var t := LoadMembers(objects, table, handles, parse, key, ok).table;
      k in t && t[k] == table[k]
    decreases |handles|
  {
    if handles != [] {
      var h := handles[0];
      var s1 := LoadMember(objects, table, h, parse, key, ok);
      LoadMemberFrame(objects, table, h, parse, key, ok);
      var rest := handles[1..];
      assert Distinct(rest) && 0 !in rest && h !in rest;
      assert forall x | x in rest :: Lookup(s1.objects, x) == Lookup(objects, x);
      LoadedKeysStep(objects, s1.objects, handles, parse, key);
      LoadMembersKeeps(s1.objects, s1.table, rest, parse, key, s1.ok, k);
    }
  }

  /**
   * A found member's record is what the table holds under its key at the
   * end, unless a later found member files a record under the same key
   * (the later one overwrites it).
   */
  lemma {:induction false} LoadMembersLatest<R>(objects: ObjectMap, table: map<nat, R>, handles: seq<nat>,
                                                parse: nat -> Parsed<R>, key: R -> nat, ok: bool, i: nat)
    requires WellKeyed(objects)
    requires Distinct(handles) && 0 !in handles
    requires i < |handles| && Found(objects, handles[i])
    requires forall j | i < j < |handles| && Found(objects, handles[j]) ::
      key(RecordAt(objects, handles[j], parse)) != key(RecordAt(objects, handles[i], parse))
    ensures var t := LoadMembers(objects, table, handles, parse, key, ok).table;
      var rec := RecordAt(objects, handles[i], parse);
      key(rec) in t && t[key(rec)] == rec
    decreases |handles|
  {
    var h := handles[0];
    var s1 := LoadMember(objects, table, h, parse, key, ok);
    LoadMemberFrame(objects, table, h, parse, key, ok);
    var rest := handles[1..];
    assert Distinct(rest) && 0 !in rest && h !in rest;
    assert forall x | x in rest :: Lookup(s1.objects, x) == Lookup(objects, x);
    if i == 0 {
      var rec := RecordAt(objects, h, parse);
      assert s1.table == table[key(rec) := rec];
      assert key(rec) !in LoadedKeys(s1.objects, rest, parse, key);
      LoadMembersKeeps(s1.objects, s1.table, rest, parse, key, s1.ok, key(rec));
    } else {
      assert rest[i - 1] == handles[i] && rest[i - 1] in rest;
      forall j | i - 1 < j < |rest| && Found(s1.objects, rest[j])
        ensures key(RecordAt(s1.objects, rest[j], parse)) != key(RecordAt(s1.objects, rest[i - 1], parse))
      {
        assert rest[j] == handles[j + 1] && rest[j] in rest;
      }
      LoadMembersLatest(s1.objects, s1.table, rest, parse, key, s1.ok, i - 1);
    }
  }

  lemma LoadedKeysStep<R>(objects: ObjectMap, objects': ObjectMap, handles: seq<nat>, parse: nat -> Parsed<R>, key: R -> nat)
    requires handles != []
    requires forall x | x in handles[1..] :: Lookup(objects', x) == Lookup(objects, x)
    ensures LoadedKeys(objects, handles, parse, key) ==
      (if Found(objects, handles[0]) then {key(parse(Lookup(objects, handles[0]).loc).rec)} else {})
      + LoadedKeys(objects', handles[1..], parse, key)
  {
    var h := handles[0];
    var rest := handles[1..];
    var lhs := LoadedKeys(objects, handles, parse, key);
    var head: set<nat> := if Found(objects, h) then {key(parse(Lookup(objects, h).loc).rec)} else {};
    var tail := LoadedKeys(objects', rest, parse, key);
    forall y | y in lhs
      ensures y in head + tail
    {
      var x :| x in handles && Found(objects, x) && y == key(parse(Lookup(objects, x).loc).rec);
      if x != h {
        assert x in rest;
      }
    }
    forall y | y in head + tail
      ensures y in lhs
    {
      if y !in head {
        var x :| x in rest && Found(objects', x) && y == key(parse(Lookup(objects', x).loc).rec);
        assert x in handles;
      }
    }
  }

  /** The layer cross-link only ever fills in a line-type name, and only from a known line type. */
  lemma CrossLinkFills(layers: map<nat, Layer>, ltypes: map<nat, TableEntry>, k: nat)
    requires k in layers
    ensures var l := CrossLink(layers, ltypes)[k];
      l.(lineType := layers[k].lineType) == layers[k] &&
      l.lineType == (if layers[k].lTypeRef in ltypes then ltypes[layers[k].lTypeRef].name else layers[k].lineType)
  {
  }

  /**
   * A successful tables pass found the line-type control first, with the
   * expected type, and decoded it.
   */
  lemma TablesOkNeedsLTypeControl(env: Env, st: ReaderState, hdr: ControlHandles)
    requires ReadTables(env, st, hdr).ok
    ensures Found(st.objects, hdr.linetypeCtrl)
    ensures env.file.objType(st.objects[hdr.linetypeCtrl].loc) == LTypeControl
    ensures ControlSpec(env.version, LTypeControl, env.file.control(st.objects[hdr.linetypeCtrl].loc)).ok
  {
    var t := st.tables;
    var c := LoadControl(env, st.objects, hdr.linetypeCtrl, LTypeControl, true);
    var lt := LoadTable(env, st.objects, t.ltypes, hdr.linetypeCtrl, LTypeControl, env.file.ltype, EntryHandle, true);
    var la := LoadTable(env, lt.objects, t.layers, hdr.layerCtrl, LayerControl, env.file.layer, LayerHandle, lt.ok);
    var sy := LoadTable(env, la.objects, t.styles, hdr.styleCtrl, StyleControl, env.file.style, EntryHandle, la.ok);
    var ds := LoadTable(env, sy.objects, t.dimstyles, hdr.dimstyleCtrl, DimStyleControl, env.file.dimstyle, EntryHandle, sy.ok);
    var vp := LoadTable(env, ds.objects, t.vports, hdr.vportCtrl, VPortControl, env.file.vport, EntryHandle, ds.ok);
    var br := LoadTable(env, vp.objects, t.blockRecords, hdr.blockCtrl, BlockControl, env.file.blockRecord, BlockRecordHandle, vp.ok);
    if !c.ok {
      FailureSticks(c.objects, t.ltypes, c.handles, env.file.ltype, EntryHandle);
      TableFailureSticks(env, lt.objects, t.layers, hdr.layerCtrl, LayerControl, env.file.layer, LayerHandle);
      TableFailureSticks(env, la.objects, t.styles, hdr.styleCtrl, StyleControl, env.file.style, EntryHandle);
      TableFailureSticks(env, sy.objects, t.dimstyles, hdr.dimstyleCtrl, DimStyleControl, env.file.dimstyle, EntryHandle);
      TableFailureSticks(env, ds.objects, t.vports, hdr.vportCtrl, VPortControl, env.file.vport, EntryHandle);
      TableFailureSticks(env, vp.objects, t.blockRecords, hdr.blockCtrl, BlockControl, env.file.blockRecord, BlockRecordHandle);
      TableFailureSticks(env, br.objects, t.appIds, hdr.appidCtrl, AppIdControl, env.file.appId, EntryHandle);
      assert false;
    }
  }

  /** A table loaded after a failure fails too. */
  lemma TableFailureSticks<R>(env: Env, objects: ObjectMap, table: map<nat, R>, ctrl: nat, expected: int,
                              parse: nat -> Parsed<R>, key: R -> nat)
    ensures !LoadTable(env, objects, table, ctrl, expected, parse, key, false).ok
  {
    var c := LoadControl(env, objects, ctrl, expected, false);
    FailureSticks(c.objects, table, c.handles, parse, key);
  }

  // ------------------------------------------------------------- entities

  /**
   * Dispatch of a record with a handled code other than a polyline: exactly
   * one sink call, made whether or not its parse succeeded, with the
   * decoded entity; the result is the parse's; the map is not touched and
   * the reader's links are the entity's.
   */
  lemma DispatchHandled(env: Env, st: ReaderState, sink: seq<Event>, obj: ObjHandle, code: int, kind: EntityKind)
    requires ResolveCode(env, env.file.objType(obj.loc)) == Some(code)
    requires KindOf(code) == Some(kind) && kind != Polyline
    ensures var r := ReadEntity(env, st, sink, obj); var p := env.file.entity(obj.loc, kind);
      r.sink == sink + [AddEntity(kind, DecodedEntity(st.tables, kind, p.rec))] &&
      r.ok == p.ok && !r.hung &&
      r.st == st.(nextEntLink := p.rec.nextEntLink, prevEntLink := p.rec.prevEntLink)
  {
  }

  /** An extended code with no class fails with no sink call; a code with no case is skipped as a success. */
  lemma DispatchUnhandled(env: Env, st: ReaderState, sink: seq<Event>, obj: ObjHandle)
    ensures var code := env.file.objType(obj.loc);
      code > 499 && code !in env.classes ==>
        ReadEntity(env, st, sink, obj) == Run(st.(nextEntLink := 0, prevEntLink := 0), sink, false, false)
    ensures ResolveCode(env, env.file.objType(obj.loc)).Some? && KindOf(ResolveCode(env, env.file.objType(obj.loc)).value).None? ==>
      ReadEntity(env, st, sink, obj) == Run(st.(nextEntLink := 0, prevEntLink := 0), sink, true, false)
  {
  }

  /** Extended codes go through the class table, and only a class with a nonzero type redirects. */
  lemma ClassRedirect(env: Env, code: int)
    ensures code <= 499 ==> ResolveCode(env, code) == Some(code)
    ensures code > 499 && code in env.classes && env.classes[code].dwgType != 0 ==>
      ResolveCode(env, code) == Some(env.classes[code].dwgType)
    ensures code > 499 && code in env.classes && env.classes[code].dwgType == 0 ==>
      ResolveCode(env, code) == Some(code) && KindOf(code).None?
    ensures ResolveCode(env, code).None? <==> code > 499 && code !in env.classes
  {
  }

  /**
   * A polyline: one sink call (unless the vertex walk never ends) carrying
   * the vertices read; the result ignores the vertex walk's; the reader's
   * state is the one the walk leaves (DispatchPolylineLinks says which
   * links that state holds).
   */
  lemma DispatchPolyline(env: Env, st: ReaderState, sink: seq<Event>, obj: ObjHandle, code: int)
    requires ResolveCode(env, env.file.objType(obj.loc)) == Some(code)
    requires KindOf(code) == Some(Polyline)
    ensures var r := ReadEntity(env, st, sink, obj); var p := env.file.entity(obj.loc, Polyline);
      var e := DecodedEntity(st.tables, Polyline, p.rec);
      var v := ReadPlineVertex(env, st.(nextEntLink := e.nextEntLink, prevEntLink := e.prevEntLink), e);
      r.ok == p.ok && r.hung == v.hung && r.st == v.st &&
      (!v.hung ==> r.sink == sink + [AddEntity(Polyline, v.pline)])
  {
  }

  // ------------------------------------------------------ vertex walks

  /** The vertices a list walk decodes: one per handle found, in list order. */
  function FoundVertices(env: Env, objects: ObjectMap, hs: seq<nat>): seq<Vertex>
  {
    if hs == [] then []
    else
      (if Found(objects, hs[0]) then [env.file.vertex(Lookup(objects, hs[0]).loc).rec] else [])
      + FoundVertices(env, objects, hs[1..])
  }

  /**
   * A polyline leaves the reader holding its last vertex's links: on 2004+
   * files (distinct handles) the last vertex found, or the polyline's own
   * links when none was; on older files, when the vertices' links spell
   * out `hs` from firstEH to lastEH, the vertex at lastEH.
   */
  lemma DispatchPolylineLinks(env: Env, st: ReaderState, sink: seq<Event>, obj: ObjHandle, code: int, hs: seq<nat>)
    requires ResolveCode(env, env.file.objType(obj.loc)) == Some(code)
    requires KindOf(code) == Some(Polyline)
    ensures var r := ReadEntity(env, st, sink, obj);
      var e := DecodedEntity(st.tables, Polyline, env.file.entity(obj.loc, Polyline).rec);
      var f := FoundVertices(env, st.objects, e.vertexHandles);
      !Pre2004(env.version) && Distinct(e.vertexHandles) ==>
        r.st.nextEntLink == (if f == [] then e.nextEntLink else f[|f| - 1].nextEntLink) &&
        r.st.prevEntLink == (if f == [] then e.prevEntLink else f[|f| - 1].prevEntLink)
    ensures var r := ReadEntity(env, st, sink, obj);
      var e := DecodedEntity(st.tables, Polyline, env.file.entity(obj.loc, Polyline).rec);
      Pre2004(env.version) && SpellsChain(env, st.objects, hs) && hs[0] == e.firstEH && hs[|hs| - 1] == e.lastEH ==>
        var last := VertexOf(env, st.objects, e.lastEH).rec;
        !r.hung && r.st.nextEntLink == last.nextEntLink && r.st.prevEntLink == last.prevEntLink
  {
    var e := DecodedEntity(st.tables, Polyline, env.file.entity(obj.loc, Polyline).rec);
    var w0 := VertexRun(st.(nextEntLink := e.nextEntLink, prevEntLink := e.prevEntLink), e, true, false);
    if !Pre2004(env.version) && Distinct(e.vertexHandles) {
      VertexListLastLink(env, w0, e.vertexHandles);
    }
    if Pre2004(env.version) && SpellsChain(env, st.objects, hs) && hs[0] == e.firstEH && hs[|hs| - 1] == e.lastEH {
      ChainLastLink(env, w0, hs);
    }
  }

  /** The vertex a handle designates in the map, when it is found. */
  function VertexOf(env: Env, objects: ObjectMap, h: nat): Parsed<Vertex>
  {
    env.file.vertex(Lookup(objects, h).loc)
  }

  /** The vertex a handle designates was found and decoded without error. */
  predicate VertexLoaded(env: Env, objects: ObjectMap, h: nat)
  {
    Found(objects, h) && VertexOf(env, objects, h).ok
  }

  /** One step of the 2004+ vertex walk. */
  function VertexListStep(env: Env, w: VertexRun, h: nat): (r: VertexRun)
    ensures r.st.objects == w.st.objects - {h} && !r.hung
  {
    var oc := Lookup(w.st.objects, h);
    var objs := TakeByKey(w.st.objects, h);
    if oc.handle == 0 then VertexRun(w.st.(objects := objs), w.pline, false, false)
    else VertexFound(env, w, objs, oc)
  }

  lemma VertexListUnfold(env: Env, w: VertexRun, hs: seq<nat>)
    requires !w.hung && hs != []
    ensures VertexList(env, w, hs) == VertexList(env, VertexListStep(env, w, hs[0]), hs[1..])
  {
  }

  /**
   * The 2004+ vertex walk over distinct handles visits each once, in list
   * order: the vertices found are appended in that order.
   */
  lemma {:induction false} VertexListAppends(env: Env, w: VertexRun, hs: seq<nat>)
    requires !w.hung && Distinct(hs)
    ensures VertexList(env, w, hs).pline.vertices == w.pline.vertices + FoundVertices(env, w.st.objects, hs)
    decreases |hs|
  {
    if hs != [] {
      var w1 := VertexListStep(env, w, hs[0]);
      VertexListUnfold(env, w, hs);
      var rest := hs[1..];
      VertexListStepRest(env, w, hs);
      VertexListAppends(env, w1, rest);
      var head := VertexListStepAppends(env, w, hs[0]);
      assert FoundVertices(env, w.st.objects, hs) == head + FoundVertices(env, w.st.objects, rest);
      assert w.pline.vertices + head + FoundVertices(env, w.st.objects, rest) ==
             w.pline.vertices + (head + FoundVertices(env, w.st.objects, rest));
    }
  }

  /** After the first step over distinct handles, the rest are still distinct and find what they found before. */
  lemma VertexListStepRest(env: Env, w: VertexRun, hs: seq<nat>)
    requires Distinct(hs) && hs != []
    ensures Distinct(hs[1..])
    ensures FoundVertices(env, VertexListStep(env, w, hs[0]).st.objects, hs[1..]) == FoundVertices(env, w.st.objects, hs[1..])
  {
    var rest := hs[1..];
    assert Distinct(rest) && hs[0] !in rest;
    var w1 := VertexListStep(env, w, hs[0]);
    assert forall x | x in rest :: Lookup(w1.st.objects, x) == Lookup(w.st.objects, x);
    FoundVerticesFrame(env, w.st.objects, w1.st.objects, rest);
  }

  /** One step of the 2004+ walk appends the vertex found, if any. */
  lemma VertexListStepAppends(env: Env, w: VertexRun, h: nat) returns (head: seq<Vertex>)
    ensures head == if Found(w.st.objects, h) then [VertexOf(env, w.st.objects, h).rec] else []
    ensures VertexListStep(env, w, h).pline.vertices == w.pline.vertices + head
  {
    head := if Found(w.st.objects, h) then [VertexOf(env, w.st.objects, h).rec] else [];
  }

  /** The 2004+ vertex walk erases every listed handle and nothing else. */
  lemma {:induction false} VertexListErases(env: Env, w: VertexRun, hs: seq<nat>)
    requires !w.hung
    ensures VertexList(env, w, hs).st.objects == w.st.objects - (set h | h in hs)
    decreases |hs|
  {
    if hs != [] {
      var w1 := VertexListStep(env, w, hs[0]);
      VertexListUnfold(env, w, hs);
      VertexListErases(env, w1, hs[1..]);
      assert forall x | x in hs :: x == hs[0] || x in hs[1..];
      assert w1.st.objects - (set x | x in hs[1..]) == w.st.objects - (set x | x in hs);
    }
  }

  /** The 2004+ vertex walk succeeds exactly when every listed vertex was found and decoded. */
  lemma {:induction false} VertexListOk(env: Env, w: VertexRun, hs: seq<nat>)
    requires !w.hung && Distinct(hs)
    ensures VertexList(env, w, hs).ok <==> w.ok && forall h | h in hs :: VertexLoaded(env, w.st.objects, h)
    decreases |hs|
  {
    if hs != [] {
      var w1 := VertexListStep(env, w, hs[0]);
      VertexListUnfold(env, w, hs);
      var rest := hs[1..];
      assert Distinct(rest) && hs[0] !in rest;
      VertexListOk(env, w1, rest);
      assert w1.ok == (w.ok && VertexLoaded(env, w.st.objects, hs[0]));
      assert forall x | x in rest :: VertexLoaded(env, w1.st.objects, x) == VertexLoaded(env, w.st.objects, x);
      assert (forall x | x in hs :: VertexLoaded(env, w.st.objects, x)) <==>
        VertexLoaded(env, w.st.objects, hs[0]) && forall x | x in rest :: VertexLoaded(env, w.st.objects, x) by {
        assert forall x | x in hs :: x == hs[0] || x in rest;
      }
      if !w1.ok {
        VertexListFailureSticks(env, w1, rest);
      }
    }
  }

  lemma {:induction false} VertexListFailureSticks(env: Env, w: VertexRun, hs: seq<nat>)
    requires !w.hung && !w.ok
    ensures !VertexList(env, w, hs).ok
    decreases |hs|
  {
    if hs != [] {
      VertexListUnfold(env, w, hs);
      VertexListFailureSticks(env, VertexListStep(env, w, hs[0]), hs[1..]);
    }
  }

  /** FoundVertices only depends on the entries it looks up. */
  lemma {:induction false} FoundVerticesFrame(env: Env, a: ObjectMap, b: ObjectMap, hs: seq<nat>)
    requires forall x | x in hs :: Lookup(a, x) == Lookup(b, x)
    ensures FoundVertices(env, a, hs) == FoundVertices(env, b, hs)
    decreases |hs|
  {
    if hs != [] {
      FoundVerticesFrame(env, a, b, hs[1..]);
    }
  }

  /**
   * When the vertices' next links spell out a list of distinct handles,
   * all present, the pre-2004 chain walk from its first to its last handle
   * does exactly what the 2004+ list walk does over that list.
   */
  lemma {:induction false} ChainFollowsList(env: Env, w: VertexRun, hs: seq<nat>)
    requires !w.hung && |hs| > 0 && Distinct(hs) && 0 !in hs
    requires forall h | h in hs :: Found(w.st.objects, h)
    requires forall i | 0 <= i < |hs| - 1 :: env.file.vertex(Lookup(w.st.objects, hs[i]).loc).rec.nextEntLink == hs[i + 1]
    ensures VertexChain(env, w, hs[|hs| - 1], hs[0]) == VertexList(env, w, hs)
    decreases |hs|
  {
    var h := hs[0];
    var oc := Lookup(w.st.objects, h);
    var objs := TakeByKey(w.st.objects, h);
    assert hs[0] in hs;
    var w1 := VertexFound(env, w, objs, oc);
    assert VertexList(env, w, hs) == VertexList(env, w1, hs[1..]);
    if |hs| > 1 {
      var rest := hs[1..];
      assert hs[0] != hs[|hs| - 1];
      assert Distinct(rest) && 0 !in rest && h !in rest;
      assert forall x | x in rest :: Lookup(objs, x) == Lookup(w.st.objects, x);
      forall x | x in rest
        ensures Found(w1.st.objects, x)
      {
        var i :| 0 <= i < |rest| && rest[i] == x;
        assert hs[i + 1] == x && x in hs;
        assert Found(w.st.objects, x) && x != h;
        assert w1.st.objects == w.st.objects - {h};
      }
      forall i | 0 <= i < |rest| - 1
        ensures env.file.vertex(Lookup(w1.st.objects, rest[i]).loc).rec.nextEntLink == rest[i + 1]
      {
        assert rest[i] == hs[i + 1] && rest[i + 1] == hs[i + 2];
      }
      assert w1.st.nextEntLink == hs[1];
      ChainFollowsList(env, w1, rest);
      assert rest[|rest| - 1] == hs[|hs| - 1];
    }
  }

  /**
   * The 2004+ vertex walk over distinct handles leaves the reader holding
   * the links of the last vertex it found, or the links it started with
   * when it found none.
   */
  lemma {:induction false} VertexListLastLink(env: Env, w: VertexRun, hs: seq<nat>)
    requires !w.hung && Distinct(hs)
    ensures var f := FoundVertices(env, w.st.objects, hs); var r := VertexList(env, w, hs);
      r.st.nextEntLink == (if f == [] then w.st.nextEntLink else f[|f| - 1].nextEntLink) &&
      r.st.prevEntLink == (if f == [] then w.st.prevEntLink else f[|f| - 1].prevEntLink)
    decreases |hs|
  {
    if hs != [] {
      var w1 := VertexListStep(env, w, hs[0]);
      VertexListUnfold(env, w, hs);
      var rest := hs[1..];
      VertexListStepRest(env, w, hs);
      VertexListLastLink(env, w1, rest);
      var head := VertexListStepAppends(env, w, hs[0]);
      assert FoundVertices(env, w.st.objects, hs) == head + FoundVertices(env, w.st.objects, rest);
    }
  }

  /** When every handle is found, FoundVertices holds one vertex per handle, in order. */
  lemma {:induction false} FoundVerticesAll(env: Env, objects: ObjectMap, hs: seq<nat>)
    requires forall h | h in hs :: Found(objects, h)
    ensures |FoundVertices(env, objects, hs)| == |hs|
    ensures forall i | 0 <= i < |hs| :: FoundVertices(env, objects, hs)[i] == VertexOf(env, objects, hs[i]).rec
    decreases |hs|
  {
    if hs != [] {
      assert hs[0] in hs;
      assert forall x | x in hs[1..] :: x in hs;
      FoundVerticesAll(env, objects, hs[1..]);
    }
  }

  /** The vertices' next links spell out `hs`: distinct nonzero handles, all present, each linking to the next. */
  predicate SpellsChain(env: Env, objects: ObjectMap, hs: seq<nat>)
  {
    && |hs| > 0 && Distinct(hs) && 0 !in hs
    && (forall h | h in hs :: Found(objects, h))
    && forall i | 0 <= i < |hs| - 1 :: VertexOf(env, objects, hs[i]).rec.nextEntLink == hs[i + 1]
  }

  /**
   * A pre-2004 vertex chain spelled out by `hs` leaves the reader holding
   * the links of its last vertex, the one at `lastEH`.
   */
  lemma ChainLastLink(env: Env, w: VertexRun, hs: seq<nat>)
    requires !w.hung && SpellsChain(env, w.st.objects, hs)
    ensures var r := VertexChain(env, w, hs[|hs| - 1], hs[0]); var last := VertexOf(env, w.st.objects, hs[|hs| - 1]).rec;
      !r.hung && r.st.nextEntLink == last.nextEntLink && r.st.prevEntLink == last.prevEntLink
  {
    ChainFollowsList(env, w, hs);
    VertexListLastLink(env, w, hs);
    FoundVerticesAll(env, w.st.objects, hs);
  }

  /** One pass of the body of a pre-2004 walk: `next` is the link the reader holds after decoding a found record. */
  function ChainStep(objects: ObjectMap, lastEH: nat, nextH: nat, next: ObjHandle -> nat): (ObjectMap, nat)
  {
    var oc := Lookup(objects, nextH);
    var objs := TakeByKey(objects, nextH);
    if oc.handle == 0 then (objs, lastEH)
    else (objs, if nextH == lastEH then 0 else next(oc))
  }

  /** n passes of the loop `while (nextH != 0)`. */
  function ChainIterate(objects: ObjectMap, lastEH: nat, nextH: nat, next: ObjHandle -> nat, n: nat): (ObjectMap, nat)
    decreases n
  {
    if n == 0 || nextH == 0 then (objects, nextH)
    else
      var s := ChainStep(objects, lastEH, nextH, next);
      ChainIterate(s.0, lastEH, s.1, next, n - 1)
  }

  /**
   * Once a pre-2004 walk is sent to a `lastEH` that is not in the map, the
   * loop condition holds after any number of further passes: the source
   * never leaves the loop. This is the state the walks report as `hung`.
   */
  lemma {:induction false} MissingLastNeverExits(objects: ObjectMap, lastEH: nat, next: ObjHandle -> nat, n: nat)
    requires lastEH != 0 && !Found(objects, lastEH)
    ensures ChainIterate(objects, lastEH, lastEH, next, n).1 == lastEH
    decreases n
  {
    if n > 0 {
      var s := ChainStep(objects, lastEH, lastEH, next);
      assert s.1 == lastEH && !Found(s.0, lastEH);
      MissingLastNeverExits(s.0, lastEH, next, n - 1);
    }
  }

  /** The walks report `hung` in exactly that state. */
  lemma HungWhenLastMissing(env: Env, w: VertexRun, r: Run, lastEH: nat)
    requires !w.hung && !r.hung && lastEH != 0
    requires !Found(w.st.objects, lastEH) && !Found(r.st.objects, lastEH)
    ensures VertexChain(env, w, lastEH, lastEH).hung
    ensures BlockChain(env, r, lastEH, lastEH).hung
  {
  }

  /** readPlineVertex erases the SEQEND entry without decoding it, and only adds vertices. */
  lemma SeqEndErased(env: Env, st: ReaderState, pline: Entity)
    requires !ReadPlineVertex(env, st, pline).hung
    ensures pline.seqEnd !in ReadPlineVertex(env, st, pline).st.objects
    ensures ReadPlineVertex(env, st, pline).pline == pline.(vertices := ReadPlineVertex(env, st, pline).pline.vertices)
  {
  }

  // --------------------------------------------------------------- blocks

  /** A block record whose block entity is missing or unreachable is skipped with a failure. */
  lemma BlockRecordSkipped(env: Env, r: Run, k: nat)
    requires !r.hung && k in r.st.tables.blockRecords
    requires var oc := Lookup(r.st.objects, r.st.tables.blockRecords[k].block);
      oc.handle == 0 || !env.file.seekable(oc.loc)
    ensures var r' := BlockRecordRun(env, r, k);
      r'.sink == r.sink && !r'.ok && !r'.hung && r'.st.tables == r.st.tables
  {
  }

  /**
   * The events a block record with a reachable block entity produces: the
   * completed block first, then only entities, then at most one end block
   * at the very end; a successful record always ends with the end block; a
   * block without an owner contributes no entity; the record takes the
   * block's name.
   */
  lemma BlockRecordEvents(env: Env, r: Run, k: nat)
    requires !r.hung && k in r.st.tables.blockRecords
    requires var oc := Lookup(r.st.objects, r.st.tables.blockRecords[k].block);
      oc.handle != 0 && env.file.seekable(oc.loc)
    ensures var bkr := r.st.tables.blockRecords[k]; var r' := BlockRecordRun(env, r, k);
      var bk := env.file.block(Lookup(r.st.objects, bkr.block).loc).rec;
      |r'.sink| > |r.sink| &&
      r'.sink[|r.sink|] == AddBlock(CompletedBlock(r.st.tables, bk, bkr)) &&
      r'.st.tables.blockRecords[k] == bkr.(name := bk.name) &&
      (forall i | |r.sink| < i < |r'.sink| :: r'.sink[i].AddEntity? || (r'.sink[i] == EndBlock && i == |r'.sink| - 1)) &&
      (r'.ok ==> r'.sink[|r'.sink| - 1] == EndBlock) &&
      (bk.parentHandle == NoHandle ==> |r'.sink| <= |r.sink| + 2 && !r'.hung)
  {
    var bkr := r.st.tables.blockRecords[k];
    var oc := Lookup(r.st.objects, bkr.block);
    var p := env.file.block(oc.loc);
    var st1 := r.st.(objects := TakeByHandle(r.st.objects, bkr.block));
    var bk := CompletedBlock(st1.tables, p.rec, bkr);
    var t2 := st1.tables.(blockRecords := st1.tables.blockRecords[k := bkr.(name := bk.name)]);
    var r2 := Run(st1.(tables := t2), r.sink + [AddBlock(bk)], r.ok && p.ok, false);
    var r3 := if bk.parentHandle == NoHandle then r2 else BlockMembers(env, r2, bkr);
    assert r2.sink <= r3.sink && EntitiesFrom(r3.sink, |r2.sink|);
    assert r3.hung ==> !r3.ok;
    assert r3.st.tables == t2;
    var r' := BlockRecordRun(env, r, k);
    assert r' == if r3.hung then r3 else CloseBlock(env, r3, bkr);
  }

  /** The keys of the block records, in the order readDwgBlocks visits them. */
  ghost function BlockOrder(remaining: set<int>): (keys: seq<int>)
    ensures |keys| == |remaining|
    ensures forall x | x in keys :: x in remaining
    decreases |remaining|
  {
    if remaining == {} then []
    else
      var k := MinOf(remaining);
      [k] + BlockOrder(remaining - {k})
  }

  /** That order is strictly ascending and covers every record. */
  lemma {:induction false} BlockOrderAscending(remaining: set<int>)
    ensures var keys := BlockOrder(remaining);
      (forall i, j | 0 <= i < j < |keys| :: keys[i] < keys[j]) &&
      (forall x | x in remaining :: x in keys)
    decreases |remaining|
  {
    if remaining != {} {
      var k := MinOf(remaining);
      BlockOrderAscending(remaining - {k});
      var keys := BlockOrder(remaining);
      assert keys[1..] == BlockOrder(remaining - {k});
      forall i, j | 0 <= i < j < |keys|
        ensures keys[i] < keys[j]
      {
        if i == 0 {
          assert keys[j] in keys[1..];
          assert keys[j] in remaining - {k};
        } else {
          assert keys[i] == keys[1..][i - 1] && keys[j] == keys[1..][j - 1];
        }
      }
      forall x | x in remaining
        ensures x in keys
      {
        if x != k {
          assert x in BlockOrder(remaining - {k});
        }
      }
    }
  }

  /** The block pass visits the records one at a time in that order. */
  lemma BlocksFromStep(env: Env, r: Run, remaining: set<int>)
    requires remaining <= r.st.tables.blockRecords.Keys && remaining != {} && !r.hung
    ensures var k := BlockOrder(remaining)[0];
      k == MinOf(remaining) &&
      BlocksFrom(env, r, remaining) == BlocksFrom(env, BlockRecordRun(env, r, k), remaining - {k})
  {
  }

  // ---------------------------------------------------------------- sweep

  /** The keys the residual sweep reads, in the order it reads them. */
  ghost function SweepTrace(env: Env, r: Run, lo: int): seq<int>
    decreases |Above(r.st.objects, lo)|
  {
    if r.hung || Above(r.st.objects, lo) == {} then []
    else
      var k := MinOf(Above(r.st.objects, lo));
      var e := ReadEntity(env, r.st, r.sink, r.st.objects[k]);
      AboveShrinks(r.st.objects, e.st.objects, lo, k);
      [k] + SweepTrace(env, Run(e.st, e.sink, r.ok && e.ok && !e.hung, e.hung), k)
  }

  /** One step of the sweep: the entry under the least key above `lo` is read. */
  ghost function SweepStep(env: Env, r: Run, lo: int): (r': Run)
    requires Above(r.st.objects, lo) != {}
    ensures r'.st.objects.Keys <= r.st.objects.Keys
  {
    var k := MinOf(Above(r.st.objects, lo));
    var e := ReadEntity(env, r.st, r.sink, r.st.objects[k]);
    Run(e.st, e.sink, r.ok && e.ok && !e.hung, e.hung)
  }

  lemma SweepUnfold(env: Env, r: Run, lo: int)
    requires !r.hung && Above(r.st.objects, lo) != {}
    ensures var k := MinOf(Above(r.st.objects, lo));
      SweepTrace(env, r, lo) == [k] + SweepTrace(env, SweepStep(env, r, lo), k) &&
      SweepFrom(env, r, lo) == SweepFrom(env, SweepStep(env, r, lo), k)
  {
  }

  /** A residual sweep that hangs reports failure, as a block walk's MemberRead does. */
  lemma {:induction false} SweepHangFails(env: Env, r: Run, lo: int)
    requires !r.hung
    ensures SweepFrom(env, r, lo).hung ==> !SweepFrom(env, r, lo).ok
    decreases |Above(r.st.objects, lo)|
  {
    if Above(r.st.objects, lo) != {} {
      var k := MinOf(Above(r.st.objects, lo));
      var r1 := SweepStep(env, r, lo);
      SweepUnfold(env, r, lo);
      if !r1.hung {
        AboveShrinks(r.st.objects, r1.st.objects, lo, k);
        SweepHangFails(env, r1, k);
      }
    }
  }

  /** readDwgEntities reports failure whenever it does not return. */
  lemma ReadEntitiesHangFails(env: Env, st: ReaderState, sink: seq<Event>)
    ensures ReadEntities(env, st, sink).hung ==> !ReadEntities(env, st, sink).ok
  {
    SweepHangFails(env, Run(st, sink, true, false), -1);
  }

  /** The residual sweep reads keys in strictly ascending order, each above where it started. */
  lemma {:induction false} SweepAscending(env: Env, r: Run, lo: int)
    ensures var t := SweepTrace(env, r, lo);
      (forall i | 0 <= i < |t| :: t[i] > lo && t[i] in r.st.objects) &&
      (forall i, j | 0 <= i < j < |t| :: t[i] < t[j])
    decreases |Above(r.st.objects, lo)|
  {
    if !(r.hung || Above(r.st.objects, lo) == {}) {
      var k := MinOf(Above(r.st.objects, lo));
      var r1 := SweepStep(env, r, lo);
      AboveShrinks(r.st.objects, r1.st.objects, lo, k);
      SweepAscending(env, r1, k);
      SweepUnfold(env, r, lo);
      var t := SweepTrace(env, r, lo);
      var t1 := SweepTrace(env, r1, k);
      forall i | 0 <= i < |t|
        ensures t[i] > lo && t[i] in r.st.objects
      {
        if i > 0 {
          assert t[i] == t1[i - 1];
        }
      }
      forall i, j | 0 <= i < j < |t|
        ensures t[i] < t[j]
      {
        assert t[j] == t1[j - 1];
        if i > 0 {
          assert t[i] == t1[i - 1];
        }
      }
    }
  }

  /**
   * Unless it got stuck, the sweep leaves nothing behind unread: every
   * entry that was in the map above its starting point was read, or had
   * been erased (by a polyline's vertex walk) before its turn came.
   */
  lemma {:induction false} SweepCovers(env: Env, r: Run, lo: int)
    requires !SweepFrom(env, r, lo).hung
    ensures forall k | k in Above(r.st.objects, lo) :: k in SweepTrace(env, r, lo) || k !in SweepFrom(env, r, lo).st.objects
    decreases |Above(r.st.objects, lo)|
  {
    if !(r.hung || Above(r.st.objects, lo) == {}) {
      var k := MinOf(Above(r.st.objects, lo));
      var r1 := SweepStep(env, r, lo);
      AboveShrinks(r.st.objects, r1.st.objects, lo, k);
      SweepUnfold(env, r, lo);
      SweepCovers(env, r1, k);
      var t1 := SweepTrace(env, r1, k);
      var f := SweepFrom(env, r1, k);
      forall x | x in Above(r.st.objects, lo)
        ensures x in SweepTrace(env, r, lo) || x !in f.st.objects
      {
        if x != k && x in r1.st.objects {
          assert x in Above(r1.st.objects, k);
          assert x in t1 || x !in f.st.objects;
        }
      }
    }
  }
}

=== FILE: dwg_reader.dfy ===
/**
 * The class dwgReader of dwgreader.cpp: the object map it consumes, the
 * typed tables it fills, the shared entity-link cursor, and its readDwg*
 * methods, each proved to compute what DwgSpec says of the state it starts
 * from. DRW_Interface is the Sink, which records the calls it receives.
 */
module DwgReading {
  import opened DrwBase
  import opened DwgModel
  import opened ObjMap
  import opened DwgControl
  import opened DwgSpec

  /** The output interface: the calls received so far, in order. */
  class Sink {
    var events: seq<Event>

    constructor ()
      ensures events == []
    {
      events := [];
    }

    method Emit(e: Event)
      modifies this
      ensures events == old(events) + [e]
    {
      events := events + [e];
    }
  }

  class DwgReader {
    const version: Version
    const classes: map<nat, DwgClass>
    const file: DwgFile
    var objectMap: ObjectMap
    var ltypemap: map<nat, TableEntry>
    var layermap: map<nat, Layer>
    var stylemap: map<nat, TableEntry>
    var dimstylemap: map<nat, TableEntry>
    var vportmap: map<nat, TableEntry>
    var blockRecordmap: map<nat, BlockRecord>
    var appIdmap: map<nat, TableEntry>
    var nextEntLink: nat
    var prevEntLink: nat

    /** What stays fixed: the version, the class table and the file. */
    function Context(): Env
    {
      Env(version, classes, file)
    }

    function TablesOf(): Tables
      reads this
    {
      Tables(ltypemap, layermap, stylemap, dimstylemap, vportmap, blockRecordmap, appIdmap)
    }

    /** The reader's whole mutable state. */
    function State(): ReaderState
      reads this
    {
      ReaderState(objectMap, TablesOf(), nextEntLink, prevEntLink)
    }

    /** A reader over a file whose object map (read by readDwgHandles) is `objects`. */
    constructor (version: Version, classes: map<nat, DwgClass>, file: DwgFile, objects: ObjectMap)
      ensures Context() == Env(version, classes, file)
      ensures State() == ReaderState(objects, Tables(map[], map[], map[], map[], map[], map[], map[]), 0, 0)
    {
      this.version := version;
      this.classes := classes;
      this.file := file;
      objectMap := objects;
      ltypemap := map[];
      layermap := map[];
      stylemap := map[];
      dimstylemap := map[];
      vportmap := map[];
      blockRecordmap := map[];
      appIdmap := map[];
      nextEntLink := 0;
      prevEntLink := 0;
    }

    /** `oc = ObjectMap[h]`: a missing key is inserted with a default entry. */
    method Subscript(h: nat) returns (oc: ObjHandle)
      modifies this
      ensures oc == Lookup(old(objectMap), h)
      ensures State() == old(State()).(objects := ObjMap.Subscript(old(objectMap), h))
    {
      if h !in objectMap {
        objectMap := objectMap[h := DefaultObjHandle];
      }
      oc := objectMap[h];
    }

    /** A table's control: looked up, erased under its key, type-checked and parsed. */
    method ReadControl(ctrl: nat, expected: int, ok: bool) returns (handles: seq<nat>, ok': bool)
      modifies this
      ensures ControlStep(objectMap, handles, ok') == LoadControl(Context(), old(objectMap), ctrl, expected, ok)
      ensures State() == old(State()).(objects := objectMap)
    {
      var oc := Subscript(ctrl);
      objectMap := objectMap - {ctrl};
      handles := [];
      if oc.handle == 0 {
        ok' := false;
      } else {
        var oType := file.objType(oc.loc);
        if oType != expected {
          ok' := false;
        } else {
          var ok2;
          handles, ok2 := ParseControl(version, oType, file.control(oc.loc));
          ok' := ok && ok2;
        }
      }
    }

    /** The member loop of one table, filling `table`. */
    method ReadMembers<R>(table: map<nat, R>, handles: seq<nat>, parse: nat -> Parsed<R>, key: R -> nat, ok: bool)
      returns (table': map<nat, R>, ok': bool)
      modifies this
      ensures TableStep(objectMap, table', ok') == LoadMembers(old(objectMap), table, handles, parse, key, ok)
      ensures State() == old(State()).(objects := objectMap)
    {
      table', ok' := table, ok;
      var i := 0;
      while i < |handles|
        invariant 0 <= i <= |handles|
        invariant LoadMembers(objectMap, table', handles[i..], parse, key, ok') ==
                  LoadMembers(old(objectMap), table, handles, parse, key, ok)
        invariant State() == old(State()).(objects := objectMap)
      {
        assert handles[i..][1..] == handles[i + 1..];
        var oc := Subscript(handles[i]);
        objectMap := objectMap - {oc.handle};
        if oc.handle == 0 {
          ok' := false;
        } else {
          var p := parse(oc.loc);
          table' := table'[key(p.rec) := p.rec];
          ok' := ok' && p.ok;
        }
        i := i + 1;
      }
      assert handles[i..] == [];
    }

    /** One table: its control, then its members. */
    method ReadTable<R>(table: map<nat, R>, ctrl: nat, expected: int, parse: nat -> Parsed<R>, key: R -> nat, ok: bool)
      returns (table': map<nat, R>, ok': bool)
      modifies this
      ensures TableStep(objectMap, table', ok') == LoadTable(Context(), old(objectMap), table, ctrl, expected, parse, key, ok)
      ensures State() == old(State()).(objects := objectMap)
    {
      var handles, okc := ReadControl(ctrl, expected, ok);
      table', ok' := ReadMembers(table, handles, parse, key, okc);
    }

    /** "set linetype in layer": every layer whose line type is known gets that line type's name. */
    method LinkLayers()
      modifies this
      ensures State() == old(State()).(tables := old(TablesOf()).(layers := CrossLink(old(layermap), ltypemap)))
    {
      ghost var original := layermap;
      var todo := layermap.Keys;
      while todo != {}
        invariant todo <= original.Keys && layermap.Keys == original.Keys
        invariant forall k | k in original :: layermap[k] == if k in todo then original[k] else LinkLayer(original[k], ltypemap)
        invariant State() == old(State()).(tables := old(TablesOf()).(layers := layermap))
        decreases |todo|
      {
        var k :| k in todo;
        var ly := layermap[k];
        if ly.lTypeRef in ltypemap {
          layermap := layermap[k := ly.(lineType := ltypemap[ly.lTypeRef].name)];
        }
        todo := todo - {k};
      }
      assert layermap == CrossLink(original, ltypemap);
    }

    /** readDwgTables, the line-type block. */
    method ReadLTypes(hdr: ControlHandles, ok: bool) returns (ok': bool)
      modifies this
      ensures TablesRun(State(), ok') == LTypeStage(Context(), TablesRun(old(State()), ok), hdr)
    {
      ltypemap, ok' := ReadTable(ltypemap, hdr.linetypeCtrl, LTypeControl, file.ltype, EntryHandle, ok);
    }

    /** readDwgTables, the layer block. */
    method ReadLayers(hdr: ControlHandles, ok: bool) returns (ok': bool)
      modifies this
      ensures TablesRun(State(), ok') == LayerStage(Context(), TablesRun(old(State()), ok), hdr)
    {
      layermap, ok' := ReadTable(layermap, hdr.layerCtrl, LayerControl, file.layer, LayerHandle, ok);
    }

    /** readDwgTables, the text-style block. */
    method ReadStyles(hdr: ControlHandles, ok: bool) returns (ok': bool)
      modifies this
      ensures TablesRun(State(), ok') == StyleStage(Context(), TablesRun(old(State()), ok), hdr)
    {
      stylemap, ok' := ReadTable(stylemap, hdr.styleCtrl, StyleControl, file.style, EntryHandle, ok);
    }

    /** readDwgTables, the dimension-style block. */
    method ReadDimStyles(hdr: ControlHandles, ok: bool) returns (ok': bool)
      modifies this
      ensures TablesRun(State(), ok') == DimStyleStage(Context(), TablesRun(old(State()), ok), hdr)
    {
      dimstylemap, ok' := ReadTable(dimstylemap, hdr.dimstyleCtrl, DimStyleControl, file.dimstyle, EntryHandle, ok);
    }

    /** readDwgTables, the viewport block. */
    method ReadVPorts(hdr: ControlHandles, ok: bool) returns (ok': bool)
      modifies this
      ensures TablesRun(State(), ok') == VPortStage(Context(), TablesRun(old(State()), ok), hdr)
    {
      vportmap, ok' := ReadTable(vportmap, hdr.vportCtrl, VPortControl, file.vport, EntryHandle, ok);
    }

    /** readDwgTables, the block-record block. */
    method ReadBlockRecords(hdr: ControlHandles, ok: bool) returns (ok': bool)
      modifies this
      ensures TablesRun(State(), ok') == BlockRecordStage(Context(), TablesRun(old(State()), ok), hdr)
    {
      blockRecordmap, ok' := ReadTable(blockRecordmap, hdr.blockCtrl, BlockControl, file.blockRecord, BlockRecordHandle, ok);
    }

    /** readDwgTables, the application-id block. */
    method ReadAppIds(hdr: ControlHandles, ok: bool) returns (ok': bool)
      modifies this
      ensures TablesRun(State(), ok') == AppIdStage(Context(), TablesRun(old(State()), ok), hdr)
    {
      appIdmap, ok' := ReadTable(appIdmap, hdr.appidCtrl, AppIdControl, file.appId, EntryHandle, ok);
    }

    /** readDwgTables. */
    method ReadDwgTables(hdr: ControlHandles) returns (ok: bool)
      modifies this
      ensures TablesRun(State(), ok) == ReadTables(Context(), old(State()), hdr)
    {
      ok := ReadLTypes(hdr, true);
      ok := ReadLayers(hdr, ok);
      LinkLayers();
      ok := ReadStyles(hdr, ok);
      ok := ReadDimStyles(hdr, ok);
      ok := ReadVPorts(hdr, ok);
      ok := ReadBlockRecords(hdr, ok);
      ok := ReadAppIds(hdr, ok);
    }

    /** A vertex that was found: parsed, added to the polyline, and its links copied into the reader. */
    method AddVertex(oc: ObjHandle, pline: Entity, ok: bool) returns (pline': Entity, ok': bool)
      modifies this
      ensures VertexRun(State(), pline', ok', false) ==
              VertexFound(Context(), VertexRun(old(State()), pline, ok, false), old(objectMap), oc)
    {
      var vt := file.vertex(oc.loc);
      pline' := pline.(vertices := pline.vertices + [vt.rec]);
      nextEntLink := vt.rec.nextEntLink;
      prevEntLink := vt.rec.prevEntLink;
      ok' := ok && vt.ok;
    }

    /** The pre-2004 vertex walk. */
    method VertexChainWalk(pline: Entity) returns (pline': Entity, ok: bool, hung: bool)
      modifies this
      ensures VertexRun(State(), pline', ok, hung) ==
              VertexChain(Context(), VertexRun(old(State()), pline, true, false), pline.lastEH, pline.firstEH)
    {
      pline', ok, hung := pline, true, false;
      var nextH := pline.firstEH;
      while nextH != 0
        invariant VertexChain(Context(), VertexRun(State(), pline', ok, false), pline.lastEH, nextH) ==
                  VertexChain(Context(), VertexRun(old(State()), pline, true, false), pline.lastEH, pline.firstEH)
        decreases |objectMap|, if nextH == pline.lastEH then 0 else 1
      {
        ghost var before := objectMap;
        var oc := Subscript(nextH);
        objectMap := objectMap - {nextH};
        RemoveCard(before, nextH);
        if oc.handle == 0 {
          ok := false;
          if nextH == pline.lastEH {
            // the source repeats this pass forever
            hung := true;
            return;
          }
          nextH := pline.lastEH;
        } else {
          pline', ok := AddVertex(oc, pline', ok);
          if nextH == pline.lastEH {
            nextH := 0;
          } else {
            nextH := nextEntLink;
          }
        }
      }
    }

    /** The 2004+ vertex loop. */
    method VertexListWalk(pline: Entity) returns (pline': Entity, ok: bool)
      modifies this
      ensures VertexRun(State(), pline', ok, false) ==
              VertexList(Context(), VertexRun(old(State()), pline, true, false), pline.vertexHandles)
    {
      pline', ok := pline, true;
      var hs := pline.vertexHandles;
      var i := 0;
      while i < |hs|
        invariant 0 <= i <= |hs|
        invariant VertexList(Context(), VertexRun(State(), pline', ok, false), hs[i..]) ==
                  VertexList(Context(), VertexRun(old(State()), pline, true, false), hs)
      {
        assert hs[i..][1..] == hs[i + 1..];
        var oc := Subscript(hs[i]);
        objectMap := objectMap - {hs[i]};
        if oc.handle == 0 {
          ok := false;
        } else {
          pline', ok := AddVertex(oc, pline', ok);
        }
        i := i + 1;
      }
      assert hs[i..] == [];
    }

    /** readPlineVertex. */
    method ReadPlineVertex(pline: Entity) returns (pline': Entity, ok: bool, hung: bool)
      modifies this
      ensures VertexRun(State(), pline', ok, hung) == DwgSpec.ReadPlineVertex(Context(), old(State()), pline)
    {
      hung := false;
      if Pre2004(version) {
        pline', ok, hung := VertexChainWalk(pline);
      } else {
        pline', ok := VertexListWalk(pline);
      }
      if !hung {
        objectMap := objectMap - {pline.seqEnd};
      }
    }

    /** readDwgEntity. */
    method ReadDwgEntity(obj: ObjHandle, sink: Sink) returns (ok: bool, hung: bool)
      modifies this, sink
      ensures Run(State(), sink.events, ok, hung) == ReadEntity(Context(), old(State()), old(sink.events), obj)
    {
      nextEntLink, prevEntLink := 0, 0;
      hung := false;
      var oType: int := file.objType(obj.loc);
      if oType > 499 {
        if oType !in classes {
          return false, false;
        }
        var cl := classes[oType];
        if cl.dwgType != 0 {
          oType := cl.dwgType;
        }
      }
      var kind := KindOf(oType);
      if kind.None? {
        return true, false;
      }
      var p := file.entity(obj.loc, kind.value);
      var e := p.rec.(attrs := ParseAttribs(TablesOf(), p.rec.attrs));
      ok := p.ok;
      nextEntLink, prevEntLink := e.nextEntLink, e.prevEntLink;
      if NameTable(kind.value).Some? {
        e := e.(tableName := FindTableName(TablesOf(), NameTable(kind.value).value, e.tableRef));
      }
      if kind.value == Polyline {
        var vok;
        e, vok, hung := ReadPlineVertex(e);
        if hung {
          return;
        }
      }
      sink.Emit(AddEntity(kind.value, e));
    }

    /** The pre-2004 member walk of a block. */
    method BlockChainWalk(bkr: BlockRecord, sink: Sink, ok: bool) returns (ok': bool, hung: bool)
      modifies this, sink
      ensures Run(State(), sink.events, ok', hung) ==
              BlockChain(Context(), Run(old(State()), old(sink.events), ok, false), bkr.lastEH, bkr.firstEH)
    {
      ok', hung := ok, false;
      var nextH := bkr.firstEH;
      while nextH != 0
        invariant BlockChain(Context(), Run(State(), sink.events, ok', false), bkr.lastEH, nextH) ==
                  BlockChain(Context(), Run(old(State()), old(sink.events), ok, false), bkr.lastEH, bkr.firstEH)
        decreases |objectMap|, if nextH == bkr.lastEH then 0 else 1
      {
        ghost var before := objectMap;
        var oc := Subscript(nextH);
        objectMap := objectMap - {nextH};
        ghost var objs := objectMap;
        RemoveCard(before, nextH);
        if oc.handle == 0 {
          ok' := false;
          if nextH == bkr.lastEH {
            // the source repeats this pass forever
            hung := true;
            return;
          }
          nextH := bkr.lastEH;
        } else {
          var ok2, h2 := ReadDwgEntity(oc, sink);
          SubKeysCard(objectMap, objs);
          if h2 {
            ok', hung := false, true;
            return;
          }
          ok' := ok' && ok2;
          if nextH == bkr.lastEH {
            nextH := 0;
          } else {
            nextH := nextEntLink;
          }
        }
      }
    }

    /** The 2004+ member loop of a block. */
    method BlockListWalk(bkr: BlockRecord, sink: Sink, ok: bool) returns (ok': bool, hung: bool)
      modifies this, sink
      ensures Run(State(), sink.events, ok', hung) ==
              BlockList(Context(), Run(old(State()), old(sink.events), ok, false), bkr.entMap)
    {
      ok', hung := ok, false;
      var hs := bkr.entMap;
      var i := 0;
      while i < |hs|
        invariant 0 <= i <= |hs|
        invariant BlockList(Context(), Run(State(), sink.events, ok', false), hs[i..]) ==
                  BlockList(Context(), Run(old(State()), old(sink.events), ok, false), hs)
      {
        assert hs[i..][1..] == hs[i + 1..];
        var oc := Subscript(hs[i]);
        objectMap := objectMap - {hs[i]};
        if oc.handle == 0 {
          ok' := false;
        } else {
          var ok2, h2 := ReadDwgEntity(oc, sink);
          if h2 {
            ok', hung := false, true;
            return;
          }
          ok' := ok' && ok2;
        }
        i := i + 1;
      }
      assert hs[i..] == [];
    }

    /** One record of readDwgBlocks: block entity, members, end block. */
    method ReadBlockRecord(k: nat, sink: Sink, ok: bool) returns (ok': bool, hung: bool)
      requires k in blockRecordmap
      modifies this, sink
      ensures Run(State(), sink.events, ok', hung) ==
              BlockRecordRun(Context(), Run(old(State()), old(sink.events), ok, false), k)
    {
      hung := false;
      var bkr := blockRecordmap[k];
      var oc := Subscript(bkr.block);
      objectMap := objectMap - {oc.handle};
      if oc.handle == 0 || !file.seekable(oc.loc) {
        return false, false;
      }
      var p := file.block(oc.loc);
      ok' := ok && p.ok;
      var bk := p.rec.(attrs := ParseAttribs(TablesOf(), p.rec.attrs));
      bk := bk.(basePoint := bkr.basePoint, flags := bkr.flags);
      sink.Emit(AddBlock(bk));
      blockRecordmap := blockRecordmap[k := bkr.(name := bk.name)];
      if bk.parentHandle == NoHandle {
        // the source sets the parent handle here, after addBlock has been called
        bk := bk.(parentHandle := bkr.handle);
      } else if Pre2004(version) {
        ok', hung := BlockChainWalk(bkr, sink, ok');
      } else {
        ok', hung := BlockListWalk(bkr, sink, ok');
      }
      if hung {
        return;
      }
      var oe := Subscript(bkr.endBlock);
      objectMap := objectMap - {oe.handle};
      if oe.handle == 0 {
        return false, false;
      }
      ok' := ok' && file.endBlock(oe.loc).ok;
      sink.Emit(EndBlock);
    }

    /** readDwgBlocks: the block records in ascending key order. */
    method ReadDwgBlocks(sink: Sink) returns (ok: bool, hung: bool)
      modifies this, sink
      ensures Run(State(), sink.events, ok, hung) == ReadBlocks(Context(), old(State()), old(sink.events))
    {
      ok, hung := true, false;
      var remaining: set<int> := blockRecordmap.Keys;
      while remaining != {}
        invariant remaining <= blockRecordmap.Keys
        invariant BlocksFrom(Context(), Run(State(), sink.events, ok, false), remaining) ==
                  ReadBlocks(Context(), old(State()), old(sink.events))
        decreases |remaining|
      {
        ghost var least := MinOf(remaining);
        var k :| k in remaining && forall x | x in remaining :: k <= x;
        assert k == least;
        ok, hung := ReadBlockRecord(k, sink, ok);
        if hung {
          return;
        }
        remaining := remaining - {k};
      }
    }

    /** The least key of the object map above `lo`. */
    method LeastAbove(lo: int) returns (k: int)
      requires Above(objectMap, lo) != {}
      ensures k == MinOf(Above(objectMap, lo))
    {
      ghost var least := MinOf(Above(objectMap, lo));
      k :| k in Above(objectMap, lo) && forall x | x in Above(objectMap, lo) :: k <= x;
      assert k <= least && least <= k;
    }

    /** readDwgEntities: whatever the map still holds, in ascending key order. */
    method ReadDwgEntities(sink: Sink) returns (ok: bool, hung: bool)
      modifies this, sink
      ensures Run(State(), sink.events, ok, hung) == ReadEntities(Context(), old(State()), old(sink.events))
    {
      ok, hung := true, false;
      var lo := -1;
      while Above(objectMap, lo) != {}
        invariant SweepFrom(Context(), Run(State(), sink.events, ok, false), lo) ==
                  ReadEntities(Context(), old(State()), old(sink.events))
        decreases |Above(objectMap, lo)|
      {
        ghost var r := Run(State(), sink.events, ok, false);
        var k := LeastAbove(lo);
        var ok2;
        ok2, hung := ReadDwgEntity(objectMap[k], sink);
        SweepFromUnfold(Context(), r, lo, k, Run(State(), sink.events, ok2, hung));
        if hung {
          ok := false;
          return;
        }
        AboveShrinks(r.st.objects, objectMap, lo, k);
        ok := ok && ok2;
        lo := k;
      }
    }
  }
}

=== FILE: dwg_spec.dfy ===
/**
 * What each decoding stage of dwgReader (dwgreader.cpp) computes, as
 * functions of the reader's state before the stage: the tables pass, the
 * per-entity dispatch, the polyline-vertex and block-member walks, the block
 * pass and the residual entity sweep over whatever the object map still holds.
 */
module DwgSpec {
  import opened DrwBase
  import opened DwgModel
  import opened ObjMap
  import opened DwgControl

  // ---------------------------------------------------------------- names

  /** DRW::TTYPE. */
  datatype TableType = UNKNOWNT | LTYPE | LAYER | STYLE | DIMSTYLE | VPORT | BLOCK_RECORD | APPID

  /** findTableName: the name of the record filed under `handle`, or "" (the vport case is disabled). */
  function FindTableName(t: Tables, table: TableType, handle: nat): (name: string)
    ensures table == STYLE && handle in t.styles ==> name == t.styles[handle].name
    ensures table == DIMSTYLE && handle in t.dimstyles ==> name == t.dimstyles[handle].name
    ensures table == BLOCK_RECORD && handle in t.blockRecords ==> name == t.blockRecords[handle].name
    ensures table == LAYER && handle in t.layers ==> name == t.layers[handle].name
    ensures table == LTYPE && handle in t.ltypes ==> name == t.ltypes[handle].name
    ensures table == STYLE && handle !in t.styles ==> name == ""
    ensures table == DIMSTYLE && handle !in t.dimstyles ==> name == ""
    ensures table == BLOCK_RECORD && handle !in t.blockRecords ==> name == ""
    ensures table == LAYER && handle !in t.layers ==> name == ""
    ensures table == LTYPE && handle !in t.ltypes ==> name == ""
    ensures table in {UNKNOWNT, VPORT, APPID} ==> name == ""
    ensures name != "" ==> table in {STYLE, DIMSTYLE, BLOCK_RECORD, LAYER, LTYPE}
  {
    match table
    case STYLE => if handle in t.styles then t.styles[handle].name else ""
    case DIMSTYLE => if handle in t.dimstyles then t.dimstyles[handle].name else ""
    case BLOCK_RECORD => if handle in t.blockRecords then t.blockRecords[handle].name else ""
    case LAYER => if handle in t.layers then t.layers[handle].name else ""
    case LTYPE => if handle in t.ltypes then t.ltypes[handle].name else ""
    case _ => ""
  }

  /** parseAttribs: fill in the line-type and layer names the entity's owner handles resolve to. */
  function ParseAttribs(t: Tables, a: Attribs): (r: Attribs)
    ensures r.layerRef == a.layerRef && r.lTypeRef == a.lTypeRef
    ensures r.lineType == (if a.lTypeRef in t.ltypes then t.ltypes[a.lTypeRef].name else a.lineType)
    ensures r.layer == (if a.layerRef in t.layers then t.layers[a.layerRef].name else a.layer)
  {
    var a1 := if a.lTypeRef in t.ltypes then a.(lineType := t.ltypes[a.lTypeRef].name) else a;
    if a.layerRef in t.layers then a1.(layer := t.layers[a.layerRef].name) else a1
  }

  /** The layer with the name of its line type filled in, when the line type is known. */
  function LinkLayer(l: Layer, ltypes: map<nat, TableEntry>): Layer
  {
    if l.lTypeRef in ltypes then l.(lineType := ltypes[l.lTypeRef].name) else l
  }

  /** The "set linetype in layer" pass of readDwgTables. */
  function CrossLink(layers: map<nat, Layer>, ltypes: map<nat, TableEntry>): (r: map<nat, Layer>)
    ensures r.Keys == layers.Keys
  {
    map k | k in layers :: LinkLayer(layers[k], ltypes)
  }

  // --------------------------------------------------------------- tables

  datatype ControlStep = ControlStep(objects: ObjectMap, handles: seq<nat>, ok: bool)

  /**
   * Consuming a table's control: it is erased under its key; a missing
   * control or one of the wrong type fails and lists no member.
   */
  function LoadControl(env: Env, objects: ObjectMap, ctrl: nat, expected: int, ok: bool): (c: ControlStep)
    ensures c.objects == objects - {ctrl}
    ensures c.ok ==> ok && Found(objects, ctrl) && env.file.objType(Lookup(objects, ctrl).loc) == expected
    ensures !Found(objects, ctrl) ==> c.handles == [] && !c.ok
  {
    var oc := Lookup(objects, ctrl);
    var objs := TakeByKey(objects, ctrl);
    if oc.handle == 0 then ControlStep(objs, [], false)
    else
      var oType := env.file.objType(oc.loc);
      if oType != expected then ControlStep(objs, [], false)
      else
        var c := ControlSpec(env.version, oType, env.file.control(oc.loc));
        ControlStep(objs, c.handles, ok && c.ok)
  }

  datatype TableStep<R> = TableStep(objects: ObjectMap, table: map<nat, R>, ok: bool)

  /** One member of a table: looked up, erased under the handle found, parsed and filed under its own handle. */
  function LoadMember<R>(objects: ObjectMap, table: map<nat, R>, h: nat,
                         parse: nat -> Parsed<R>, key: R -> nat, ok: bool): (s: TableStep<R>)
    ensures !Found(objects, h) ==> s.table == table && !s.ok
    ensures Found(objects, h) ==> var rec := parse(Lookup(objects, h).loc).rec;
      s.table.Keys == table.Keys + {key(rec)} && s.table[key(rec)] == rec
    ensures s.ok <==> ok && Found(objects, h) && parse(Lookup(objects, h).loc).ok
  {
    var oc := Lookup(objects, h);
    var objs := TakeByHandle(objects, h);
    if oc.handle == 0 then TableStep(objs, table, false)
    else
      var p := parse(oc.loc);
      TableStep(objs, table[key(p.rec) := p.rec], ok && p.ok)
  }

  /** The member loop, over the handles in control order. */
  function LoadMembers<R>(objects: ObjectMap, table: map<nat, R>, handles: seq<nat>,
                          parse: nat -> Parsed<R>, key: R -> nat, ok: bool): (s: TableStep<R>)
    ensures table.Keys <= s.table.Keys
    ensures s.ok ==> ok
    ensures handles != [] && !Found(objects, handles[0]) ==> !s.ok
    decreases |handles|
  {
    if handles == [] then TableStep(objects, table, ok)
    else
      var s := LoadMember(objects, table, handles[0], parse, key, ok);
      LoadMembers(s.objects, s.table, handles[1..], parse, key, s.ok)
  }

  /** One table: its control, then its members. */
  function LoadTable<R>(env: Env, objects: ObjectMap, table: map<nat, R>, ctrl: nat, expected: int,
                        parse: nat -> Parsed<R>, key: R -> nat, ok: bool): (s: TableStep<R>)
    ensures table.Keys <= s.table.Keys
    ensures s.ok ==> ok && Found(objects, ctrl) && env.file.objType(Lookup(objects, ctrl).loc) == expected
  {
    var c := LoadControl(env, objects, ctrl, expected, ok);
    LoadMembers(c.objects, table, c.handles, parse, key, c.ok)
  }

  /** The control object types readDwgTables checks, in its table order. */
  const LTypeControl := 0x38
  const LayerControl := 0x32
  const StyleControl := 0x34
  const DimStyleControl := 0x44
  const VPortControl := 0x40
  const BlockControl := 0x30
  const AppIdControl := 0x42

  datatype TablesRun = TablesRun(st: ReaderState, ok: bool)

  /** Each table stage of readDwgTables: load one table from the map as it is, into the typed map as it is. */
  function LTypeStage(env: Env, r: TablesRun, hdr: ControlHandles): TablesRun
  {
    var s := LoadTable(env, r.st.objects, r.st.tables.ltypes, hdr.linetypeCtrl, LTypeControl, env.file.ltype, EntryHandle, r.ok);
    TablesRun(r.st.(objects := s.objects, tables := r.st.tables.(ltypes := s.table)), s.ok)
  }

  function LayerStage(env: Env, r: TablesRun, hdr: ControlHandles): TablesRun
  {
    var s := LoadTable(env, r.st.objects, r.st.tables.layers, hdr.layerCtrl, LayerControl, env.file.layer, LayerHandle, r.ok);
    TablesRun(r.st.(objects := s.objects, tables := r.st.tables.(layers := s.table)), s.ok)
  }

  /** The layer/line-type link, between the layer and the style tables. */
  function LinkStage(r: TablesRun): TablesRun
  {
    TablesRun(r.st.(tables := r.st.tables.(layers := CrossLink(r.st.tables.layers, r.st.tables.ltypes))), r.ok)
  }

  function StyleStage(env: Env, r: TablesRun, hdr: ControlHandles): TablesRun
  {
    var s := LoadTable(env, r.st.objects, r.st.tables.styles, hdr.styleCtrl, StyleControl, env.file.style, EntryHandle, r.ok);
    TablesRun(r.st.(objects := s.objects, tables := r.st.tables.(styles := s.table)), s.ok)
  }

  function DimStyleStage(env: Env, r: TablesRun, hdr: ControlHandles): TablesRun
  {
    var s := LoadTable(env, r.st.objects, r.st.tables.dimstyles, hdr.dimstyleCtrl, DimStyleControl, env.file.dimstyle, EntryHandle, r.ok);
    TablesRun(r.st.(objects := s.objects, tables := r.st.tables.(dimstyles := s.table)), s.ok)
  }

  function VPortStage(env: Env, r: TablesRun, hdr: ControlHandles): TablesRun
  {
    var s := LoadTable(env, r.st.objects, r.st.tables.vports, hdr.vportCtrl, VPortControl, env.file.vport, EntryHandle, r.ok);
    TablesRun(r.st.(objects := s.objects, tables := r.st.tables.(vports := s.table)), s.ok)
  }

  function BlockRecordStage(env: Env, r: TablesRun, hdr: ControlHandles): TablesRun
  {
    var s := LoadTable(env, r.st.objects, r.st.tables.blockRecords, hdr.blockCtrl, BlockControl, env.file.blockRecord, BlockRecordHandle, r.ok);
    TablesRun(r.st.(objects := s.objects, tables := r.st.tables.(blockRecords := s.table)), s.ok)
  }

  function AppIdStage(env: Env, r: TablesRun, hdr: ControlHandles): TablesRun
  {
    var s := LoadTable(env, r.st.objects, r.st.tables.appIds, hdr.appidCtrl, AppIdControl, env.file.appId, EntryHandle, r.ok);
    TablesRun(r.st.(objects := s.objects, tables := r.st.tables.(appIds := s.table)), s.ok)
  }

  /** readDwgTables: seven tables in a fixed order, with the layer/line-type link after the layers. */
  function ReadTables(env: Env, st: ReaderState, hdr: ControlHandles): (r: TablesRun)
    ensures r.st.nextEntLink == st.nextEntLink && r.st.prevEntLink == st.prevEntLink
    ensures st.tables.ltypes.Keys <= r.st.tables.ltypes.Keys && st.tables.layers.Keys <= r.st.tables.layers.Keys
    ensures st.tables.styles.Keys <= r.st.tables.styles.Keys && st.tables.dimstyles.Keys <= r.st.tables.dimstyles.Keys
    ensures st.tables.vports.Keys <= r.st.tables.vports.Keys && st.tables.blockRecords.Keys <= r.st.tables.blockRecords.Keys
    ensures st.tables.appIds.Keys <= r.st.tables.appIds.Keys
  {
    var r1 := LTypeStage(env, TablesRun(st, true), hdr);
    var r2 := LinkStage(LayerStage(env, r1, hdr));
    var r3 := StyleStage(env, r2, hdr);
    var r4 := DimStyleStage(env, r3, hdr);
    var r5 := VPortStage(env, r4, hdr);
    var r6 := BlockRecordStage(env, r5, hdr);
    AppIdStage(env, r6, hdr)
  }

  // ------------------------------------------------------------- entities

  /** The type code after the class lookup: None when an extended code names no class. */
  function ResolveCode(env: Env, code: int): (c: Option<int>)
    ensures c.None? <==> code > 499 && code !in env.classes
    ensures code <= 499 ==> c == Some(code)
    ensures c.Some? && c.value != code ==> code > 499 && c.value == env.classes[code].dwgType
  {
    if code > 499 then
      if code !in env.classes then None
      else if env.classes[code].dwgType != 0 then Some(env.classes[code].dwgType)
      else Some(code)
    else Some(code)
  }

  /** The switch of readDwgEntity: which kind each built-in type code is decoded as. */
  function KindOf(code: int): (k: Option<EntityKind>)
    ensures k.Some? ==> 0 < code < 80
    ensures k == Some(Polyline) <==> code in {15, 16, 29}
    ensures k == Some(Insert) <==> code in {7, 8}
  {
    match code
    case 17 => Some(Arc)
    case 18 => Some(Circle)
    case 19 => Some(Line)
    case 27 => Some(Point)
    case 35 => Some(Ellipse)
    case 7 => Some(Insert)
    case 8 => Some(Insert)
    case 77 => Some(LWPolyline)
    case 1 => Some(Text)
    case 44 => Some(MText)
    case 28 => Some(Face3D)
    case 20 => Some(DimOrdinate)
    case 21 => Some(DimLinear)
    case 22 => Some(DimAligned)
    case 23 => Some(DimAngular3p)
    case 24 => Some(DimAngular)
    case 25 => Some(DimRadial)
    case 26 => Some(DimDiametric)
    case 45 => Some(Leader)
    case 31 => Some(Solid)
    case 78 => Some(Hatch)
    case 32 => Some(Trace)
    case 34 => Some(Viewport)
    case 36 => Some(Spline)
    case 40 => Some(Ray)
    case 15 => Some(Polyline)
    case 16 => Some(Polyline)
    case 29 => Some(Polyline)
    case 41 => Some(Xline)
    case _ => None
  }

  /** The table an entity kind's extra name is looked up in: block record for inserts, style for texts, dimension style for dimensions and leaders. */
  function NameTable(kind: EntityKind): Option<TableType>
  {
    match kind
    case Insert => Some(BLOCK_RECORD)
    case Text => Some(STYLE)
    case MText => Some(STYLE)
    case DimOrdinate => Some(DIMSTYLE)
    case DimLinear => Some(DIMSTYLE)
    case DimAligned => Some(DIMSTYLE)
    case DimAngular3p => Some(DIMSTYLE)
    case DimAngular => Some(DIMSTYLE)
    case DimRadial => Some(DIMSTYLE)
    case DimDiametric => Some(DIMSTYLE)
    case Leader => Some(DIMSTYLE)
    case _ => None
  }

  /** ENTRY_PARSE plus the name lookup: the entity as handed to the sink (before any vertices). */
  function DecodedEntity(t: Tables, kind: EntityKind, e: Entity): (r: Entity)
    ensures r.nextEntLink == e.nextEntLink && r.prevEntLink == e.prevEntLink
    ensures r.attrs == ParseAttribs(t, e.attrs)
    ensures NameTable(kind).Some? ==> r.tableName == FindTableName(t, NameTable(kind).value, e.tableRef)
    ensures NameTable(kind).None? ==> r.tableName == e.tableName
    ensures r.(attrs := e.attrs, tableName := e.tableName) == e
  {
    var e1 := e.(attrs := ParseAttribs(t, e.attrs));
    match NameTable(kind)
    case Some(table) => e1.(tableName := FindTableName(t, table, e.tableRef))
    case None => e1
  }

  datatype VertexRun = VertexRun(st: ReaderState, pline: Entity, ok: bool, hung: bool)

  /** A vertex that was found: parsed, appended to the polyline, its links copied into the reader. */
  function VertexFound(env: Env, w: VertexRun, objs: ObjectMap, oc: ObjHandle): (r: VertexRun)
    ensures !r.hung && r.st.objects == objs && r.st.tables == w.st.tables
    ensures r.pline == w.pline.(vertices := w.pline.vertices + [env.file.vertex(oc.loc).rec])
    ensures r.st.nextEntLink == env.file.vertex(oc.loc).rec.nextEntLink
    ensures r.st.prevEntLink == env.file.vertex(oc.loc).rec.prevEntLink
    ensures r.ok == (w.ok && env.file.vertex(oc.loc).ok)
  {
    var p := env.file.vertex(oc.loc);
    VertexRun(w.st.(objects := objs, nextEntLink := p.rec.nextEntLink, prevEntLink := p.rec.prevEntLink),
              w.pline.(vertices := w.pline.vertices + [p.rec]),
              w.ok && p.ok, false)
  }

  /**
   * The pre-2004 vertex walk from `nextH` along the vertices' next links.
   * A vertex that is not found sends the walk to `lastEH`; when `lastEH`
   * itself is not found the source loops forever, modelled as `hung`.
   */
  function VertexChain(env: Env, w: VertexRun, lastEH: nat, nextH: nat): (r: VertexRun)
    requires !w.hung
    ensures r.st.objects.Keys <= w.st.objects.Keys
    ensures r.st.tables == w.st.tables
    ensures w.pline.vertices <= r.pline.vertices
    ensures r.pline == w.pline.(vertices := r.pline.vertices)
    decreases |w.st.objects|, if nextH == lastEH then 0 else 1
  {
    if nextH == 0 then w
    else
      var oc := Lookup(w.st.objects, nextH);
      var objs := TakeByKey(w.st.objects, nextH);
      RemoveCard(w.st.objects, nextH);
      if oc.handle == 0 then
        if nextH == lastEH then VertexRun(w.st.(objects := objs), w.pline, false, true)
        else VertexChain(env, VertexRun(w.st.(objects := objs), w.pline, false, false), lastEH, lastEH)
      else
        var w1 := VertexFound(env, w, objs, oc);
        if nextH == lastEH then w1 else VertexChain(env, w1, lastEH, w1.st.nextEntLink)
  }

  /** The 2004+ vertex loop over the polyline's handle list. */
  function VertexList(env: Env, w: VertexRun, hs: seq<nat>): (r: VertexRun)
    requires !w.hung
    ensures !r.hung
    ensures r.st.objects.Keys <= w.st.objects.Keys
    ensures r.st.tables == w.st.tables
    ensures w.pline.vertices <= r.pline.vertices
    ensures r.pline == w.pline.(vertices := r.pline.vertices)
    decreases |hs|
  {
    if hs == [] then w
    else
      var oc := Lookup(w.st.objects, hs[0]);
      var objs := TakeByKey(w.st.objects, hs[0]);
      if oc.handle == 0 then VertexList(env, VertexRun(w.st.(objects := objs), w.pline, false, false), hs[1..])
      else VertexList(env, VertexFound(env, w, objs, oc), hs[1..])
  }

  /** readPlineVertex: the walk the version selects, then the SEQEND entry erased. */
  function ReadPlineVertex(env: Env, st: ReaderState, pline: Entity): (r: VertexRun)
    ensures r.st.objects.Keys <= st.objects.Keys
    ensures r.st.tables == st.tables
    ensures pline.vertices <= r.pline.vertices
    ensures r.pline == pline.(vertices := r.pline.vertices)
  {
    var w0 := VertexRun(st, pline, true, false);
    var w := if Pre2004(env.version) then VertexChain(env, w0, pline.lastEH, pline.firstEH)
             else VertexList(env, w0, pline.vertexHandles);
    if w.hung then w else w.(st := w.st.(objects := w.st.objects - {pline.seqEnd}))
  }

  /**
   * readDwgEntity: decode the record `obj` locates and hand it to the sink.
   * The reader's links are reset first, so an unsupported record ends a
   * pre-2004 member walk; an extended code with no class fails silently.
   */
  function ReadEntity(env: Env, st: ReaderState, sink: seq<Event>, obj: ObjHandle): (r: Run)
    ensures r.st.objects.Keys <= st.objects.Keys
    ensures r.st.tables == st.tables
    ensures sink <= r.sink && |r.sink| <= |sink| + 1
    ensures |r.sink| == |sink| + 1 ==> r.sink[|sink|].AddEntity?
  {
    var st0 := st.(nextEntLink := 0, prevEntLink := 0);
    match ResolveCode(env, env.file.objType(obj.loc))
    case None => Run(st0, sink, false, false)
    case Some(code) =>
      match KindOf(code)
      case None => Run(st0, sink, true, false)
      case Some(kind) =>
        var p := env.file.entity(obj.loc, kind);
        var e := DecodedEntity(st.tables, kind, p.rec);
        var st1 := st0.(nextEntLink := e.nextEntLink, prevEntLink := e.prevEntLink);
        if kind != Polyline then Run(st1, sink + [AddEntity(kind, e)], p.ok, false)
        else
          var v := ReadPlineVertex(env, st1, e);
          Run(v.st, if v.hung then sink else sink + [AddEntity(kind, v.pline)], p.ok, v.hung)
  }

  // --------------------------------------------------------------- blocks

  /** Every event after position n is an entity. */
  predicate EntitiesFrom(events: seq<Event>, n: nat)
  {
    forall i | n <= i < |events| :: events[i].AddEntity?
  }

  /** A member entity that was found (its entry already erased from `objs`): decoded and handed to the sink. */
  function MemberRead(env: Env, r: Run, objs: ObjectMap, oc: ObjHandle): (r': Run)
    ensures r'.st.objects.Keys <= objs.Keys
    ensures r'.st.tables == r.st.tables
    ensures r.sink <= r'.sink && EntitiesFrom(r'.sink, |r.sink|)
    ensures r'.hung ==> !r'.ok
  {
    var e := ReadEntity(env, r.st.(objects := objs), r.sink, oc);
    Run(e.st, e.sink, !e.hung && r.ok && e.ok, e.hung)
  }

  /**
   * The pre-2004 member walk of a block, from `nextH` along the reader's
   * next link; the same redirect to `lastEH` (and the same endless loop) as
   * the vertex walk.
   */
  function BlockChain(env: Env, r: Run, lastEH: nat, nextH: nat): (r': Run)
    requires !r.hung
    ensures r'.st.objects.Keys <= r.st.objects.Keys
    ensures r'.st.tables == r.st.tables
    ensures r.sink <= r'.sink && EntitiesFrom(r'.sink, |r.sink|)
    ensures r'.hung ==> !r'.ok
    decreases |r.st.objects|, if nextH == lastEH then 0 else 1
  {
    if nextH == 0 then r
    else
      var oc := Lookup(r.st.objects, nextH);
      var objs := TakeByKey(r.st.objects, nextH);
      RemoveCard(r.st.objects, nextH);
      if oc.handle == 0 then
        if nextH == lastEH then Run(r.st.(objects := objs), r.sink, false, true)
        else BlockChain(env, Run(r.st.(objects := objs), r.sink, false, false), lastEH, lastEH)
      else
        var r1 := MemberRead(env, r, objs, oc);
        SubKeysCard(r1.st.objects, objs);
        if r1.hung || nextH == lastEH then r1 else BlockChain(env, r1, lastEH, r1.st.nextEntLink)
  }

  /** The 2004+ member loop of a block over its entity list. */
  function BlockList(env: Env, r: Run, hs: seq<nat>): (r': Run)
    requires !r.hung
    ensures r'.st.objects.Keys <= r.st.objects.Keys
    ensures r'.st.tables == r.st.tables
    ensures r.sink <= r'.sink && EntitiesFrom(r'.sink, |r.sink|)
    ensures r'.hung ==> !r'.ok
    decreases |hs|
  {
    if hs == [] then r
    else
      var oc := Lookup(r.st.objects, hs[0]);
      var objs := TakeByKey(r.st.objects, hs[0]);
      if oc.handle == 0 then BlockList(env, Run(r.st.(objects := objs), r.sink, false, false), hs[1..])
      else
        var r1 := MemberRead(env, r, objs, oc);
        if r1.hung then r1 else BlockList(env, r1, hs[1..])
  }

  /** The member walk the version selects. */
  function BlockMembers(env: Env, r: Run, bkr: BlockRecord): (r': Run)
    requires !r.hung
    ensures r'.st.objects.Keys <= r.st.objects.Keys
    ensures r'.st.tables == r.st.tables
    ensures r.sink <= r'.sink && EntitiesFrom(r'.sink, |r.sink|)
    ensures r'.hung ==> !r'.ok
  {
    if Pre2004(env.version) then BlockChain(env, r, bkr.lastEH, bkr.firstEH)
    else BlockList(env, r, bkr.entMap)
  }

  /** The block entity of a record, completed with the record's base point and flags, as addBlock receives it. */
  function CompletedBlock(t: Tables, bk: Block, bkr: BlockRecord): (b: Block)
    ensures b.basePoint == bkr.basePoint && b.flags == bkr.flags
    ensures b.attrs == ParseAttribs(t, bk.attrs)
    ensures b.handle == bk.handle && b.name == bk.name && b.parentHandle == bk.parentHandle
  {
    bk.(attrs := ParseAttribs(t, bk.attrs), basePoint := bkr.basePoint, flags := bkr.flags)
  }

  /**
   * One iteration of readDwgBlocks for the record filed under `k`: the block
   * entity, the members (only when the block has an owner), the end block.
   */
  function BlockRecordRun(env: Env, r: Run, k: nat): (r': Run)
    requires !r.hung && k in r.st.tables.blockRecords
    ensures r'.st.tables.blockRecords.Keys == r.st.tables.blockRecords.Keys
    ensures r'.st.tables == r.st.tables.(blockRecords := r'.st.tables.blockRecords)
    ensures r.sink <= r'.sink
  {
    var bkr := r.st.tables.blockRecords[k];
    var oc := Lookup(r.st.objects, bkr.block);
    var st1 := r.st.(objects := TakeByHandle(r.st.objects, bkr.block));
    if oc.handle == 0 || !env.file.seekable(oc.loc) then Run(st1, r.sink, false, false)
    else
      var p := env.file.block(oc.loc);
      var bk := CompletedBlock(st1.tables, p.rec, bkr);
      var t2 := st1.tables.(blockRecords := st1.tables.blockRecords[k := bkr.(name := bk.name)]);
      var r2 := Run(st1.(tables := t2), r.sink + [AddBlock(bk)], r.ok && p.ok, false);
      var r3 := if bk.parentHandle == NoHandle then r2 else BlockMembers(env, r2, bkr);
      if r3.hung then r3 else CloseBlock(env, r3, bkr)
  }

  /** The end-block entity: looked up and erased by the returned handle, then reported to the sink. */
  function CloseBlock(env: Env, r: Run, bkr: BlockRecord): (r': Run)
    ensures !r'.hung && r'.st.tables == r.st.tables
    ensures r'.sink == r.sink || r'.sink == r.sink + [EndBlock]
    ensures r'.ok ==> r.ok && r'.sink == r.sink + [EndBlock]
    ensures Found(r.st.objects, bkr.endBlock) <==> r'.sink == r.sink + [EndBlock]
  {
    var oe := Lookup(r.st.objects, bkr.endBlock);
    var st4 := r.st.(objects := TakeByHandle(r.st.objects, bkr.endBlock));
    if oe.handle == 0 then Run(st4, r.sink, false, false)
    else Run(st4, r.sink + [EndBlock], r.ok && env.file.endBlock(oe.loc).ok, false)
  }

  /** The least element of a non-empty set of keys. */
  ghost function MinOf(s: set<int>): (m: int)
    requires s != {}
    ensures m in s && forall x | x in s :: m <= x
  {
    HasMinimum(s);
    var m :| m in s && forall x | x in s :: m <= x;
    m
  }

  lemma HasMinimum(s: set<int>)
    requires s != {}
    ensures exists m :: m in s && forall x | x in s :: m <= x
    decreases |s|
  {
    assert exists y :: y in s by {
      if forall y :: y !in s {
        assert false;
      }
    }
    var y :| y in s;
    if s == {y} {
      assert forall x | x in s :: y <= x;
    } else {
      HasMinimum(s - {y});
      var m :| m in s - {y} && forall x | x in s - {y} :: m <= x;
      var least := if y < m then y else m;
      forall x | x in s
        ensures least <= x
      {
        if x != y {
          assert x in s - {y};
        }
      }
      assert least in s;
    }
  }

  /** readDwgBlocks over the records whose keys are in `remaining`, in ascending key order. */
  ghost function BlocksFrom(env: Env, r: Run, remaining: set<int>): (r': Run)
    requires remaining <= r.st.tables.blockRecords.Keys
    ensures r.sink <= r'.sink
    ensures r'.st.tables.blockRecords.Keys == r.st.tables.blockRecords.Keys
    ensures r'.st.tables == r.st.tables.(blockRecords := r'.st.tables.blockRecords)
    decreases |remaining|
  {
    if remaining == {} || r.hung then r
    else
      var k := MinOf(remaining);
      BlocksFrom(env, BlockRecordRun(env, r, k), remaining - {k})
  }

  /** readDwgBlocks. */
  ghost function ReadBlocks(env: Env, st: ReaderState, sink: seq<Event>): (r: Run)
    ensures sink <= r.sink
    ensures r.st.tables.blockRecords.Keys == st.tables.blockRecords.Keys
    ensures r.st.tables == st.tables.(blockRecords := r.st.tables.blockRecords)
  {
    BlocksFrom(env, Run(st, sink, true, false), st.tables.blockRecords.Keys)
  }

  // ---------------------------------------------------------------- sweep

  /** The keys of the object map above `lo`. */
  function Above(m: ObjectMap, lo: int): set<int>
  {
    set k | k in m && k > lo
  }

  /** A sweep step never revisits: the keys left above the one just read are fewer. */
  lemma AboveShrinks(m: ObjectMap, m': ObjectMap, lo: int, k: int)
    requires m'.Keys <= m.Keys && k in Above(m, lo)
    ensures |Above(m', k)| < |Above(m, lo)|
  {
    assert Above(m', k) <= Above(m, lo) - {k};
    SubsetCard(Above(m', k), Above(m, lo) - {k});
  }

  /**
   * readDwgEntities from the entry after key `lo`: the next entry is always
   * the least key above the last one read, in the map as it is now.
   */
  ghost function SweepFrom(env: Env, r: Run, lo: int): (r': Run)
    ensures r.sink <= r'.sink
    ensures r'.st.tables == r.st.tables
    ensures r'.st.objects.Keys <= r.st.objects.Keys
    decreases |Above(r.st.objects, lo)|
  {
    if r.hung || Above(r.st.objects, lo) == {} then r
    else
      var k := MinOf(Above(r.st.objects, lo));
      var e := ReadEntity(env, r.st, r.sink, r.st.objects[k]);
      AboveShrinks(r.st.objects, e.st.objects, lo, k);
      SweepFrom(env, Run(e.st, e.sink, r.ok && e.ok && !e.hung, e.hung), k)
  }

  /** readDwgEntities: every entry the map still holds, placeholders included. */
  /** One unfolding of the sweep, at the least key above `lo`. */
  lemma SweepFromUnfold(env: Env, r: Run, lo: int, k: int, e: Run)
    requires !r.hung && Above(r.st.objects, lo) != {} && k == MinOf(Above(r.st.objects, lo))
    requires e == ReadEntity(env, r.st, r.sink, r.st.objects[k])
    ensures SweepFrom(env, r, lo) == SweepFrom(env, Run(e.st, e.sink, r.ok && e.ok && !e.hung, e.hung), k)
  {
  }

  ghost function ReadEntities(env: Env, st: ReaderState, sink: seq<Event>): (r: Run)
    ensures sink <= r.sink
    ensures r.st.tables == st.tables
    ensures r.st.objects.Keys <= st.objects.Keys
  {
    SweepFrom(env, Run(st, sink, true, false), -1)
  }
}

=== FILE: obj_map.dfy ===
/**
 * The two ways dwgReader consumes its object map, written out in terms of
 * std::map: `operator[]` inserts a default objHandle for a missing key, and
 * the entry is then erased either under the key looked up or under the
 * handle the lookup returned.
 */
module ObjMap {
  import opened DwgModel

  /** The value `ObjectMap[k]` yields. */
  function Lookup(m: ObjectMap, k: nat): ObjHandle
  {
    if k in m then m[k] else DefaultObjHandle
  }

  /** A lookup "finds" a record when the entry it yields has a nonzero handle. */
  predicate Found(m: ObjectMap, k: nat)
  {
    Lookup(m, k).handle != 0
  }

  /** The map after evaluating `ObjectMap[k]`. */
  function Subscript(m: ObjectMap, k: nat): (m': ObjectMap)
    ensures m'.Keys == m.Keys + {k}
    ensures m'[k] == Lookup(m, k)
    ensures m' - {k} == m - {k}
  {
    if k in m then m else m[k := DefaultObjHandle]
  }

  /** `oc = ObjectMap[k]; ObjectMap.erase(k);` */
  function TakeByKey(m: ObjectMap, k: nat): (m': ObjectMap)
    ensures m' == m - {k}
    ensures k !in m'
  {
    Subscript(m, k) - {k}
  }

  /** `oc = ObjectMap[k]; ObjectMap.erase(oc.handle);` */
  function TakeByHandle(m: ObjectMap, k: nat): (m': ObjectMap)
    ensures Found(m, k) ==> m' == m - {Lookup(m, k).handle}
    ensures !Found(m, k) && k != 0 ==> k in m' && m'[k] == Lookup(m, k) && m' - {k} == m - {k, 0}
    ensures !Found(m, k) && k == 0 ==> m' == m - {0}
  {
    Subscript(m, k) - {Lookup(m, k).handle}
  }

  /**
   * Every entry is filed under its own handle, or is a placeholder with
   * handle 0. readDwgHandles builds the map this way; placeholders are what
   * `operator[]` inserts.
   */
  ghost predicate WellKeyed(m: ObjectMap)
  {
    forall k | k in m :: m[k].handle == k || m[k].handle == 0
  }

  /** On a well-keyed map, a found record is erased under its own key. */
  lemma TakeByHandleFound(m: ObjectMap, k: nat)
    requires WellKeyed(m) && Found(m, k)
    ensures TakeByHandle(m, k) == m - {k}
    ensures k !in TakeByHandle(m, k)
  {
  }

  /** A missing record leaves a placeholder behind under the key that was looked up. */
  lemma TakeByHandleMissing(m: ObjectMap, k: nat)
    requires k != 0 && k !in m
    ensures TakeByHandle(m, k) == (m - {0})[k := DefaultObjHandle]
  {
    assert TakeByHandle(m, k) == (m - {0})[k := DefaultObjHandle];
  }

  /** Neither way of consuming an entry breaks well-keyedness. */
  lemma TakePreservesWellKeyed(m: ObjectMap, k: nat)
    requires WellKeyed(m)
    ensures WellKeyed(TakeByKey(m, k))
    ensures WellKeyed(TakeByHandle(m, k))
  {
  }

  /** Erasing a key never enlarges the map, and erasing a present key shrinks it. */
  lemma RemoveCard(m: ObjectMap, k: nat)
    ensures |m - {k}| <= |m|
    ensures k in m ==> |m - {k}| < |m|
  {
    assert (m - {k}).Keys == m.Keys - {k};
    if k in m {
      assert m.Keys == (m - {k}).Keys + {k};
    } else {
      assert m - {k} == m;
    }
  }

  /** A map whose keys are among another's is no larger. */
  lemma SubKeysCard(a: ObjectMap, b: ObjectMap)
    requires a.Keys <= b.Keys
    ensures |a| <= |b|
  {
    assert |a.Keys| <= |b.Keys| by {
      SubsetCard(a.Keys, b.Keys);
    }
  }

  lemma SubsetCard(a: set<nat>, b: set<nat>)
    requires a <= b
    ensures |a| <= |b|
  {
    assert b == a + (b - a);
  }
}
